=== FILE: README.md ===
# NaCsSLM protocol and state model

This project is a Dafny model of NaCsSLM, a set of ZeroMQ services that drive a spatial light modulator (SLM) and its cameras. It covers the following parts.

- **Servers.** Each server is a worker owning a ROUTER socket.
  - The SLM server (`Server`) serves six commands and keeps a phase manager.
  - The camera server (`CameraServer`) answers an eleven-command camera catalog.
  - The Andor camera server (`AndorServer`) answers the same catalog with a deferred reply: the worker parks a recognised command, the application fetches it and calls `reply`, and the worker sends the reply.
- **Clients.** Each client is a REQ socket whose calls send a multi-part request and collect the replies with `poll_recv`.
  - `Client` covers the request encodings, the `calculate_save_and_project` chain, configuration loading and saving, and the `save_config` parser.
  - `FeedbackClient` keeps a `connected` flag and falls back to default values.
  - `CameraClient` is a camera whose properties are requests to a camera server.
- **Shared transport.** The three servers carry identical copies of the non-blocking receive, the `finish_recv` drain and the `safe_send` framing `[addr, b'', item0 … itemN]`. The model holds them once, in module `Transport`, and cites `lib/Server.py`. The other copies are at `lib/CameraServer.py:108-148` and `lib/AndorServer.py:113-153`.
- **Containers.** `Canvas` and `PhaseManager` are classes whose methods update grids in place. `Grids` holds the value-level grid algebra they are specified by.
- **Utilities.** The save and load path scheme of `lib/utils.py`, `get_target` and the feedback callback's fallback.
- **Protocol.** Module `Protocol` connects the two sides: what a client call puts on the wire is what the server handler parses.

## Modelling conventions

- **Frames.** A frame is a `seq<byte>`.
- **Text.** `send_string` and `recv_string` are modelled as Latin-1, one byte per character.
- **Polling.** A poll that times out is a poll on an empty inbound queue.
- **Exceptions.** A Python exception is a `Raise`/`Err` value carrying the exception's class name.
- **Floats.** A float64 is 8 opaque bytes (`F64`). `np.frombuffer` is the cut into 8-byte words, and `tobytes` is their concatenation.
- **Parameters.** Everything outside the repository's code becomes a parameter:
  - files on disk;
  - the current directory, path separator and timestamp;
  - the phases slmsuite computes for a lens or a Zernike sum;
  - `int()` of a float, which returns an int or the exception it raises (ValueError for NaN, OverflowError for an infinity);
  - the random camera image;
  - the `ast.literal_eval` parser.

## Model

| member | source | states |
|---|---|---|
| Wire.KindOf | lib/Server.py:142-145 | a reply item goes out with `send_string` exactly when its type tag is 1 |
| Wire.EncodeText | lib/Server.py:142-143 | `send_string` puts one byte per character on the wire, each the character's code |
| Wire.DecodeText | lib/Server.py:120-121 | `recv_string` yields one character per byte, each with the byte's value |
| Wire.TextRoundTrip | lib/Server.py:120-121 | a string sent with `send_string` is received unchanged by `recv_string` |
| Wire.ToBytesLE | lib/Client.py:200 | `int.to_bytes(k, 'little')` succeeds exactly for 0 <= v < 256^k, gives k bytes that read back as v, and otherwise raises OverflowError |
| Wire.LeRoundTrip | lib/Server.py:222 | `int.from_bytes(…, 'little')` inverts the client's `to_bytes` for every value that fits |
| Wire.LeDecodeEncode | lib/Server.py:222 | every byte string is the little-endian encoding of its own value, which is below 256^length |
| Wire.Words | lib/Server.py:216 | `np.frombuffer` yields one float64 per 8 bytes |
| Wire.FromBuffer | lib/Server.py:216-219 | `np.frombuffer` succeeds exactly on a length divisible by 8, yielding length/8 floats |
| Wire.ToBuffer | lib/Client.py:197-199 | `tobytes` of n float64s is 8n bytes |
| Wire.BufferRoundTrip | lib/Server.py:216-219 | the server's `np.frombuffer` recovers exactly the floats the client's `tobytes` sent |
| Wire.DropLast | lib/Client.py:598 | `s[:-k]` for k > 0 drops the last k elements, and yields the empty string when s is shorter |
| Wire.DropLastOfAppend | lib/Client.py:598 | stripping a non-empty suffix by its length gives back the string it was appended to |
| Transport.Sent | lib/Server.py:133-147 | the items `safe_send` gets out before a missing tag (IndexError) or a misfitting item (TypeError) stops it: all fit, and the next one, if any, fails |
| Transport.SentAll | lib/Server.py:133-147 | every item goes out exactly when the reply is sendable |
| Transport.TrySend | lib/Server.py:133-147 | `safe_send` completes exactly when an address was received and every item fits its tag; it then emits the whole envelope, with a `None` address nothing, and otherwise a strict prefix that starts with the address and delimiter |
| Transport.EnvelopeShape | lib/Server.py:136-145 | a reply is the address, the empty delimiter, then one frame per item of the item's kind and payload, with "more" set on all but the last frame |
| Transport.Recv | lib/Server.py:115-117 | a non-blocking receive returns None on an empty queue and otherwise the first frame, consuming it |
| Transport.ItemsArrive | lib/Server.py:142-145 | a REQ peer reading each item frame with the receive of its kind gets back the item the handler built |
| Transport.RouterSocket.SafeRecv | lib/Server.py:115-117 | returns None without consuming on an empty queue; otherwise pops the first frame; sends nothing |
| Transport.RouterSocket.SafeRecvString | lib/Server.py:119-121 | as SafeRecv, with the frame decoded as text |
| Transport.RouterSocket.FinishRecv | lib/Server.py:123-131 | the drain loop empties the inbound queue and sends nothing |
| Transport.RouterSocket.TrySafeSend | lib/Server.py:133-147 | drains the queue, then appends exactly the frames `TrySend` describes and reports whether the send completed |
| Transport.RouterSocket.SafeSend | lib/Server.py:133-147 | on a sendable reply, drains the queue and appends exactly the reply envelope |
| Requests.Message | lib/Client.py:196-200 | a request part by part: texts encoded, bytes as given, `SNDMORE` on every part but the last |
| Requests.Interrupted | lib/Client.py:101-105 | a body that raises after some parts has sent exactly those parts, all flagged "more", and its error is recorded |
| Requests.Collect | lib/Client.py:106-114 | one reply entry per requested kind |
| Requests.CollectSpec | lib/Client.py:106-114 | entry i is the i-th waiting frame read with the i-th kind, and is None exactly when no i-th frame was waiting |
| Requests.CollectSplit | lib/Client.py:106-114 | collecting two kind lists in turn equals collecting their concatenation |
| Requests.ReqSocket.Transmit | lib/Client.py:101-102 | the body's frames are appended to what was sent; nothing is read |
| Requests.ReqSocket.CollectReplies | lib/Client.py:106-114 | the polling loop returns `Collect` of the waiting frames and consumes exactly the frames it read |
| CameraClient.Recv1 | lib/CameraClient.py:96-103 | `recv1` returns the first reply entry |
| CameraClient.Recv1Int | lib/CameraClient.py:105-112 | `recv1int` succeeds exactly on a received binary frame and yields its unsigned little-endian value |
| CameraClient.Recv1Float | lib/CameraClient.py:114-122 | `recv1float` succeeds exactly on a received binary frame of a positive multiple of 8 bytes, and yields its first 8 bytes |
| CameraClient.Reshape | lib/CameraClient.py:130-132 | `np.reshape` to rows x cols is row-major: cell (i, j) is element i·cols + j |
| CameraClient.Recv1Arr | lib/CameraClient.py:124-135 | `recv1arr` succeeds exactly when the frame holds rows·cols float64s, and yields them reshaped |
| CameraClient.SetExposureRequest | lib/CameraClient.py:174-176 | with a value, two frames and no error; without `tobytes`, the name alone went out, flagged "more", and AttributeError is raised |
| CameraClient.SetWoiRequest | lib/CameraClient.py:180-185 | `set_woi(None)` sends nothing, and any other call sends the name and the window |
| CameraClient.CameraClient.PollRecv | lib/CameraClient.py:76-94 | the body's frames go out whatever it raised, and the replies are `Collect` of the waiting frames |
| CameraClient.CameraClient.Close | lib/CameraClient.py:137-140 | sends "close" and returns the first string reply |
| CameraClient.CameraClient.Info | lib/CameraClient.py:160-163 | sends "info" and returns the first string reply |
| CameraClient.CameraClient.GetExposure | lib/CameraClient.py:167-170 | sends "get_exposure" and returns `Recv1Float` of one binary reply |
| CameraClient.CameraClient.SetExposure | lib/CameraClient.py:172-176 | sends `SetExposureRequest`'s frames and returns the first string reply |
| CameraClient.CameraClient.SetWoi | lib/CameraClient.py:178-185 | sends `SetWoiRequest`'s frames and returns the first string reply |
| CameraClient.CameraClient.GetImage | lib/CameraClient.py:187-192 | sends "get_image" and returns the reply reshaped to the camera's shape, `(height, width)`: one row per pixel row |
| CameraClient.CameraClient.Flush | lib/CameraClient.py:194-197 | sends "flush" and returns the first string reply |
| CameraClient.CameraClient.GetInt | lib/CameraClient.py:199-212 | `get_width`, `get_height` and `get_depth` send their name and decode one binary reply as an integer |
| CameraClient.CameraClient.GetSerial | lib/CameraClient.py:214-217 | sends "get_serial" and returns the first string reply |
| CameraClient.Connect | lib/CameraClient.py:55-69 | `__init__` asks for width, height, depth and serial in that order; it succeeds exactly when the three integer replies decode, and the shape is (height, width): rows from the second reply, columns from the first |
| CameraClient.CallsNameServerCommands | lib/CameraClient.py:137-217 | every client call sends its own name first, and that name is one the camera server serves |
| CameraServer.Configure | lib/CameraServer.py:25-37 | set-up succeeds exactly with a url and a virtual camera, and the server listens on that url |
| CameraServer.Handler | lib/CameraServer.py:167-214 | every handler's answer is a single item that fits its tag |
| CameraServer.Dispatch | lib/CameraServer.py:77-106 | `handle_msg` returns False exactly for a name outside the catalog and True only for a catalog name; every answer is one three-frame envelope to the sender with the message drained; a raising handler sends nothing; a missing name sends '' and then raises |
| CameraServer.Step | lib/CameraServer.py:154-165 | a poll timeout does nothing and keeps running; a message without a command frame kills the worker; an unknown command keeps it running; a surviving pass has drained the message, and whatever is sent goes to the sender's address |
| CameraServer.DispatchCatalog | lib/CameraServer.py:77-106 | an unknown name gets '' and False; a catalog name without argument gets its handler's reply and True; a True outcome always comes from a catalog name |
| CameraServer.ArgumentHandlers | lib/CameraServer.py:195-206 | `set_exposure` succeeds exactly on a non-empty whole number of float64s and `set_woi` on any whole number; success replies "set" / "woi set"; failure raises with nothing sent |
| CameraServer.MalformedMessage | lib/CameraServer.py:154-165 | with the command frame missing, the worker sends "Send more" then '' and dies |
| CameraServer.UnknownKeepsServing | lib/CameraServer.py:154-165 | an unknown command gets '' and the worker keeps running |
| CameraServer.CameraServer.constructor | lib/CameraServer.py:20-53 | a fresh server on the url with empty queues, no request and a running worker |
| CameraServer.CameraServer.HandleMsg | lib/CameraServer.py:77-106 | the socket moves exactly as `Dispatch` says and the outcome is its outcome |
| CameraServer.CameraServer.WorkerStep | lib/CameraServer.py:154-165 | a Stop request ends the worker untouched; otherwise one pass does `Step` of the waiting frames |
| AndorServer.KnownIsParked | lib/AndorServer.py:106-111 | a catalog command parks exactly its name and sender, sends nothing, and leaves later frames queued |
| AndorServer.UnknownIsRefused | lib/AndorServer.py:102-105 | an unknown command gets '' and the worker keeps running |
| AndorServer.IntakeAnswersSender | lib/AndorServer.py:162-170 | whatever the intake does, it parks or answers the sender's address; the worker dies exactly when the command frame is missing |
| AndorServer.AndorServer.constructor | lib/AndorServer.py:21-54 | no request is pending, no reply is staged, and the worker runs |
| AndorServer.AndorServer.HandleMsg | lib/AndorServer.py:78-111 | a catalog name sets Pending with the name and address and sends nothing; any other name gets '' and leaves the request state; a missing name also raises |
| AndorServer.AndorServer.SetReply | lib/AndorServer.py:186-191 | `reply` stores the payload and its tags and sets Reply |
| AndorServer.AndorServer.PendingCommand | lib/AndorServer.py:181-184 | the fetched command is the parked one exactly while a request is pending |
| AndorServer.AndorServer.StopWorker | lib/AndorServer.py:61-67 | stopping sets the Stop request and nothing else |
| AndorServer.AndorServer.WorkerStep | lib/AndorServer.py:159-178 | Stop ends the worker; Pending waits; Reply sends the staged reply to the parked address, and dies if it cannot; NoRequest does the intake `TakeIn` describes |
| AndorServer.DeferredRoundTrip | lib/AndorServer.py:159-191 | a parked command answered by `reply` reaches its sender as the reply envelope; Reply stays set, so the next pass sends the same frames again |
| AndorServer.AndorServer.CheckReqFromWorkerAsWritten | lib/AndorServer.py:181-184 | as written, `check_req_from_worker` returns None in every state |
| AndorServer.AndorServer.StopWorkerAsWritten | lib/AndorServer.py:61-67 | as written, `stop_worker` changes nothing |
| AndorServer.StopScenario | lib/AndorServer.py:61-67 | after the as-written `stop_worker` the worker still runs; after the corrected one it stops |
| Grids.Zeros | lib/PhaseManager.py:8 | `np.zeros(shape)` has the shape, and every cell is 0 |
| Grids.Tabulate | lib/Canvas.py:40-41 | a grid built from a function of the coordinates has the function's value in each cell |
| Grids.Map2 | lib/PhaseManager.py:30 | an elementwise operation on two same-shape grids keeps the shape and acts cell by cell |
| Grids.Add | lib/PhaseManager.py:30 | array addition is cellwise |
| Grids.Ext | lib/Canvas.py:29-34 | two grids of one shape with equal cells are equal |
| Grids.BroadcastAdd | lib/PhaseManager.py:17-18 | numpy broadcasting of a rectangular array against an array of shape (rows, cols): each axis has the length of the longer operand, and a length-1 axis reads its single entry |
| Grids.BroadcastSameShape | lib/PhaseManager.py:17-18 | broadcasting two arrays of one shape is cellwise addition |
| Grids.AddZeros | lib/PhaseManager.py:8-10 | adding a zero grid on either side changes nothing |
| Grids.AddAssoc | lib/PhaseManager.py:30-35 | successive additions regroup freely; `PhaseManager.AccumulatedConcat` rests on it |
| PhaseManager.PhaseManager.constructor | lib/PhaseManager.py:5-11 | base and additional are zero grids of the SLM shape, `base_source` is '' and `add_log` is empty |
| PhaseManager.PhaseManager.SetBase | lib/PhaseManager.py:13-15 | replaces base and source; additional and log unchanged |
| PhaseManager.Sum | lib/PhaseManager.py:17-18 | numpy's `base + additional`: defined exactly when the base has the SLM shape or broadcasts against it; cellwise sum for the same shape; for a broadcast base, the broadcast shape, with a length-1 axis of either operand repeated |
| PhaseManager.PhaseManager.Get | lib/PhaseManager.py:17-18 | `get()` is `Sum` of the manager's current base and additional phase |
| PhaseManager.PhaseManager.ResetBase | lib/PhaseManager.py:20-22 | base becomes zeros and source ''; additional and log unchanged |
| PhaseManager.PhaseManager.ResetAdditional | lib/PhaseManager.py:24-26 | additional becomes zeros and the log empty; base unchanged |
| PhaseManager.PhaseManager.AddFresnelLens | lib/PhaseManager.py:28-31 | adds the lens phase to additional and logs the focal length; base unchanged |
| PhaseManager.PhaseManager.AddZernikePoly | lib/PhaseManager.py:33-36 | adds the Zernike phase to additional and logs the terms; base unchanged |
| PhaseManager.Accumulated | lib/PhaseManager.py:24-36 | the additional phase after a reset and a series of additions has the SLM shape |
| PhaseManager.AccumulatedCells | lib/PhaseManager.py:24-36 | each cell of the accumulated phase is the sum of that cell over the additions |
| PhaseManager.AccumulatedConcat | lib/PhaseManager.py:28-36 | two runs of `add_fresnel_lens`/`add_zernike_poly` additions accumulate to the sum of each run's accumulation |
| PhaseManager.AdditionsAccumulate | lib/PhaseManager.py:24-36 | a lens then a Zernike sum after a reset leave additional equal to their accumulation and log both in order |
| Canvas.RowIndex | lib/Canvas.py:40-41 | the row-coordinate grid has value i in row i |
| Canvas.ColIndex | lib/Canvas.py:40-41 | the column-coordinate grid has value j in column j |
| Canvas.Canvas.constructor | lib/Canvas.py:5-15 | `shape()` is the pixel count given, and amplitude and phase are zeros |
| Canvas.Canvas.AddAmp | lib/Canvas.py:29-38 | succeeds exactly on a grid of the canvas shape and then adds it to the amplitude; on a mismatch nothing changes; the phase never changes |
| Canvas.Canvas.AddPhase | lib/Canvas.py:43-45 | as AddAmp, for the phase |
| Canvas.Canvas.ReplaceAmp | lib/Canvas.py:50-52 | succeeds exactly on a grid of the canvas shape and then the amplitude is that grid; the phase never changes |
| Canvas.Canvas.ReplacePhase | lib/Canvas.py:54-56 | as ReplaceAmp, for the phase |
| Canvas.Canvas.AddFnToAmp | lib/Canvas.py:40-41 | each amplitude cell (i, j) grows by fn(i, j); the phase is unchanged |
| Canvas.Canvas.AddFnToPhase | lib/Canvas.py:47-48 | each phase cell (i, j) grows by fn(i, j); the amplitude is unchanged |
| Canvas.InitializationScenario | test_Canvas.py:7-11 | a 2x3 canvas has shape (2, 3) and zero amplitude and phase |
| Canvas.AddScenario | test_Canvas.py:13-22 | the test's two amplitude additions give the expected sum and the phase addition gives the expected phase |
| Canvas.FnScenario | test_Canvas.py:24-32 | adding `x**2 + y**2` to a zero amplitude gives the expected grid |
| Utils.Concat | lib/utils.py:45 | string concatenation succeeds exactly when no part is None, and otherwise raises TypeError |
| Utils.ConcatStrings | lib/utils.py:45 | concatenating strings gives their concatenation |
| Utils.Defaulted | lib/utils.py:13-29 | after defaulting every option is set, and options the caller gave are kept |
| Utils.DefaultValues | lib/utils.py:13-29 | missing flags default to False, path to the working directory, name to '', prefix to the timestamp and crop to True; defaulting is idempotent |
| Utils.SaveSlmCalculation | lib/utils.py:9-91 | the config path `path + sep + prefix + name + "_config.yml"` is returned exactly when config is requested, and the data path, the same stem + `"_data.npz"`, exactly when a data array is; a None path part raises TypeError exactly when a file is to be written |
| Utils.SavedKeys | lib/utils.py:49-85 | the npz holds `slm_phase`, `ff_amp` and `target` exactly when requested, and is empty exactly when no data is wanted |
| Utils.LoadSlmCalculation | lib/utils.py:93-103 | the config is opened exactly when requested, and likewise the data |
| Utils.SaveThenLoad | lib/utils.py:86-103 | loading from the saved data path without its `_data.npz` opens exactly the files just saved |
| Utils.SaveAddPhase | lib/utils.py:105-140 | the config path `path + sep + prefix + name + "_add_phase_config.yml"` and the data path, the same stem + `"_add_phase_data.npz"`, are returned exactly when requested; a None path part raises TypeError exactly when a file is to be written |
| Utils.LoadAddPhase | lib/utils.py:142-152 | the config is opened exactly when requested, and likewise the data |
| Utils.SaveThenLoadAddPhase | lib/utils.py:137-152 | loading from the saved path without `_add_phase_data.npz` opens exactly the files just saved |
| Utils.RowHitsSpec | lib/utils.py:155 | the nonzero cells of one row, listed left to right without repeats |
| Utils.NonZeroSpec | lib/utils.py:155 | `np.nonzero` lists exactly the nonzero cells, in row-major order |
| Utils.GetTarget | lib/utils.py:154-160 | the target has two rows of one column per nonzero cell, row 0 holding the x (column) index and row 1 the y (row) index; without a "target" array there is no target |
| Utils.ExternalSpotAmp | lib/utils.py:170-176 | the [-1.0] sentinel becomes nspots ones, and any other reply, None included, is stored as it is |
| Utils.SentinelNeverStored | lib/utils.py:170-176 | the sentinel itself is never stored |
| Server.Configure | lib/Server.py:22-46 | set-up succeeds exactly with a url; the two algorithm settings are set exactly when an `alg` section exists |
| Server.ConfigDefaults | lib/Server.py:33-46 | pattern path defaults to '', computational space to (2048, 2048) and iterations to 20 |
| Server.SetupError | lib/Server.py:161-194 | the worker starts exactly with a virtual or fully keyed hamamatsu SLM and a virtual or url-keyed network camera |
| Server.LoadBase | lib/Server.py:206-210 | the phase grids keep the SLM shape |
| Server.UsePattern | lib/Server.py:206-212 | the phase grids keep the SLM shape |
| Server.CalculateSpec | lib/Server.py:214-236 | the phase grids keep the SLM shape |
| Server.UnflattenSpec | lib/Server.py:272-276 | the terms exist exactly when every n and m converts with `int`; then there is one (int(n), int(m), coefficient) term per triple, in row order; otherwise the exception is that of the first n or m, in row order, that does not convert |
| Server.UnflattenFails | lib/Server.py:274-276 | the loop raises exactly when some n or m does not convert, and then with the first such exception |
| Server.UnflattenTerms | lib/Server.py:274-276 | when the loop succeeds, term i is row i's `((int(n), int(m)), w)` |
| Server.UnflattenStops | lib/Server.py:274-276 | once a prefix of whole rows raises, the whole loop raises the same exception |
| Server.ZernikeTerms | lib/Server.py:274-276 | the appending loop, which leaves on the first `int()` that raises, builds exactly `Unflatten` of the values |
| Server.AddZernikeSpec | lib/Server.py:269-283 | the phase grids keep the SLM shape |
| Server.AddFresnelSpec | lib/Server.py:258-267 | the phase grids keep the SLM shape |
| Server.ResetAdditionalSpec | lib/Server.py:285-287 | the phase grids keep the SLM shape |
| Server.Handle | lib/Server.py:85-99 | every handler keeps the phase grids at the SLM shape |
| Server.Dispatch | lib/Server.py:85-104 | message handling keeps the phase grids at the SLM shape |
| Server.Step | lib/Server.py:195-203 | a worker pass keeps the phase grids at the SLM shape |
| Server.PhaseFile | lib/Server.py:252-255 | `load_phase(fname)` opens `pattern_path + fname + "_data.npz"` |
| Server.SaveCalculationSpec | lib/Server.py:238-250 | `save_calculation` changes no state and drains the path and name frames; without a hologram it replies (None, None); with one, a missing frame raises TypeError and otherwise the reply is the config and data paths under path + sep + timestamp + name |
| Server.MalformedMessage | lib/Server.py:195-203 | a message without a command frame is answered "Send more" and then '', after which the worker raises and ends, the state untouched |
| Server.UnknownCommand | lib/Server.py:99-102 | an unknown command gets '', returns False and changes no state |
| Server.HandlerReplies | lib/Server.py:85-103 | every handler's answer is sendable, except `save_calculation` without a hologram |
| Server.SaveCalculationReplies | lib/Server.py:238-250 | the `save_calculation` reply is sendable exactly when a hologram exists |
| Server.KnownCommand | lib/Server.py:85-104 | a served command's reply goes to the sender whole and returns True; without a hologram `save_calculation` sends only the address and delimiter and raises; the state is the handler's |
| Server.OddTargets | lib/Server.py:225-236 | an odd number of target floats is answered with the "not integer number of targets" error and changes nothing |
| Server.EvenTargets | lib/Server.py:215-233 | 2N target floats run one calculation on x = first N and y = last N, with the amplitudes and the given or default iterations, then reply "ok" |
| Server.SaveCalculationReply | lib/Server.py:238-250 | the reply is the config and data paths under path + sep + timestamp + name, and loading that stem opens those two files |
| Server.ZernikeFrame | lib/Server.py:269-283 | "ok" exactly for whole triples whose every n and m converts; then the Zernike phase of the unflattened terms is added to the additional phase and the terms are logged; a ragged frame raises ValueError, a failing `int()` its own exception, and neither changes the state |
| Server.FresnelFrame | lib/Server.py:258-267 | "ok" exactly for a frame of whole float64s; then the lens phase of those focal lengths is added to the additional phase and they are logged; otherwise ValueError and no change |
| Server.Server.constructor | lib/Server.py:22-61 | zero phases, no hologram, nothing calculated or written; the worker runs exactly when the hardware set-up succeeds |
| Server.Server.UsePatternStep | lib/Server.py:206-212 | the phase manager and socket move as `UsePattern` says |
| Server.Server.CalculateStep | lib/Server.py:214-236 | the state and socket move as `CalculateSpec` says |
| Server.Server.SaveCalculationStep | lib/Server.py:238-250 | the state and socket move as `SaveCalculationSpec` says |
| Server.Server.AddFresnelStep | lib/Server.py:258-267 | the phase manager and socket move as `AddFresnelSpec` says |
| Server.Server.AddZernikeStep | lib/Server.py:269-283 | the phase manager and socket move as `AddZernikeSpec` says |
| Server.Server.ResetAdditionalStep | lib/Server.py:285-287 | the phase manager moves as `ResetAdditionalSpec` says |
| Server.Server.HandleMsg | lib/Server.py:85-104 | the state, outcome and socket move as `Dispatch` says |
| Server.Server.WorkerStep | lib/Server.py:195-203 | a Stop request ends the worker untouched; otherwise one pass does `Step`, and the worker dies exactly when a handler raises |
| Server.InitAsWritten | lib/Server.py:61 | as written, `__init__` always fails: with a url, on the unassigned `self.slm` |
| Server.InitFinding | lib/Server.py:61 | every configuration that `Configure` accepts is rejected by the as-written `__init__` |
| Server.UsePatternAsWritten | lib/Server.py:206-212 | as written, `use_pattern` keeps the phase shape but never answers |
| Server.UsePatternAsWrittenNeverReplies | lib/Server.py:211 | the as-written handler always raises; it leaves the state of the corrected one, minus the SLM write |
| Server.UsePatternFinding | lib/Server.py:206-212 | on a stored phase, the as-written handler loads it and raises TypeError; the corrected one also writes base + additional and answers "ok" |
| Client.PathRequest | lib/Client.py:139-155 | a path is sent after the command name; a None path raises TypeError after the name went out |
| Client.CalculateRequest | lib/Client.py:180-201 | the request succeeds exactly for 0 <= iterations < 256, with the iterations as a single byte; otherwise OverflowError after three frames |
| Client.LeSingleByte | lib/Client.py:200 | one-byte `to_bytes` of a small value is that byte |
| Client.ScanFeedbackRequest | lib/Client.py:504-522 | succeeds exactly when niters fits one byte and NumPerParamAvg fits four, and the frames read back as those values |
| Client.DefaultAverageRaises | lib/Client.py:504 | with the default NumPerParamAvg = -1 the request raises OverflowError after two frames |
| Client.Exchange | lib/Client.py:99-117 | the call returns None exactly when its body raised, and otherwise one entry per kind |
| Client.ChainStopsUnlessOk | lib/Client.py:590-601 | a non-"ok" calculate reply (a timeout included) ends the chain after the calculate request; "ok" is followed by exactly the save, use_pattern (saved path minus 9 characters) and project requests |
| Client.Client.constructor | lib/Client.py:71-77 | the handshake sends "id" and consumes its reply |
| Client.Client.PollRecv | lib/Client.py:99-117 | the socket and result move as `Exchange` says |
| Client.Client.CalculateSaveAndProject | lib/Client.py:575-601 | the frames sent, the replies consumed and the result are those of `CalculateSaveAndProjectSpec` |
| Client.Client.LoadAndProject | lib/Client.py:603-619 | sends use_pattern with the file name, then project, and returns both replies as `LoadAndProjectSpec` says |
| Client.Client.LoadConfig | lib/Client.py:635-656 | no configuration: nothing sent; otherwise the entries' requests go out in order, their replies are consumed and routing stops at the first exception |
| Client.Client.LoadEntries | lib/Client.py:639-656 | the loop over entries sends and consumes exactly what `Routes` gives |
| Client.Client.LoadEntry | lib/Client.py:640-655 | one entry sends and consumes exactly what its route gives |
| Client.ArrayOf | lib/Client.py:647 | `np.array` of a parsed literal: a number gives one element; a list succeeds exactly when all its items are numbers, element by element |
| Client.ZernikeRow | lib/Client.py:652 | the row `[item[0][0], item[0][1], item[1]]`, or the first failing subscript's exception in Python's order: a number subscripted is TypeError, a list too short IndexError |
| Client.ZernikeList | lib/Client.py:650-652 | the loop gives one row of three per entry |
| Client.ZernikeListSpec | lib/Client.py:650-652 | the loop succeeds exactly when every entry gives a row, row i is entry i's, and otherwise it raises the first failing entry's exception |
| Client.ZernikeRows | lib/Client.py:649-653 | n parsed terms become 3n floats |
| Client.ZernikeRowsSpec | lib/Client.py:649-653 | the floats exist exactly when every entry gives a row of three numbers, float 3i + k is number k of entry i's row, and the first subscript error wins over a non-number in an earlier entry |
| Client.ZernikeErrors | lib/Client.py:649-653 | concrete lists: a bare number entry or pair is TypeError, a one-number pair IndexError, a nested value ValueError, and a later IndexError beats an earlier nested value |
| Client.Route | lib/Client.py:639-655 | an entry is skipped exactly when its key is none of pattern, fourier_calibration, file_correction…, fresnel_lens…, zernike or offset; a sent entry sends a non-empty request |
| Client.RoutesStopAtFirstFailure | lib/Client.py:639-656 | an exception at entry i ends loading with exactly the requests of the entries before it |
| Client.Split | lib/Client.py:696 | `split(';')` gives at least one part, none holding the separator |
| Client.SplitJoin | lib/Client.py:696 | joining the parts with the separator gives back the string |
| Client.Decimal | lib/Client.py:707 | `str(n)` is a non-empty string of digits |
| Client.DecimalRoundTrip | lib/Client.py:707 | `str(n)` reads back as n |
| Client.SuffixedInjective | lib/Client.py:705-734 | two saved entries never share a key: key plus counter determines both |
| Client.Pairs | lib/Client.py:702-704 | part 2i is the key and part 2i + 1 the value, and a trailing odd part is dropped |
| Client.StoredValues | lib/Client.py:702-734 | the i-th pair with a kept key is stored under its key suffixed with its occurrence count, with its value |
| Client.StoredKeys | lib/Client.py:702-734 | every stored key is a kept key with digits appended, and no more keys than pairs are stored |
| Client.ParseCorrections | lib/Client.py:696-734 | the counter loop builds exactly `Stored` of the pairs |
| Client.Client.SaveConfig | lib/Client.py:677-734 | sends `get_base` then `get_additional_phase` and returns what `SaveConfigSpec` computes from the replies |
| Client.SaveConfigSpec | lib/Client.py:691-696 | the save succeeds exactly when both replies arrive, and then "pattern" holds the base reply |
| Client.SavedKeysOnReload | lib/Client.py:639-734 | of the saved keys, reloading skips every "file" key and the later "zernike" and "offset" keys, and keeps all others |
| FeedbackClient.GatherSpec | lib/Client.py:810-821 | entry i is the i-th frame read with its kind, or the default for its kind after a timeout; a missing default is IndexError |
| FeedbackClient.Poll | lib/Client.py:799-823 | disconnected: nothing sent, the defaults returned; a raising body gives None; otherwise the flag drops exactly on a timeout and the frames read are consumed |
| FeedbackClient.SpotAmpsRequest | lib/Client.py:844-848 | three text frames flagged "more", then NumPerParamAvg in four bytes; OverflowError exactly when it does not fit |
| FeedbackClient.SpotAmps | lib/Client.py:825-836 | `recv1arr` on a binary reply succeeds exactly on a whole number of float64s and yields them |
| FeedbackClient.FeedbackClient.constructor | lib/Client.py:781-794 | the connection starts marked connected, with the scan file, scan name and averaging given |
| FeedbackClient.FeedbackClient.PollRecv | lib/Client.py:799-823 | the flag, socket and result move as `Poll` says |
| FeedbackClient.FeedbackClient.SendId | lib/Client.py:838-840 | the "id" call is `Poll` with the "Not connected" default |
| FeedbackClient.FeedbackClient.GetSpotAmps | lib/Client.py:842-848 | the corrected call polls with the [-1.0] default and decodes the reply as float64s |
| FeedbackClient.FeedbackClient.GetSpotAmpsAsWritten | lib/Client.py:842 | as written, the call returns the inner decorator itself |
| FeedbackClient.Open | lib/Client.py:781-794 | the handshake needs a reply frame, else IndexError; then it sends "id", consumes one frame and stays connected |
| FeedbackClient.SpotAmpsCases | lib/Client.py:799-848 | disconnected or timed out: the sentinel [-1.0]; the default averaging: None after three frames; a whole reply: its floats |
| FeedbackClient.SendIdCases | lib/Client.py:838-840 | disconnected: "Not connected"; a reply: that text; a timeout: IndexError, from the default list of one |
| FeedbackClient.DisconnectedFeedbackIsUniform | lib/utils.py:170-176 | once disconnected, the callback with the corrected `get_spot_amps` always sets uniform spot amplitudes of 1 |
| Protocol.SideBytesValue | lib/CameraServer.py:167-169 | the camera server's width bytes read back as 1024 |
| Protocol.CameraGetters | lib/CameraServer.py:167-181 | the client reads the server's width and height as 1024, its depth as 8 and its serial as "test_camera" |
| Protocol.OneByte | lib/Server.py:222 | a one-byte little-endian frame reads back as its byte |
| Protocol.CalculateRoundTrip | lib/Client.py:180-201 | the server parses a calculate request into one calculation with the client's x, y, amplitudes and iterations (0 meaning the default), and answers "ok" |
| Protocol.DataPathReply | lib/Client.py:596-598 | the client strips the server's data path back to the saved stem |
| Protocol.UsePatternOpens | lib/Server.py:206-210 | use_pattern of a stem opens that stem's `_data.npz` and sets its `slm_phase` as base |
| Protocol.SaveThenUsePattern | lib/Client.py:595-599 | the chain's use_pattern request opens the very data file save_calculation wrote and loads its phase as base |
| Protocol.ZernikeRequest | lib/Client.py:648-653 | a routed zernike entry sends `add_zernike_poly` with the flattened rows of the parsed list |
| Protocol.ZernikeTermsOfRows | lib/Server.py:272-276 | the server's unflattening of the client's rows succeeds exactly when every entry's n and m converts, and then gives one term per entry, `((int(n), int(m)), w)` of its `[[n, m], w]` |
| Protocol.RowsFlatten | lib/Client.py:649-653 | values 3i, 3i + 1 and 3i + 2 of the flattened rows are the numbers of entry i's row |
| Protocol.ConvertsIff | lib/Server.py:274-276 | every n and m of the flattened rows converts exactly when every entry's does |
| Protocol.ZernikeEntryReachesServer | lib/Client.py:648-653 | a routed zernike entry is answered "ok" exactly when every entry's n and m converts with `int`; the server then adds the Zernike phase of the same terms to the additional phase and logs them, term by term; otherwise it raises and its state is unchanged |
| Protocol.FresnelEntryReachesServer | lib/Client.py:646-647 | a routed fresnel_lens entry is answered "ok", and the server adds the lens phase of the same focal lengths to the additional phase and logs them |
| Protocol.UnservedCommands | lib/Server.py:85-104 | id, project, get_base, get_additional_phase, add_offset, use_correction and load_fourier_calibration are answered '' by the SLM server, so `save_config` against it saves an empty pattern |

## Left out

- ZeroMQ itself: sockets, contexts, `recreate_sock`, poll timeouts as durations, infinite timeouts and REQ send/receive alternation. A timeout is an empty queue.
- Threads and locks: `start_worker`, the worker thread and `__del__`. Each worker pass is one method call; a handler exception ends the worker, as an uncaught exception ends the thread.
- `stop_worker` of `Server` and `CameraServer`: their `hasattr('__worker')` test is name-mangled as in `AndorServer`. Only the Andor copy is modelled (see Findings).
- Configuration files and YAML: the server and client configuration is a datatype of the keys read. The client's construction from a config path (`lib/Client.py:57-69`) is not modelled, and that path opens the file named `True`. `load_config` and `save_config` are modelled from their parsed dictionaries; file writing is not.
- `ast.literal_eval` is a parameter `eval` that returns a number or a (possibly nested) list of numbers. Strings, tuples and dictionaries are not modelled.
- Client.ArrayOf: a list of equal-length lists, which `np.array` turns into a two-dimensional array, is treated as ValueError; only numbers and flat lists of numbers are converted.
- Client.ZernikeRows: entries whose three values are all lists of one shape, which numpy turns into a deeper array instead of raising, are treated as ValueError.
- PhaseManager.Sum: a base with no rows is compared with the SLM shape only (a zero-row grid carries no column count), and the broadcast of one-dimensional arrays and scalars is not modelled.
- Text is Latin-1. UTF-8 encoding and decoding errors of `recv_string` are not modelled.
- Floating point: float64 values are opaque 8-byte words, and `int()` of a float is a parameter that may raise (NaN, infinities). Arithmetic on phases is on `real`, with no float32/float64 rounding and no dtype conversion.
- slmsuite: lens and Zernike phases, `iface.calculate`, the hologram object, writing to the SLM and projecting are parameters or recorded values. `lib/Interface.py`, `lib/CorrectedSLM.py`, `lib/SLM.py`, `lib/Alg.py`, `lib/AlgConfig.py` and `lib/SLMConfig.py` are not part of this model.
- The other `send_*` builders of `Client`: only their frame shapes matter to the routing and the chain, and those are modelled for the requests the chain and `_load_config` send. Further builders follow `Requests.Message`.
- `get_amp` and `get_phase` without a type argument are the `amp` and `phase` fields; the dtype conversion is left out. `add_fn_to_*` applies `fn` cell by cell; numpy broadcasting of other shapes is left out.
- The camera server's integer replies are 8 bytes, numpy's default integer width on most platforms; the 4-byte replies of numpy before 2.0 on Windows are not modelled.
- The camera image is a parameter. The `CameraServer` hardware set-up beyond the presence of its keys is not modelled.
- `FeedbackClient.recv1arr`'s reshape and dtype arguments are not modelled; only the default float64 reading is.
- Printing, plotting, timestamps as clock reads, and pattern generation in `lib/utils.py`.
- Server.LoadBase: the function's own contract states only that the phase grids keep their shape. What it loads is stated in Protocol.UsePatternOpens and Server.UsePatternFinding.
- Server.UsePattern: its contract states only the shape invariant; its behaviour is stated in Server.UsePatternFinding.
- Server.UsePatternAsWritten: its contract states only the shape invariant; Server.UsePatternAsWrittenNeverReplies states that it never answers.
- Server.CalculateSpec: its contract states only the shape invariant; its behaviour is stated in Server.OddTargets, Server.EvenTargets and Protocol.CalculateRoundTrip.
- Server.AddZernikeSpec: its contract states only the shape invariant; its replies, exceptions, additional phase and log are stated in Server.ZernikeFrame and Protocol.ZernikeEntryReachesServer.
- Server.AddFresnelSpec: its contract states only the shape invariant; its replies, exceptions, additional phase and log are stated in Server.FresnelFrame and Protocol.FresnelEntryReachesServer.
- Server.ResetAdditionalSpec: its contract states only the shape invariant. The reset itself is PhaseManager.PhaseManager.ResetAdditional.
- Server.Handle: its contract states only the shape invariant; replies are stated in Server.HandlerReplies.
- Server.Dispatch: its contract states only the shape invariant; replies are stated in Server.KnownCommand and Server.UnknownCommand.
- Server.Step: its contract states only the shape invariant; a pass is Server.Dispatch of the received command, and a message without a command frame is stated in Server.MalformedMessage.
- Server.SaveCalculationSpec: the save itself (the files written and their contents) is left out; only the reply and the unchanged state are stated.

## Findings

| source | as written | input that shows it | evidently intended | confidence | as-written member | corrected member |
|---|---|---|---|---|---|---|
| lib/AndorServer.py:182 | `self.__check_worker_req == self.WorkerRequest.Pending` compares the bound method, not its result, so the test is always false | any call while a command is pending | return the parked command while the request state is Pending | high, not executed | AndorServer.AndorServer.CheckReqFromWorkerAsWritten | AndorServer.AndorServer.PendingCommand |
| lib/AndorServer.py:62 | `hasattr(self, '__worker')` looks up an unmangled name, while the attribute is stored as `_AndorServer__worker`, so `stop_worker` never stops the worker | `stop_worker()` on a running server | set the Stop request and join the worker | high, not executed | AndorServer.AndorServer.StopWorkerAsWritten | AndorServer.AndorServer.StopWorker |
| lib/Server.py:211 | `use_pattern` calls `write_to_SLM` with a different number of arguments from the one declared at lib/Interface.py:265, so the handler raises TypeError after loading the base and never answers | `use_pattern` of any stored pattern | write base + additional to the SLM and reply "ok" | medium, not executed | Server.UsePatternAsWritten | Server.UsePattern |
| lib/Server.py:61 | `PhaseManager(self.slm)` reads an attribute `__init__` never assigns, so every construction raises AttributeError; the worker thread started at lib/Server.py:57-58 keeps serving the socket after `__init__` has raised | any configuration with a url | build the phase manager for the SLM's shape | medium, not executed | Server.InitAsWritten | Server.Server.constructor |
| lib/Client.py:842 | `@recv1arr` is applied without parentheses, so `get_spot_amps` returns the inner decorator, and `feedback_client_callback` stores a function as `external_spot_amp` | any `get_spot_amps()` call | `@recv1arr()`, returning the amplitudes or the [-1.0] sentinel | high, not executed | FeedbackClient.FeedbackClient.GetSpotAmpsAsWritten | FeedbackClient.FeedbackClient.GetSpotAmps |

=== FILE: andor_server.dfy ===
/** The Andor camera server: the camera catalog, answered with a deferred
    reply. The worker parks a recognised command and its reply address and
    waits; the application fetches the command, calls `reply()` with the
    payload, and the worker sends it. */
module AndorServer {
  import opened Wire
  import opened Transport
  import CameraServer

  datatype WorkerRequest = NoRequest | Stop | Pending | Reply

  /** `handle_msg` recognises the same eleven names as the camera server. */
  predicate Known(name: string) {
    name in CameraServer.Commands
  }

  /** What a worker step in the `NoRequest` state does with the inbound
      frames: nothing has arrived; a recognised command is parked with its
      address (the frames after it stay queued); or a '' reply goes out, after
      a "Send more" when the command frame is missing, in which case printing
      the missing name raises and the worker ends. */
  datatype Intake =
    | Idle
    | Park(name: string, addr: seq<byte>, rest: seq<seq<byte>>)
    | Refuse(sent: seq<Out>, alive: bool)

  function TakeIn(inbound: seq<seq<byte>>): Intake {
    if inbound == [] then Idle
    else
      var addr := inbound[0];
      if |inbound| < 3 then
        Refuse(Envelope(addr, [1], [Str("Send more")]) + Envelope(addr, [1], [Str("")]), false)
      else
        var name := DecodeText(inbound[2]);
        if Known(name) then Park(name, addr, inbound[3..])
        else Refuse(Envelope(addr, [1], [Str("")]), true)
  }

  /** A recognised command parks exactly its name and the sender's address
      and sends nothing; the frames after it are left for the next drain. */
  lemma KnownIsParked(addr: seq<byte>, delimiter: seq<byte>, name: string, args: seq<seq<byte>>)
    requires IsLatin1(name) && Known(name)
    ensures TakeIn([addr, delimiter, EncodeText(name)] + args) == Park(name, addr, args)
  {
    TextRoundTrip(name);
    assert ([addr, delimiter, EncodeText(name)] + args)[2] == EncodeText(name);
    assert ([addr, delimiter, EncodeText(name)] + args)[3..] == args;
  }

  /** Any other name is refused with one '' text frame to the sender, and the
      worker keeps serving. */
  lemma UnknownIsRefused(addr: seq<byte>, delimiter: seq<byte>, name: string, args: seq<seq<byte>>)
    requires IsLatin1(name) && !Known(name)
    ensures TakeIn([addr, delimiter, EncodeText(name)] + args) == Refuse(Envelope(addr, [1], [Str("")]), true)
  {
    TextRoundTrip(name);
    assert ([addr, delimiter, EncodeText(name)] + args)[2] == EncodeText(name);
  }

  /** Parking never sends, and a refusal always answers the sender: its
      first frame is the sender's address. */
  lemma IntakeAnswersSender(inbound: seq<seq<byte>>)
    requires inbound != []
    ensures TakeIn(inbound).Park? ==> TakeIn(inbound).addr == inbound[0]
    ensures TakeIn(inbound).Refuse? ==>
      TakeIn(inbound).sent != [] && TakeIn(inbound).sent[0] == Out(Binary, inbound[0], true)
    ensures TakeIn(inbound).Refuse? && !TakeIn(inbound).alive <==> |inbound| < 3
  {
  }

  class AndorServer {
    const url: string
    const sock: RouterSocket
    var req: WorkerRequest
    /** The parked command (`__req_from_worker`) and its reply address. */
    var reqFromWorker: Option<string>
    var repAddr: Option<seq<byte>>
    /** The payload stored by `reply()`; `None` until the first call. */
    var msgType: Option<seq<int>>
    var data: Option<seq<Item>>
    /** The worker thread is alive: no exception has escaped its loop. */
    var running: bool

    /** The `Reply` state is entered only by `reply()`, which stores a payload. */
    ghost predicate Valid()
      reads this
    {
      req == Reply ==> msgType.Some? && data.Some?
    }

    constructor (url: string)
      ensures Valid()
      ensures this.url == url && fresh(sock) && sock.inbound == [] && sock.outbound == []
      ensures req == NoRequest && running
      ensures reqFromWorker == None && repAddr == None && msgType == None && data == None
    {
      this.url := url;
      sock := new RouterSocket();
      req := NoRequest;
      reqFromWorker := None;
      repAddr := None;
      msgType := None;
      data := None;
      running := true;
    }

    /** `handle_msg`: park a recognised command and its address and switch to
        `Pending`, sending nothing; answer '' to anything else. A missing name
        raises after the '' reply, in the concatenation that prints it. */
    method HandleMsg(addr: seq<byte>, msg: Option<string>) returns (outcome: Outcome)
      modifies this, sock
      ensures msgType == old(msgType) && data == old(data) && running == old(running)
      ensures msg.Some? && Known(msg.value) ==>
        && outcome == Returned(true)
        && req == Pending && reqFromWorker == msg && repAddr == Some(addr)
        && sock.inbound == old(sock.inbound) && sock.outbound == old(sock.outbound)
      ensures !(msg.Some? && Known(msg.value)) ==>
        && outcome == (if msg.None? then Raised else Returned(false))
        && req == old(req) && reqFromWorker == old(reqFromWorker) && repAddr == old(repAddr)
        && sock.inbound == [] && sock.outbound == old(sock.outbound) + Envelope(addr, [1], [Str("")])
    {
      if msg.Some? && Known(msg.value) {
        reqFromWorker := msg;
        repAddr := Some(addr);
        req := Pending;
        outcome := Returned(true);
      } else {
        sock.SafeSend(addr, [1], [Str("")]);
        outcome := if msg.None? then Raised else Returned(false);
      }
    }

    /** `reply(msg_type, rep)`: store the payload and switch to `Reply`,
        whatever the state was. */
    method SetReply(types: seq<int>, items: seq<Item>)
      modifies this
      ensures Valid()
      ensures msgType == Some(types) && data == Some(items) && req == Reply
      ensures reqFromWorker == old(reqFromWorker) && repAddr == old(repAddr) && running == old(running)
    {
      msgType := Some(types);
      data := Some(items);
      req := Reply;
    }

    /** `check_req_from_worker` as written: it compares the bound method
        `__check_worker_req` itself, not its result, with `Pending`; the
        comparison is never true, so the function always falls through. */
    function CheckReqFromWorkerAsWritten(): (r: Option<string>)
      reads this
      ensures r == None
    {
      None
    }

    /** `check_req_from_worker` comparing the flag: the parked command while
        one is pending. */
    function PendingCommand(): (r: Option<string>)
      reads this
      ensures r.Some? <==> req == Pending && reqFromWorker.Some?
      ensures r.Some? ==> r == reqFromWorker
    {
      if req == Pending then reqFromWorker else None
    }

    /** `stop_worker` as written: `hasattr(self, '__worker')` looks for the
        unmangled name, which the instance never has, so nothing happens. */
    method StopWorkerAsWritten()
      ensures req == old(req) && running == old(running)
    {
    }

    /** `stop_worker` testing the attribute it set: raise the `Stop` flag. */
    method StopWorker()
      modifies this
      ensures req == Stop
      ensures reqFromWorker == old(reqFromWorker) && repAddr == old(repAddr)
      ensures msgType == old(msgType) && data == old(data) && running == old(running)
    {
      req := Stop;
    }

    /** One iteration of `__worker_func`. `Stop` ends the loop; `NoRequest`
        polls and takes in a message; `Pending` waits; `Reply` clears the
        parked command and sends the stored payload to the stored address,
        staying in `Reply`, so the payload goes out again on every later
        iteration. */
    method WorkerStep()
      requires running && Valid()
      modifies this, sock
      ensures Valid()
      ensures msgType == old(msgType) && data == old(data)
      ensures old(req) == Stop ==>
        !running && req == Stop && unchanged(sock)
        && reqFromWorker == old(reqFromWorker) && repAddr == old(repAddr)
      ensures old(req) == Pending ==>
        running && req == Pending && unchanged(sock)
        && reqFromWorker == old(reqFromWorker) && repAddr == old(repAddr)
      ensures old(req) == Reply ==>
        var a := TrySend(old(repAddr), old(msgType).value, old(data).value);
        && req == Reply && reqFromWorker == None && repAddr == old(repAddr)
        && running == a.ok && sock.inbound == [] && sock.outbound == old(sock.outbound) + a.frames
      ensures old(req) == NoRequest ==>
        match TakeIn(old(sock.inbound))
        case Idle =>
          running && req == NoRequest && unchanged(sock)
          && reqFromWorker == old(reqFromWorker) && repAddr == old(repAddr)
        case Park(name, addr, rest) =>
          running && req == Pending && reqFromWorker == Some(name) && repAddr == Some(addr)
          && sock.inbound == rest && sock.outbound == old(sock.outbound)
        case Refuse(sent, alive) =>
          running == alive && req == NoRequest
          && reqFromWorker == old(reqFromWorker) && repAddr == old(repAddr)
          && sock.inbound == [] && sock.outbound == old(sock.outbound) + sent
    {
      if req == Stop {
        running := false;
      } else if req == NoRequest {
        if sock.inbound == [] {
          return;
        }
        var addr := sock.SafeRecv();
        var delimit := sock.SafeRecvString();
        var msg := sock.SafeRecvString();
        if msg.None? {
          sock.SafeSend(addr.value, [1], [Str("Send more")]);
        }
        var outcome := HandleMsg(addr.value, msg);
        if outcome == Raised {
          running := false;
        }
      } else if req == Reply {
        reqFromWorker := None;
        var ok := sock.TrySafeSend(repAddr, msgType.value, data.value);
        running := ok;
      }
    }
  }

  /** A command's round trip through the deferred reply: the worker parks
      it, the application sees it pending and answers, and the next worker
      step sends that answer to the command's sender; the Reply state then
      repeats the answer on the step after. */
  method DeferredRoundTrip(addr: seq<byte>, delimiter: seq<byte>, name: string, answer: string)
    returns (first: seq<Out>, second: seq<Out>)
    requires IsLatin1(name) && Known(name)
    ensures first == Envelope(addr, [1], [Str(answer)])
    ensures second == first
  {
    var s := new AndorServer("tcp://*:5555");
    s.sock.Deliver([addr, delimiter, EncodeText(name)]);
    KnownIsParked(addr, delimiter, name, []);
    assert [addr, delimiter, EncodeText(name)] + [] == [addr, delimiter, EncodeText(name)];
    s.WorkerStep();
    assert s.PendingCommand() == Some(name);
    assert s.CheckReqFromWorkerAsWritten() == None;
    s.SetReply([1], [Str(answer)]);
    s.WorkerStep();
    first := s.sock.outbound;
    s.WorkerStep();
    second := s.sock.outbound[|first|..];
  }

  /** Stopping: as written the flag never changes and the worker keeps
      polling; with the flag raised the next step ends the worker. */
  method StopScenario() returns (stillRunning: bool, stopped: bool)
    ensures stillRunning && stopped
  {
    var s := new AndorServer("tcp://*:5555");
    s.StopWorkerAsWritten();
    s.WorkerStep();
    stillRunning := s.running;
    s.StopWorker();
    s.WorkerStep();
    stopped := !s.running;
  }
}

=== FILE: camera_client.dfy ===
/** The camera client: a slmsuite camera whose every property is a request
    to a camera server. Each call sends its command, swallowing any exception
    its body raises, collects the replies and decodes the first one. */
module CameraClient {
  import opened Wire
  import opened Transport
  import opened Requests
  import CameraServer

  /** `recv1`: the first entry of the reply list. */
  function Recv1(rep: seq<Option<Item>>): (r: Option<Item>)
    requires |rep| > 0
    ensures r == rep[0]
  {
    rep[0]
  }

  /** `recv1int`: the first entry as an unsigned little-endian integer;
      `int.from_bytes` raises on a missing frame. */
  function Recv1Int(rep: seq<Option<Item>>): (r: Result<int>)
    requires |rep| > 0
    ensures r.Ok? <==> rep[0].Some? && rep[0].value.Bytes?
    ensures r.Ok? ==> r.value == FromBytesLE(rep[0].value.bytes) && r.value >= 0
  {
    match rep[0]
    case Some(Bytes(b)) => Ok(FromBytesLE(b))
    case _ => Err("TypeError")
  }

  /** `recv1float`: the first float64 of the first entry. */
  function Recv1Float(rep: seq<Option<Item>>): (r: Result<F64>)
    requires |rep| > 0
    ensures r.Ok? <==> rep[0].Some? && rep[0].value.Bytes? && |rep[0].value.bytes| % 8 == 0 && |rep[0].value.bytes| >= 8
    ensures r.Ok? ==> r.value == rep[0].value.bytes[..8]
  {
    match rep[0]
    case Some(Bytes(b)) =>
      if |b| % 8 != 0 then Err("ValueError")
      else if b == [] then Err("IndexError")
      else Ok(Words(b)[0])
    case _ => Err("TypeError")
  }

  /** `np.reshape(w, (rows, cols))`, row-major. */
  function Reshape(w: seq<F64>, rows: nat, cols: nat): (g: seq<seq<F64>>)
    requires |w| == rows * cols
    ensures |g| == rows
    ensures forall i | 0 <= i < rows :: |g[i]| == cols && forall j | 0 <= j < cols :: g[i][j] == Cell(w, i, j, rows, cols)
  {
    seq(rows, i requires 0 <= i < rows => seq(cols, j requires 0 <= j < cols => Cell(w, i, j, rows, cols)))
  }

  /** `w[i * cols + j]`, the data behind cell (i, j). */
  function Cell(w: seq<F64>, i: nat, j: nat, rows: nat, cols: nat): (x: F64)
    requires |w| == rows * cols && i < rows && j < cols
    ensures i * cols + j < |w| && x == w[i * cols + j]
  {
    RowMajorIndex(i, j, rows, cols);
    w[i * cols + j]
  }

  /** `recv1arr((rows, cols))`: the first entry as float64s reshaped to
      `rows` rows of `cols`. */
  function Recv1Arr(rep: seq<Option<Item>>, rows: nat, cols: nat): (r: Result<seq<seq<F64>>>)
    requires |rep| > 0
    ensures r.Ok? <==> rep[0].Some? && rep[0].value.Bytes? && |rep[0].value.bytes| % 8 == 0 && |rep[0].value.bytes| / 8 == rows * cols
    ensures r.Ok? ==> r.value == Reshape(Words(rep[0].value.bytes), rows, cols)
  {
    match rep[0]
    case Some(Bytes(b)) =>
      if |b| % 8 != 0 || |b| / 8 != rows * cols then Err("ValueError")
      else Ok(Reshape(Words(b), rows, cols))
    case _ => Err("TypeError")
  }

  /** Cell (i, j) of a `rows` x `cols` array lies inside its row-major data. */
  lemma RowMajorIndex(i: nat, j: nat, rows: nat, cols: nat)
    requires i < rows && j < cols
    ensures i * cols + j < rows * cols
  {
    calc {
      i * cols + j;
    <
      i * cols + cols;
    ==
      (i + 1) * cols;
    <=  { assert i + 1 <= rows; }
      rows * cols;
    }
  }

  /** The body of a getter or of `close`, `info` and `flush`: the command
      name alone. */
  function Plain(name: string): Request {
    Command(name, [])
  }

  /** `set_exposure(exposure_s)`: the name, then the value's bytes; a value
      without `tobytes` raises after the name went out. */
  function SetExposureRequest(exposure: Option<seq<byte>>): (r: Request)
    ensures exposure.Some? ==> r.error.None? && |r.frames| == 2
    ensures exposure.None? ==> r.error.Some? && |r.frames| == 1 && r.frames[0].more
  {
    if exposure.Some? then Command("set_exposure", [BinaryPart(exposure.value)])
    else Interrupted([TextPart("set_exposure")], "AttributeError")
  }

  /** `set_woi(woi)`: nothing at all for `None`. */
  function SetWoiRequest(woi: Option<seq<byte>>): (r: Request)
    ensures woi.None? <==> r.frames == []
    ensures r.error.None?
  {
    if woi.Some? then Command("set_woi", [BinaryPart(woi.value)]) else Request([], None)
  }

  /** The names the client's calls send, one per call. */
  const Names: seq<string> := [
    "close", "info", "get_exposure", "set_exposure", "set_woi", "get_image",
    "flush", "get_width", "get_height", "get_depth", "get_serial"]

  class CameraClient {
    const sock: ReqSocket
    /** `self.shape`, which the superclass sets to `(height, width)` from
        the width and height it is given. */
    var rows: nat
    var cols: nat

    /** The socket part of `__init__`, before the server is asked anything. */
    constructor (replies: seq<seq<byte>>)
      ensures fresh(sock) && sock.inbound == replies && sock.outbound == []
      ensures rows == 0 && cols == 0
    {
      sock := new ReqSocket(replies);
      rows := 0;
      cols := 0;
    }

    /** `poll_recv(kinds)` around a body: the body's frames go out, its
        exception is dropped, and one entry per kind is collected. */
    method PollRecv(req: Request, kinds: seq<int>) returns (rep: seq<Option<Item>>)
      modifies sock
      ensures rep == Collect(kinds, old(sock.inbound))
      ensures sock.outbound == old(sock.outbound) + req.frames
      ensures sock.inbound == Unread(kinds, old(sock.inbound))
    {
      sock.Transmit(req);
      rep := sock.CollectReplies(kinds);
    }

    method Close() returns (r: Option<Item>)
      modifies sock
      ensures r == Collect([1], old(sock.inbound))[0]
      ensures sock.outbound == old(sock.outbound) + Plain("close").frames
      ensures sock.inbound == Unread([1], old(sock.inbound))
    {
      var rep := PollRecv(Plain("close"), [1]);
      r := Recv1(rep);
    }

    method Info() returns (r: Option<Item>)
      modifies sock
      ensures r == Collect([1], old(sock.inbound))[0]
      ensures sock.outbound == old(sock.outbound) + Plain("info").frames
      ensures sock.inbound == Unread([1], old(sock.inbound))
    {
      var rep := PollRecv(Plain("info"), [1]);
      r := Recv1(rep);
    }

    method GetExposure() returns (r: Result<F64>)
      modifies sock
      ensures r == Recv1Float(Collect([0], old(sock.inbound)))
      ensures sock.outbound == old(sock.outbound) + Plain("get_exposure").frames
      ensures sock.inbound == Unread([0], old(sock.inbound))
    {
      var rep := PollRecv(Plain("get_exposure"), [0]);
      r := Recv1Float(rep);
    }

    method SetExposure(exposure: Option<seq<byte>>) returns (r: Option<Item>)
      modifies sock
      ensures r == Collect([1], old(sock.inbound))[0]
      ensures sock.outbound == old(sock.outbound) + SetExposureRequest(exposure).frames
      ensures sock.inbound == Unread([1], old(sock.inbound))
    {
      var rep := PollRecv(SetExposureRequest(exposure), [1]);
      r := Recv1(rep);
    }

    method SetWoi(woi: Option<seq<byte>>) returns (r: Option<Item>)
      modifies sock
      ensures r == Collect([1], old(sock.inbound))[0]
      ensures sock.outbound == old(sock.outbound) + SetWoiRequest(woi).frames
      ensures sock.inbound == Unread([1], old(sock.inbound))
    {
      var rep := PollRecv(SetWoiRequest(woi), [1]);
      r := Recv1(rep);
    }

    method GetImage() returns (r: Result<seq<seq<F64>>>)
      modifies sock
      ensures r == Recv1Arr(Collect([0], old(sock.inbound)), rows, cols)
      ensures sock.outbound == old(sock.outbound) + Plain("get_image").frames
      ensures sock.inbound == Unread([0], old(sock.inbound))
    {
      var rep := PollRecv(Plain("get_image"), [0]);
      r := Recv1Arr(rep, rows, cols);
    }

    method Flush() returns (r: Option<Item>)
      modifies sock
      ensures r == Collect([1], old(sock.inbound))[0]
      ensures sock.outbound == old(sock.outbound) + Plain("flush").frames
      ensures sock.inbound == Unread([1], old(sock.inbound))
    {
      var rep := PollRecv(Plain("flush"), [1]);
      r := Recv1(rep);
    }

    /** `get_width`, `get_height` and `get_depth` differ only in the name. */
    method GetInt(name: string) returns (r: Result<int>)
      requires name in ["get_width", "get_height", "get_depth"]
      modifies sock
      ensures r == Recv1Int(Collect([0], old(sock.inbound)))
      ensures sock.outbound == old(sock.outbound) + Plain(name).frames
      ensures sock.inbound == Unread([0], old(sock.inbound))
    {
      var rep := PollRecv(Plain(name), [0]);
      r := Recv1Int(rep);
    }

    method GetSerial() returns (r: Option<Item>)
      modifies sock
      ensures r == Collect([1], old(sock.inbound))[0]
      ensures sock.outbound == old(sock.outbound) + Plain("get_serial").frames
      ensures sock.inbound == Unread([1], old(sock.inbound))
    {
      var rep := PollRecv(Plain("get_serial"), [1]);
      r := Recv1(rep);
    }
  }

  /** `__init__`: the superclass is given the width, height, depth and
      serial read from the server, in that order, and takes the shape to be
      `(height, width)`; a missing integer reply makes `int.from_bytes`
      raise. */
  method Connect(replies: seq<seq<byte>>) returns (r: Result<CameraClient>)
    ensures r.Ok? <==>
      && Recv1Int(Collect([0], replies)).Ok?
      && Recv1Int(Collect([0], Unread([0], replies))).Ok?
      && Recv1Int(Collect([0], Unread([0], Unread([0], replies)))).Ok?
    ensures r.Ok? ==>
      && fresh(r.value) && fresh(r.value.sock)
      && r.value.rows == Recv1Int(Collect([0], Unread([0], replies))).value
      && r.value.cols == Recv1Int(Collect([0], replies)).value
      && r.value.sock.outbound ==
           Plain("get_width").frames + Plain("get_height").frames + Plain("get_depth").frames + Plain("get_serial").frames
  {
    var c := new CameraClient(replies);
    var width := c.GetInt("get_width");
    if width.Err? {
      return Err(width.error);
    }
    var height := c.GetInt("get_height");
    if height.Err? {
      return Err(height.error);
    }
    var depth := c.GetInt("get_depth");
    if depth.Err? {
      return Err(depth.error);
    }
    var serial := c.GetSerial();
    c.rows := height.value;
    c.cols := width.value;
    return Ok(c);
  }

  /** Every call sends its own name first, and a name the camera server
      serves; only `set_woi(None)` sends nothing. */
  lemma CallsNameServerCommands(exposure: Option<seq<byte>>, woi: Option<seq<byte>>)
    ensures forall n | n in Names :: n in CameraServer.Commands
    ensures forall n | n in Names :: Plain(n).frames == [Out(Text, EncodeText(n), false)]
    ensures SetExposureRequest(exposure).frames[0] == Out(Text, EncodeText("set_exposure"), true)
    ensures woi.Some? ==> SetWoiRequest(woi).frames == [Out(Text, EncodeText("set_woi"), true), Out(Binary, woi.value, false)]
  {
  }
}

=== FILE: camera_server.dfy ===
/** The camera server: an eleven-command catalog answered synchronously by a
    worker that owns the ROUTER socket. The simulated ("virtual") camera gives
    constant replies; `get_image` returns a random buffer, which the model
    takes as a parameter. */
module CameraServer {
  import opened Wire
  import opened Transport

  datatype WorkerRequest = NoRequest | Stop

  /** The configuration keys `__init__` reads: `url`, and `camera` with its
      `type` (`Some(None)`: a camera section without a type). */
  datatype CameraConfig = CameraConfig(url: Option<string>, camera: Option<Option<string>>)

  /** The URL the server binds, or the exception `__init__` raises. */
  function Configure(cfg: CameraConfig): (r: Result<string>)
    ensures r.Ok? <==> cfg.url.Some? && cfg.camera == Some(Some("virtual"))
    ensures r.Ok? ==> r.value == cfg.url.value
  {
    if cfg.url.None? then Err("Exception")
    else if cfg.camera.None? then Err("Exception")
    else if cfg.camera.value.None? then Err("KeyError")
    else if cfg.camera.value.value != "virtual" then Err("Exception")
    else Ok(cfg.url.value)
  }

  const Commands: seq<string> := [
    "get_width", "get_height", "get_depth", "get_serial", "close", "info",
    "get_exposure", "set_exposure", "set_woi", "get_image", "flush"]

  /** The two handlers that read one argument frame before replying. */
  predicate TakesArgument(name: string) {
    name == "set_exposure" || name == "set_woi"
  }

  /** `np.array([1024]).tobytes()`: one int64, little-endian, where numpy's
      default integer is 64 bits wide (on Windows before numpy 2 it is 32
      bits and the reply is 4 bytes; the client reads 1024 either way). */
  const SideBytes: seq<byte> := LeDigits(1024, 8)

  /** `np.array([0.1]).tobytes()`: the IEEE-754 double 0x3FB999999999999A, little-endian. */
  const ExposureBytes: F64 := [0x9A, 0x99, 0x99, 0x99, 0x99, 0x99, 0xB9, 0x3F]

  /** What each handler returns for the argument frame it read (if it reads
      one) and the random image buffer. */
  function Handler(name: string, arg: Option<seq<byte>>, image: seq<byte>): (h: Handled)
    requires name in Commands
    ensures h.Answer? ==> Sendable(h.types, h.items) && |h.items| == 1
  {
    if name == "get_width" then Answer([0], [Bytes(SideBytes)])
    else if name == "get_height" then Answer([0], [Bytes(SideBytes)])
    else if name == "get_depth" then Answer([0], [Bytes(ToBytesLE(8, 1).value)])
    else if name == "get_serial" then Answer([1], [Str("test_camera")])
    else if name == "close" then Answer([1], [Str("ok")])
    else if name == "info" then Answer([1], [Str("some_info")])
    else if name == "get_exposure" then Answer([0], [Bytes(ExposureBytes)])
    else if name == "set_exposure" then
      // np.frombuffer(None) is a TypeError, a ragged buffer a ValueError, and
      // exposure[0] of an empty array an IndexError
      if arg.None? then Raise("TypeError")
      else if FromBuffer(arg.value).Err? then Raise("ValueError")
      else if arg.value == [] then Raise("IndexError")
      else Answer([1], [Str("set")])
    else if name == "set_woi" then
      if arg.None? then Raise("TypeError")
      else if FromBuffer(arg.value).Err? then Raise("ValueError")
      else Answer([1], [Str("woi set")])
    else if name == "get_image" then Answer([0], [Bytes(image)])
    else Answer([1], [Str("flushed")])
  }

  /** The frames a `handle_msg` call sends, the inbound frames it leaves, and
      how it ends. */
  datatype Effect = Effect(sent: seq<Out>, rest: seq<seq<byte>>, outcome: Outcome)

  /** `handle_msg(addr, msg_str)` with `inbound` the frames still unread. */
  function Dispatch(addr: seq<byte>, msg: Option<string>, inbound: seq<seq<byte>>, image: seq<byte>): (r: Effect)
    ensures r.outcome == Returned(false) <==> msg.Some? && msg.value !in Commands
    ensures r.outcome == Returned(true) ==> msg.Some? && msg.value in Commands
    ensures r.outcome != Raised ==> r.rest == [] && |r.sent| == 3 && r.sent[0] == Out(Binary, addr, true)
    ensures r.outcome == Raised && msg.Some? ==> r.sent == []
    ensures msg.None? ==> r.outcome == Raised && r.sent == Envelope(addr, [1], [Str("")])
  {
    if msg.Some? && msg.value in Commands then
      var takes := TakesArgument(msg.value) && inbound != [];
      var arg := if takes then Some(inbound[0]) else None;
      var rest := if takes then inbound[1..] else inbound;
      match Handler(msg.value, arg, image)
      case Answer(types, items) =>
        EnvelopeShape(addr, types, items);
        Effect(Envelope(addr, types, items), [], Returned(true))
      case Raise(_) => Effect([], rest, Raised)
    else
      // the '' reply goes out, then "Unknown request " + None raises for a missing name
      EnvelopeShape(addr, [1], [Str("")]);
      Effect(Envelope(addr, [1], [Str("")]), [], if msg.None? then Raised else Returned(false))
  }

  /** One pass of `__worker_func`'s loop while the flag is `NoRequest`. */
  datatype StepEffect = StepEffect(sent: seq<Out>, rest: seq<seq<byte>>, alive: bool)

  function Step(inbound: seq<seq<byte>>, image: seq<byte>): (r: StepEffect)
    ensures inbound == [] ==> r == StepEffect([], [], true)
    ensures inbound != [] && |inbound| < 3 ==> !r.alive
    ensures |inbound| >= 3 && DecodeText(inbound[2]) !in Commands ==> r.alive
    ensures r.alive ==> r.rest == []
    ensures r.sent != [] ==> inbound != [] && r.sent[0] == Out(Binary, inbound[0], true)
  {
    if inbound == [] then StepEffect([], [], true)   // the poll timed out
    else
      var addr := inbound[0];
      if |inbound| < 3 then
        // no command frame: "Send more", then handle_msg(addr, None)
        var e := Dispatch(addr, None, [], image);
        StepEffect(Envelope(addr, [1], [Str("Send more")]) + e.sent, e.rest, e.outcome != Raised)
      else
        var e := Dispatch(addr, Some(DecodeText(inbound[2])), inbound[3..], image);
        StepEffect(e.sent, e.rest, e.outcome != Raised)
  }

  // ----------------------------------------------------------------- lemmas

  /** Every catalog name is answered with its handler's reply and `True`
      unless the handler raised; an unknown name gets one '' text frame and
      `False`; in both cases what is left of the message is drained. */
  lemma DispatchCatalog(addr: seq<byte>, name: string, inbound: seq<seq<byte>>, image: seq<byte>)
    ensures var e := Dispatch(addr, Some(name), inbound, image);
      && (name !in Commands ==>
            e == Effect(Envelope(addr, [1], [Str("")]), [], Returned(false)))
      && (name in Commands && !TakesArgument(name) ==>
            var h := Handler(name, None, image);
            h.Answer? && e == Effect(Envelope(addr, h.types, h.items), [], Returned(true)))
      && (e.outcome == Returned(true) ==> name in Commands && e.rest == [])
  {
  }

  /** `set_exposure` and `set_woi` read exactly one argument frame, and
      answer from it alone: `set_exposure` replies "set" exactly when the
      frame holds at least one float64, `set_woi` replies "woi set" exactly
      when it holds whole float64s. Frames after it are drained by the reply,
      or left unread when the handler raises. */
  lemma {:induction false} ArgumentHandlers(addr: seq<byte>, arg: seq<byte>, later: seq<seq<byte>>, image: seq<byte>)
    ensures var e := Dispatch(addr, Some("set_exposure"), [arg] + later, image);
      && (e.outcome == Returned(true) <==> |arg| % 8 == 0 && |arg| > 0)
      && (e.outcome == Returned(true) ==> e.sent == Envelope(addr, [1], [Str("set")]))
      && (e.outcome != Returned(true) ==> e.outcome == Raised && e.sent == [] && e.rest == later)
    ensures var e := Dispatch(addr, Some("set_woi"), [arg] + later, image);
      && (e.outcome == Returned(true) <==> |arg| % 8 == 0)
      && (e.outcome == Returned(true) ==> e.sent == Envelope(addr, [1], [Str("woi set")]))
      && (e.outcome != Returned(true) ==> e.outcome == Raised && e.sent == [] && e.rest == later)
  {
    assert ([arg] + later)[0] == arg && ([arg] + later)[1..] == later;
    assert "set_exposure" in Commands && "set_woi" in Commands;
  }

  /** A message without a command frame is answered "Send more"; the missing
      name is then handed to `handle_msg`, which also sends '' and raises
      while printing it, so the worker ends. */
  lemma MalformedMessage(inbound: seq<seq<byte>>, image: seq<byte>)
    requires 1 <= |inbound| < 3
    ensures Step(inbound, image) == StepEffect(
      Envelope(inbound[0], [1], [Str("Send more")]) + Envelope(inbound[0], [1], [Str("")]), [], false)
  {
  }

  /** An unknown command leaves the worker running with nothing left to
      read, so the next message is served normally. */
  lemma UnknownKeepsServing(addr: seq<byte>, delimiter: seq<byte>, name: string, args: seq<seq<byte>>, image: seq<byte>)
    requires IsLatin1(name) && name !in Commands
    ensures Step([addr, delimiter, EncodeText(name)] + args, image) ==
      StepEffect(Envelope(addr, [1], [Str("")]), [], true)
  {
    TextRoundTrip(name);
    assert ([addr, delimiter, EncodeText(name)] + args)[2] == EncodeText(name);
  }

  // ------------------------------------------------------------------ server

  class CameraServer {
    const url: string
    const sock: RouterSocket
    var req: WorkerRequest
    /** The worker thread is alive: no exception has escaped its loop. */
    var running: bool

    constructor (url: string)
      ensures this.url == url && fresh(sock)
      ensures sock.inbound == [] && sock.outbound == []
      ensures req == NoRequest && running
    {
      this.url := url;
      sock := new RouterSocket();
      req := NoRequest;
      running := true;
    }

    /** `handle_msg`: run the named handler (which may read its argument
        frame) and send its reply, or send '' for an unknown name. */
    method HandleMsg(addr: seq<byte>, msg: Option<string>, image: seq<byte>) returns (outcome: Outcome)
      modifies sock
      ensures var e := Dispatch(addr, msg, old(sock.inbound), image);
        outcome == e.outcome && sock.outbound == old(sock.outbound) + e.sent && sock.inbound == e.rest
    {
      if msg.Some? && msg.value in Commands {
        var arg: Option<seq<byte>> := None;
        if TakesArgument(msg.value) {
          arg := sock.SafeRecv();
        }
        var h := Handler(msg.value, arg, image);
        if h.Answer? {
          sock.SafeSend(addr, h.types, h.items);
          outcome := Returned(true);
        } else {
          outcome := Raised;
        }
      } else {
        sock.SafeSend(addr, [1], [Str("")]);
        outcome := if msg.None? then Raised else Returned(false);
      }
    }

    /** One iteration of `__worker_func`: leave the loop on `Stop`; otherwise
        poll, read the address, delimiter and command frames, and dispatch. */
    method WorkerStep(image: seq<byte>)
      requires running
      modifies this, sock
      ensures req == old(req)
      ensures old(req) == Stop ==>
        !running && sock.inbound == old(sock.inbound) && sock.outbound == old(sock.outbound)
      ensures old(req) == NoRequest ==>
        var s := Step(old(sock.inbound), image);
        running == s.alive && sock.inbound == s.rest && sock.outbound == old(sock.outbound) + s.sent
    {
      if req == Stop {
        running := false;
        return;
      }
      if sock.inbound == [] {
        return;
      }
      var addr := sock.SafeRecv();
      var delimit := sock.SafeRecvString();
      var msg := sock.SafeRecvString();
      if msg.None? {
        sock.SafeSend(addr.value, [1], [Str("Send more")]);
      }
      var outcome := HandleMsg(addr.value, msg, image);
      if outcome == Raised {
        running := false;
      }
    }
  }
}

=== FILE: canvas.dfy ===
/** A canvas: an amplitude and a phase image of a fixed pixel shape, with
    per-pixel coordinate grids (the x coordinate is the row index and the y
    coordinate the column index). */
module Canvas {
  import opened Grids

  /** The grid holding each pixel's row index (`xcoords`). */
  function RowIndex(rows: nat, cols: nat): (g: Grid)
    ensures Shaped(g, rows, cols)
    ensures forall i, j | 0 <= i < rows && 0 <= j < cols :: g[i][j] == i as real
  {
    Tabulate(rows, cols, (i: nat, j: nat) => i as real)
  }

  /** The grid holding each pixel's column index (`ycoords`). */
  function ColIndex(rows: nat, cols: nat): (g: Grid)
    ensures Shaped(g, rows, cols)
    ensures forall i, j | 0 <= i < rows && 0 <= j < cols :: g[i][j] == j as real
  {
    Tabulate(rows, cols, (i: nat, j: nat) => j as real)
  }

  class Canvas {
    /** `npixels`. */
    const rows: nat
    const cols: nat
    const xcoords: Grid
    const ycoords: Grid
    var amp: Grid
    var phase: Grid

    ghost predicate Valid()
      reads this
    {
      Shaped(amp, rows, cols) && Shaped(phase, rows, cols)
      && xcoords == RowIndex(rows, cols) && ycoords == ColIndex(rows, cols)
    }

    constructor (rows: nat, cols: nat)
      ensures Valid()
      ensures Shape() == (rows, cols)
      ensures amp == Zeros(rows, cols) && phase == Zeros(rows, cols)
    {
      this.rows := rows;
      this.cols := cols;
      xcoords := RowIndex(rows, cols);
      ycoords := ColIndex(rows, cols);
      amp := Zeros(rows, cols);
      phase := Zeros(rows, cols);
    }

    /** `shape()`: `tuple(npixels)`. */
    function Shape(): (nat, nat)
      reads this
    {
      (rows, cols)
    }

    /** `_check_shape`: the argument has exactly the canvas's shape. */
    predicate Fits(arr: Grid)
      reads this
    {
      Shaped(arr, rows, cols)
    }

    /** `add_amp(arr)`; `ok` is false when the shape check raised. */
    method AddAmp(arr: Grid) returns (ok: bool)
      requires Valid()
      modifies this
      ensures Valid()
      ensures ok <==> Fits(arr)
      ensures ok ==> amp == Add(old(amp), arr, rows, cols)
      ensures !ok ==> amp == old(amp)
      ensures phase == old(phase)
    {
      if !Fits(arr) {
        return false;
      }
      amp := Add(amp, arr, rows, cols);
      return true;
    }

    /** `add_phase(arr)`. */
    method AddPhase(arr: Grid) returns (ok: bool)
      requires Valid()
      modifies this
      ensures Valid()
      ensures ok <==> Fits(arr)
      ensures ok ==> phase == Add(old(phase), arr, rows, cols)
      ensures !ok ==> phase == old(phase)
      ensures amp == old(amp)
    {
      if !Fits(arr) {
        return false;
      }
      phase := Add(phase, arr, rows, cols);
      return true;
    }

    /** `replace_amp(arr)`. */
    method ReplaceAmp(arr: Grid) returns (ok: bool)
      requires Valid()
      modifies this
      ensures Valid()
      ensures ok <==> Fits(arr)
      ensures amp == if ok then arr else old(amp)
      ensures phase == old(phase)
    {
      if !Fits(arr) {
        return false;
      }
      amp := arr;
      return true;
    }

    /** `replace_phase(arr)`. */
    method ReplacePhase(arr: Grid) returns (ok: bool)
      requires Valid()
      modifies this
      ensures Valid()
      ensures ok <==> Fits(arr)
      ensures phase == if ok then arr else old(phase)
      ensures amp == old(amp)
    {
      if !Fits(arr) {
        return false;
      }
      phase := arr;
      return true;
    }

    /** `add_fn_to_amp(fn)`: `fn(xcoords, ycoords)` for an elementwise fn. */
    method AddFnToAmp(fn: (real, real) -> real)
      requires Valid()
      modifies this
      ensures Valid()
      ensures Shaped(amp, rows, cols) && phase == old(phase)
      ensures forall i, j | 0 <= i < rows && 0 <= j < cols ::
        amp[i][j] == old(amp)[i][j] + fn(i as real, j as real)
    {
      var values := Map2(fn, xcoords, ycoords, rows, cols);
      amp := Add(amp, values, rows, cols);
    }

    /** `add_fn_to_phase(fn)`. */
    method AddFnToPhase(fn: (real, real) -> real)
      requires Valid()
      modifies this
      ensures Valid()
      ensures Shaped(phase, rows, cols) && amp == old(amp)
      ensures forall i, j | 0 <= i < rows && 0 <= j < cols ::
        phase[i][j] == old(phase)[i][j] + fn(i as real, j as real)
    {
      var values := Map2(fn, xcoords, ycoords, rows, cols);
      phase := Add(phase, values, rows, cols);
    }
  }

  /** The unit tests of the canvas: a new 2x3 canvas has shape (2, 3) and
      zero grids. */
  method InitializationScenario() returns (shape: (nat, nat), amp: Grid, phase: Grid)
    ensures shape == (2, 3) && amp == Zeros(2, 3) && phase == Zeros(2, 3)
  {
    var cv := new Canvas(2, 3);
    shape := cv.Shape();
    amp := cv.amp;
    phase := cv.phase;
  }

  /** Adding two arrays to the amplitude gives their sum, and adding to the
      phase leaves the amplitude alone. */
  method AddScenario() returns (first: Grid, sum: Grid, amp: Grid, phase: Grid)
    ensures first == [[2.0, 4.0, 1.0], [-3.0, 4.0, 7.0]]
    ensures sum == [[3.0, 4.0, -8.0], [-7.0, 6.0, 13.0]]
    ensures amp == sum && phase == [[1.0, 0.0, -9.0], [-4.0, 2.0, 6.0]]
  {
    var arr1: Grid := [[2.0, 4.0, 1.0], [-3.0, 4.0, 7.0]];
    var arr2: Grid := [[1.0, 0.0, -9.0], [-4.0, 2.0, 6.0]];
    var cv := new Canvas(2, 3);
    var ok := cv.AddAmp(arr1);
    AddZeros(arr1, 2, 3);
    first := cv.amp;
    ok := cv.AddAmp(arr2);
    sum := cv.amp;
    Ext(sum, [[3.0, 4.0, -8.0], [-7.0, 6.0, 13.0]], 2, 3);
    ok := cv.AddPhase(arr2);
    AddZeros(arr2, 2, 3);
    amp := cv.amp;
    phase := cv.phase;
  }

  /** After replacing the amplitude with zeros, adding x^2 + y^2 gives the
      squared row index plus the squared column index. */
  method FnScenario() returns (amp: Grid)
    ensures amp == [[0.0, 1.0, 4.0], [1.0, 2.0, 5.0]]
  {
    var cv := new Canvas(2, 3);
    var ok := cv.ReplaceAmp(Zeros(2, 3));
    cv.AddFnToAmp((x, y) => x * x + y * y);
    amp := cv.amp;
    Ext(amp, [[0.0, 1.0, 4.0], [1.0, 2.0, 5.0]], 2, 3);
  }
}

=== FILE: client.dfy ===
/** The clients of the SLM server and of the experiment-control server:
    the requests they send, how they collect replies, the chained
    calculate-save-project call, and the configuration they save and load
    as requests. */
module Client {
  import opened Wire
  import opened Transport
  import opened Requests

  // ------------------------------------------------------------- requests

  /** A request whose one argument is a text: a missing (`None`) argument
      makes `send_string` raise after the name went out. */
  function PathRequest(name: string, path: Option<string>): (r: Request)
    ensures path.Some? ==> r == Command(name, [TextPart(path.value)])
    ensures path.None? ==> r.error == Some("TypeError") && |r.frames| == 1
  {
    if path.Some? then Command(name, [TextPart(path.value)])
    else Interrupted([TextPart(name)], "TypeError")
  }

  /** `send_calculate(targets, amps, iterations)`: the float64 bytes of the
      2 x N targets (row-major, so the x row first) and of the amplitudes,
      then the iteration count as one little-endian byte, which raises
      outside 0..255. */
  function CalculateRequest(targets: seq<F64>, amps: seq<F64>, iterations: int): (r: Request)
    ensures r.error.None? <==> 0 <= iterations < 256
    ensures r.error.Some? ==> r.error.value == "OverflowError" && |r.frames| == 3
    ensures r.error.None? ==> |r.frames| == 4 && r.frames[3].data == [iterations]
  {
    var head := [TextPart("calculate"), BinaryPart(ToBuffer(targets)), BinaryPart(ToBuffer(amps))];
    match ToBytesLE(iterations, 1)
    case Err(e) => Interrupted(head, e)
    case Ok(b) =>
      LeSingleByte(iterations);
      Command("calculate", head[1..] + [BinaryPart(b)])
  }

  lemma LeSingleByte(v: int)
    requires 0 <= v < 256
    ensures ToBytesLE(v, 1) == Ok([v])
  {
    assert Pow256(1) == 256 * Pow256(0) == 256;
    assert LeDigits(v, 1) == [v % 256] + LeDigits(v / 256, 0) == [v % 256];
    assert v % 256 == v;
  }

  /** `send_perform_scan_feedback(niters, NumPerParamAvg)`: one byte of
      iterations and four bytes of averages, little-endian. */
  function ScanFeedbackRequest(niters: int, average: int): (r: Request)
    ensures r.error.None? <==> 0 <= niters < 256 && 0 <= average < Pow256(4)
    ensures r.error.None? ==>
      |r.frames| == 3 && FromBytesLE(r.frames[1].data) == niters && FromBytesLE(r.frames[2].data) == average
  {
    var name := TextPart("perform_scan_feedback");
    match ToBytesLE(niters, 1)
    case Err(e) => Interrupted([name], e)
    case Ok(n) =>
      match ToBytesLE(average, 4)
      case Err(e) => Interrupted([name, BinaryPart(n)], e)
      case Ok(a) => Command("perform_scan_feedback", [BinaryPart(n), BinaryPart(a)])
  }

  /** The default `NumPerParamAvg=-1` cannot be encoded on four unsigned
      bytes: the request raises after the name and the iteration count, so
      the call returns `None`. */
  lemma DefaultAverageRaises(niters: int)
    requires 0 <= niters < 256
    ensures ScanFeedbackRequest(niters, -1).error == Some("OverflowError")
    ensures |ScanFeedbackRequest(niters, -1).frames| == 2
  {
  }

  // --------------------------------------------------------------- Client

  /** What a `Client.poll_recv` call returns and leaves waiting. */
  datatype Exchanged = Exchanged(rep: Option<seq<Option<Item>>>, rest: seq<seq<byte>>)

  /** `Client.poll_recv`: `None` when the body raised (its frames are out
      all the same), otherwise one entry per kind. */
  function Exchange(req: Request, kinds: seq<int>, q: seq<seq<byte>>): (e: Exchanged)
    ensures e.rep.None? <==> req.error.Some?
    ensures e.rep.Some? ==> |e.rep.value| == |kinds|
  {
    if req.error.Some? then Exchanged(None, q) else Exchanged(Some(Collect(kinds, q)), Unread(kinds, q))
  }

  /** The outcome of `calculate_save_and_project`. */
  datatype Chained =
    | Stopped(ret: Option<seq<Option<Item>>>)
    | Projected(configPath: Option<Item>, patternPath: Item, ret3: Option<seq<Option<Item>>>, ret4: Option<seq<Option<Item>>>)
    | Failed(error: string)

  /** The frames sent, the frames left and the outcome of a call. */
  datatype Run<T> = Run(sent: seq<Out>, rest: seq<seq<byte>>, result: T)

  /** `calculate_save_and_project`: calculate; unless the reply is "ok",
      stop with it. Otherwise save, and load back the saved pattern under
      its path without the last 9 characters (`_data.npz`), then project. */
  function CalculateSaveAndProjectSpec(q: seq<seq<byte>>, targets: seq<F64>, amps: seq<F64>, iterations: int,
                                       path: string, name: string): (r: Run<Chained>)
  {
    var calcReq := CalculateRequest(targets, amps, iterations);
    var e1 := Exchange(calcReq, [1], q);
    if e1.rep.None? then Run(calcReq.frames, e1.rest, Failed("TypeError"))
    else if e1.rep.value[0] != Some(Str("ok")) then Run(calcReq.frames, e1.rest, Stopped(e1.rep))
    else
      var save := Command("save_calculation", [TextPart(path), TextPart(name)]);
      var e2 := Exchange(save, [1, 1], e1.rest);
      var sent2 := calcReq.frames + save.frames;
      var patternPath := e2.rep.value[1];
      if patternPath.None? || !patternPath.value.Str? then Run(sent2, e2.rest, Failed("TypeError"))
      else
        var last := LoadAndProjectSpec(DropLast(patternPath.value.text, 9), e2.rest);
        Run(sent2 + last.sent, last.rest, Projected(e2.rep.value[0], patternPath.value, last.result.0, last.result.1))
  }

  /** `load_and_project(fname)`: load the pattern `fname`, then project; the
      last two steps of `calculate_save_and_project` are this call. */
  function LoadAndProjectSpec(fname: string, q: seq<seq<byte>>)
    : (r: Run<(Option<seq<Option<Item>>>, Option<seq<Option<Item>>>)>)
  {
    var load := PathRequest("use_pattern", Some(fname));
    var e3 := Exchange(load, [1], q);
    var project := Command("project", []);
    var e4 := Exchange(project, [1], e3.rest);
    Run(load.frames + project.frames, e4.rest, (e3.rep, e4.rep))
  }

  /** A calculate reply other than "ok" (a timeout included) ends the chain
      after the calculate request; an "ok" is followed by exactly the save,
      load and project requests, the load naming the saved path without its
      last 9 characters. */
  lemma ChainStopsUnlessOk(q: seq<seq<byte>>, targets: seq<F64>, amps: seq<F64>, iterations: int,
                           path: string, name: string)
    requires 0 <= iterations < 256
    ensures var r := CalculateSaveAndProjectSpec(q, targets, amps, iterations, path, name);
      var calcReq := CalculateRequest(targets, amps, iterations).frames;
      && (q == [] || DecodeText(q[0]) != "ok" ==> r == Run(calcReq, Unread([1], q), Stopped(Some(Collect([1], q)))))
      && (q != [] && DecodeText(q[0]) == "ok" && |q| >= 3 ==>
            r.result.Projected? && r.result.patternPath == Str(DecodeText(q[2]))
            && r.sent == calcReq + Command("save_calculation", [TextPart(path), TextPart(name)]).frames
                 + Command("use_pattern", [TextPart(DropLast(DecodeText(q[2]), 9))]).frames
                 + Command("project", []).frames)
  {
    CollectSpec([1], q);
    if q != [] && |q| >= 3 {
      CollectSpec([1, 1], q[1..]);
      assert q[1..][1] == q[2];
    }
  }

  class Client {
    const sock: ReqSocket

    /** `__init__` with a `tcp` url: connect and send the `id` handshake. */
    constructor (replies: seq<seq<byte>>)
      ensures fresh(sock)
      ensures sock.outbound == Command("id", []).frames
      ensures sock.inbound == Unread([1], replies)
    {
      sock := new ReqSocket(replies);
      new;
      var rep := PollRecv(Command("id", []), [1]);
    }

    method PollRecv(req: Request, kinds: seq<int>) returns (rep: Option<seq<Option<Item>>>)
      modifies sock
      ensures var e := Exchange(req, kinds, old(sock.inbound));
        rep == e.rep && sock.inbound == e.rest && sock.outbound == old(sock.outbound) + req.frames
    {
      sock.Transmit(req);
      if req.error.Some? {
        return None;
      }
      var entries := sock.CollectReplies(kinds);
      rep := Some(entries);
    }

    method CalculateSaveAndProject(targets: seq<F64>, amps: seq<F64>, iterations: int, path: string, name: string)
      returns (result: Chained)
      modifies sock
      ensures var r := CalculateSaveAndProjectSpec(old(sock.inbound), targets, amps, iterations, path, name);
        result == r.result && sock.outbound == old(sock.outbound) + r.sent && sock.inbound == r.rest
    {
      var ret := PollRecv(CalculateRequest(targets, amps, iterations), [1]);
      if ret.None? {
        return Failed("TypeError");
      }
      if ret.value[0] != Some(Str("ok")) {
        return Stopped(ret);
      }
      var ret2 := PollRecv(Command("save_calculation", [TextPart(path), TextPart(name)]), [1, 1]);
      var configPath := ret2.value[0];
      var patternPath := ret2.value[1];
      if patternPath.None? || !patternPath.value.Str? {
        return Failed("TypeError");
      }
      var toSend := DropLast(patternPath.value.text, 9);
      var ret3, ret4 := LoadAndProject(toSend);
      return Projected(configPath, patternPath.value, ret3, ret4);
    }

    method LoadAndProject(fname: string) returns (ret3: Option<seq<Option<Item>>>, ret4: Option<seq<Option<Item>>>)
      modifies sock
      ensures var r := LoadAndProjectSpec(fname, old(sock.inbound));
        (ret3, ret4) == r.result && sock.outbound == old(sock.outbound) + r.sent && sock.inbound == r.rest
    {
      ret3 := PollRecv(PathRequest("use_pattern", Some(fname)), [1]);
      ret4 := PollRecv(Command("project", []), [1]);
    }

    /** `_load_config` on the entries of a loaded configuration, in order:
        each routed entry is sent and its reply collected; an exception in
        routing ends the call. */
    method LoadConfig(config: Option<seq<(string, Option<string>)>>, eval: string -> Option<Literal>)
      returns (error: Option<string>)
      modifies sock
      ensures config.None? ==> error.None? && sock.outbound == old(sock.outbound) && sock.inbound == old(sock.inbound)
      ensures config.Some? ==>
        var r := Routes(config.value, eval);
        && error == r.error && sock.outbound == old(sock.outbound) + Frames(r.reqs)
        && sock.inbound == Drop(old(sock.inbound), Answered(r.reqs))
    {
      if config.None? {
        return None;
      }
      error := LoadEntries(config.value, eval);
    }

    /** The loop over the entries of `_load_config`. */
    method LoadEntries(entries: seq<(string, Option<string>)>, eval: string -> Option<Literal>)
      returns (error: Option<string>)
      modifies sock
      ensures var r := Routes(entries, eval);
        && error == r.error && sock.outbound == old(sock.outbound) + Frames(r.reqs)
        && sock.inbound == Drop(old(sock.inbound), Answered(r.reqs))
    {
      ghost var q, sent := sock.inbound, sock.outbound;
      ghost var parts := Singles(entries, eval);
      var i := 0;
      ghost var done := Routing([], None);
      while i < |entries|
        invariant 0 <= i <= |entries|
        invariant done == Chain(parts[..i]) && done.error.None?
        invariant sock.outbound == sent + Frames(done.reqs)
        invariant sock.inbound == Drop(q, Answered(done.reqs))
      {
        error := LoadEntry(entries[i], eval);
        SinglesIndex(entries, eval, i);
        ghost var next := Then(done, parts[i]);
        Extend(done, parts[i], q, sent);
        assert parts[..i + 1][..i] == parts[..i];
        assert Chain(parts[..i + 1]) == next;
        if error.Some? {
          ChainStop(parts, i + 1);
          assert Routes(entries, eval) == next;
          return;
        }
        done := next;
        i := i + 1;
      }
      assert parts[..i] == parts;
      assert Routes(entries, eval) == done;
      return None;
    }

    /** One iteration of `_load_config`: route the entry, and send what it
        routes to with its reply collected. */
    method LoadEntry(entry: (string, Option<string>), eval: string -> Option<Literal>) returns (error: Option<string>)
      modifies sock
      ensures var one := Single(entry, eval);
        && error == one.error && sock.outbound == old(sock.outbound) + Frames(one.reqs)
        && sock.inbound == Drop(old(sock.inbound), Answered(one.reqs))
    {
      var routed := Route(entry.0, entry.1, eval);
      if routed.Fail? {
        return Some(routed.error);
      }
      if routed.Send? {
        var rep := PollRecv(routed.req, [1]);
        assert [routed.req][..0] == [];
      }
      return None;
    }

    /** `save_config`: ask for the base pattern and the additional-phase
        description, and build the dictionary written to the file. */
    method SaveConfig() returns (r: Result<map<string, Option<string>>>)
      modifies sock
      ensures sock.outbound == old(sock.outbound) + Command("get_base", []).frames + Command("get_additional_phase", []).frames
      ensures r == SaveConfigSpec(old(sock.inbound))
    {
      var baseStr := PollRecv(Command("get_base", []), [1]);
      var pattern := baseStr.value[0];
      var addStr := PollRecv(Command("get_additional_phase", []), [1]);
      if addStr.value[0].None? {
        return Err("AttributeError");
      }
      var corrections := Split(addStr.value[0].value.text, ';');
      var dict := ParseCorrections(corrections);
      var stored := map k | k in dict :: Some(dict[k]);
      return Ok(stored["pattern" := TextOf(pattern)]);
    }
  }

  /** The frames a run of requests sends. */
  function Frames(reqs: seq<Request>): seq<Out> {
    if reqs == [] then [] else Frames(reqs[..|reqs| - 1]) + reqs[|reqs| - 1].frames
  }

  function Drop(q: seq<seq<byte>>, n: nat): seq<seq<byte>> {
    if n < |q| then q[n..] else []
  }

  /** How many of the requests collect a reply: those whose body did not
      raise. */
  function Answered(reqs: seq<Request>): nat {
    if reqs == [] then 0
    else Answered(reqs[..|reqs| - 1]) + (if reqs[|reqs| - 1].error.None? then 1 else 0)
  }

  lemma {:induction false} FramesAppend(a: seq<Request>, b: seq<Request>)
    ensures Frames(a + b) == Frames(a) + Frames(b)
    decreases |b|
  {
    if b != [] {
      assert (a + b)[..|a + b| - 1] == a + b[..|b| - 1];
      FramesAppend(a, b[..|b| - 1]);
    } else {
      assert a + b == a;
    }
  }

  /** The socket after a run and then one more entry's run. */
  lemma Extend(done: Routing, one: Routing, q: seq<seq<byte>>, sent: seq<Out>)
    requires done.error.None?
    ensures var next := Then(done, one);
      && sent + Frames(done.reqs) + Frames(one.reqs) == sent + Frames(next.reqs)
      && Drop(Drop(q, Answered(done.reqs)), Answered(one.reqs)) == Drop(q, Answered(next.reqs))
  {
    assert Then(done, one).reqs == done.reqs + one.reqs;
    RunAppend(done.reqs, one.reqs, q);
    assert sent + Frames(done.reqs) + Frames(one.reqs) == sent + (Frames(done.reqs) + Frames(one.reqs));
  }

  /** Running two runs of requests one after the other sends the frames of
      both and takes the replies of both. */
  lemma RunAppend(a: seq<Request>, b: seq<Request>, q: seq<seq<byte>>)
    ensures Frames(a + b) == Frames(a) + Frames(b)
    ensures Answered(a + b) == Answered(a) + Answered(b)
    ensures Drop(Drop(q, Answered(a)), Answered(b)) == Drop(q, Answered(a + b))
  {
    FramesAppend(a, b);
    AnsweredAppend(a, b);
    DropDrop(q, Answered(a), Answered(b));
  }

  lemma {:induction false} AnsweredAppend(a: seq<Request>, b: seq<Request>)
    ensures Answered(a + b) == Answered(a) + Answered(b)
    decreases |b|
  {
    if b == [] {
      assert a + b == a;
    } else {
      assert (a + b)[..|a + b| - 1] == a + b[..|b| - 1];
      AnsweredAppend(a, b[..|b| - 1]);
    }
  }

  lemma DropDrop(q: seq<seq<byte>>, m: nat, n: nat)
    ensures Drop(Drop(q, m), n) == Drop(q, m + n)
  {
    if m + n < |q| {
      assert q[m..][n..] == q[m + n..];
    }
  }

  // ------------------------------------------------------ configuration load

  /** What `ast.literal_eval` returns for the values the configuration
      holds: a number or a list. */
  datatype Literal = Num(x: F64) | List(items: seq<Literal>)

  /** `np.array(v).astype(np.float64).tobytes()` of a number or a flat list
      of numbers. */
  function ArrayOf(v: Literal): (r: Result<seq<F64>>)
    ensures v.Num? ==> r == Ok([v.x])
    ensures v.List? ==> (r.Ok? <==> forall i | 0 <= i < |v.items| :: v.items[i].Num?)
    ensures v.List? && r.Ok? ==> |r.value| == |v.items| && forall i | 0 <= i < |v.items| :: r.value[i] == v.items[i].x
  {
    match v
    case Num(x) => Ok([x])
    case List(items) =>
      if forall i | 0 <= i < |items| :: items[i].Num? then Ok(seq(|items|, i requires 0 <= i < |items| => items[i].x))
      else Err("ValueError")
  }

  /** The row `[item[0][0], item[0][1], item[1]]` the loop appends for one
      `[[n, m], w]` entry, or the exception of the first subscript that
      fails, in Python's order of evaluation: subscripting a number is a
      TypeError, subscripting past the end of a list an IndexError. */
  function ZernikeRow(item: Literal): (r: Result<seq<Literal>>)
    ensures item.Num? ==> r == Err("TypeError")
    ensures item == List([]) ==> r == Err("IndexError")
    ensures item.List? && |item.items| > 0 && item.items[0].Num? ==> r == Err("TypeError")
    ensures item.List? && |item.items| > 0 && item.items[0].List? ==>
      (|item.items[0].items| < 2 || |item.items| < 2 ==> r == Err("IndexError"))
    ensures r.Ok? ==>
      && item.List? && |item.items| >= 2 && item.items[0].List? && |item.items[0].items| >= 2
      && r.value == [item.items[0].items[0], item.items[0].items[1], item.items[1]]
  {
    match item
    case Num(_) => Err("TypeError")
    case List(entry) =>
      if |entry| == 0 then Err("IndexError")
      else
        match entry[0]
        case Num(_) => Err("TypeError")
        case List(nm) =>
          if |nm| < 2 || |entry| < 2 then Err("IndexError")
          else Ok([nm[0], nm[1], entry[1]])
  }

  /** The `new_list` loop of `_load_config`: one row per entry, in order. */
  function ZernikeList(items: seq<Literal>): (r: Result<seq<seq<Literal>>>)
    ensures r.Ok? ==> |r.value| == |items| && forall i | 0 <= i < |items| :: |r.value[i]| == 3
  {
    if items == [] then Ok([])
    else
      match ZernikeList(items[..|items| - 1])
      case Err(e) => Err(e)
      case Ok(init) =>
        match ZernikeRow(items[|items| - 1])
        case Err(e) => Err(e)
        case Ok(row) => Ok(init + [row])
  }

  /** The loop succeeds exactly when every entry gives a row, and then
      holds entry i's row at position i; otherwise it raises the exception
      of the first entry that fails. */
  lemma {:induction false} ZernikeListSpec(items: seq<Literal>)
    ensures ZernikeList(items).Ok? <==> forall i | 0 <= i < |items| :: ZernikeRow(items[i]).Ok?
    ensures ZernikeList(items).Ok? ==> forall i | 0 <= i < |items| ::
      ZernikeList(items).value[i] == ZernikeRow(items[i]).value
    ensures forall i | 0 <= i < |items| && ZernikeRow(items[i]).Err? && (forall j | 0 <= j < i :: ZernikeRow(items[j]).Ok?) ::
      ZernikeList(items) == Err(ZernikeRow(items[i]).error)
    decreases |items|
  {
    if items != [] {
      var init := items[..|items| - 1];
      ZernikeListSpec(init);
      assert forall i | 0 <= i < |init| :: init[i] == items[i];
    }
  }

  /** Position p of rows of three laid out one after another. */
  function Cell3(rows: seq<seq<Literal>>, p: nat): Literal
    requires forall i | 0 <= i < |rows| :: |rows[i]| == 3
    requires p < 3 * |rows|
  {
    rows[p / 3][p % 3]
  }

  /** `np.array(new_list).astype(np.float64).tobytes()`: the rows laid out
      one after another; a row holding a list where a number belongs makes
      numpy raise ValueError, but only once the loop has gone through every
      entry. */
  function ZernikeRows(items: seq<Literal>): (r: Result<seq<F64>>)
    ensures r.Ok? ==> |r.value| == 3 * |items|
  {
    match ZernikeList(items)
    case Err(e) => Err(e)
    case Ok(rows) =>
      if forall p | 0 <= p < 3 * |rows| :: Cell3(rows, p).Num? then
        Ok(seq(3 * |rows|, p requires 0 <= p < 3 * |rows| => Cell3(rows, p).x))
      else Err("ValueError")
  }

  /** The flattened rows succeed exactly when every entry gives a row of
      three numbers, and then hold entry i's row at positions 3i, 3i+1 and
      3i+2; an entry whose subscripts fail raises its own exception (that of
      the first such entry) even when an earlier entry holds a list where a
      number belongs. */
  lemma ZernikeRowsSpec(items: seq<Literal>)
    ensures ZernikeRows(items).Ok? <==> forall i | 0 <= i < |items| ::
      ZernikeRow(items[i]).Ok? && forall k | 0 <= k < 3 :: ZernikeRow(items[i]).value[k].Num?
    ensures ZernikeRows(items).Ok? ==> forall i, k | 0 <= i < |items| && 0 <= k < 3 ::
      ZernikeRows(items).value[3 * i + k] == ZernikeRow(items[i]).value[k].x
    ensures forall i | 0 <= i < |items| && ZernikeRow(items[i]).Err? && (forall j | 0 <= j < i :: ZernikeRow(items[j]).Ok?) ::
      ZernikeRows(items) == Err(ZernikeRow(items[i]).error)
  {
    ZernikeListSpec(items);
    if ZernikeList(items).Ok? {
      var rows := ZernikeList(items).value;
      forall i, k | 0 <= i < |rows| && 0 <= k < 3
        ensures rows[i][k] == Cell3(rows, 3 * i + k)
      {
        assert (3 * i + k) / 3 == i && (3 * i + k) % 3 == k;
      }
    }
  }

  /** The exceptions of a few malformed `zernike` lists: a bare number as
      entry, or as the `[n, m]` pair, cannot be subscripted (TypeError); a
      pair with one number is too short (IndexError); and a later entry's
      IndexError comes before the ValueError numpy would raise for an
      earlier entry that holds a list in place of n. */
  lemma ZernikeErrors(n: F64, m: F64, w: F64)
    ensures ZernikeRows([Num(n)]) == Err("TypeError")
    ensures ZernikeRows([List([Num(n), Num(m)])]) == Err("TypeError")
    ensures ZernikeRows([List([List([Num(n)]), Num(w)])]) == Err("IndexError")
    ensures ZernikeRows([List([List([Num(n), Num(m)]), Num(w)])]) == Ok([n, m, w])
    ensures ZernikeRows([List([List([List([]), Num(m)]), Num(w)])]) == Err("ValueError")
    ensures ZernikeRows([List([List([List([]), Num(m)]), Num(w)])] + [List([])]) == Err("IndexError")
  {
    var good := [List([List([Num(n), Num(m)]), Num(w)])];
    assert ZernikeRow(good[0]) == Ok([Num(n), Num(m), Num(w)]);
    ZernikeRowsSpec(good);
    assert ZernikeRows(good).value == [n, m, w];
    var nested := [List([List([List([]), Num(m)]), Num(w)])];
    assert ZernikeRow(nested[0]) == Ok([List([]), Num(m), Num(w)]);
    ZernikeListSpec(nested);
    assert ZernikeList(nested).value == [[List([]), Num(m), Num(w)]];
    assert Cell3([[List([]), Num(m), Num(w)]], 0) == List([]);
    var late := nested + [List([])];
    assert ZernikeRow(late[0]).Ok? && ZernikeRow(late[1]) == Err("IndexError");
    ZernikeRowsSpec(late);
  }

  /** What `_load_config` does with one entry. */
  datatype Routed = Skip | Send(req: Request) | Fail(error: string)

  function StartsWith(s: string, prefix: string): bool {
    |prefix| <= |s| && s[..|prefix|] == prefix
  }

  /** A number array argument parsed from a configuration value. */
  function Parsed(value: Option<string>, eval: string -> Option<Literal>): Result<Literal> {
    if value.None? || eval(value.value).None? then Err("ValueError") else Ok(eval(value.value).value)
  }

  /** The keys `_load_config` acts on; it ignores all others. */
  predicate Loaded(key: string) {
    key == "pattern" || key == "fourier_calibration" || StartsWith(key, "file_correction")
    || StartsWith(key, "fresnel_lens") || key == "zernike" || key == "offset"
  }

  function Route(key: string, value: Option<string>, eval: string -> Option<Literal>): (r: Routed)
    ensures r.Send? ==> r.req.frames != []
    ensures r.Skip? <==> !Loaded(key)
  {
    if key == "pattern" then Send(PathRequest("use_pattern", value))
    else if key == "fourier_calibration" then Send(PathRequest("load_fourier_calibration", value))
    else if StartsWith(key, "file_correction") then Send(PathRequest("use_correction", value))
    else if StartsWith(key, "fresnel_lens") then
      match Parsed(value, eval)
      case Err(e) => Fail(e)
      case Ok(v) =>
        match ArrayOf(v)
        case Err(e) => Fail(e)
        case Ok(xs) => Send(Command("add_fresnel_lens", [BinaryPart(ToBuffer(xs))]))
    else if key == "zernike" then
      match Parsed(value, eval)
      case Err(e) => Fail(e)
      case Ok(v) =>
        if v.Num? then Fail("TypeError")
        else
          match ZernikeRows(v.items)
          case Err(e) => Fail(e)
          case Ok(flat) => Send(Command("add_zernike_poly", [BinaryPart(ToBuffer(flat))]))
    else if key == "offset" then
      match Parsed(value, eval)
      case Err(e) => Fail(e)
      case Ok(v) =>
        match ArrayOf(v)
        case Err(e) => Fail(e)
        case Ok(xs) => Send(Command("add_offset", [BinaryPart(ToBuffer(xs))]))
    else Skip
  }

  /** The requests a run of entries sends, and the exception that ends it. */
  datatype Routing = Routing(reqs: seq<Request>, error: Option<string>)

  function Then(a: Routing, b: Routing): Routing {
    if a.error.Some? then a else Routing(a.reqs + b.reqs, b.error)
  }

  /** The routing of one entry as a run. */
  function Single(entry: (string, Option<string>), eval: string -> Option<Literal>): Routing {
    match Route(entry.0, entry.1, eval)
    case Skip => Routing([], None)
    case Send(req) => Routing([req], None)
    case Fail(e) => Routing([], Some(e))
  }

  /** Runs one after the other, in order. */
  function Chain(parts: seq<Routing>): Routing {
    if parts == [] then Routing([], None) else Then(Chain(parts[..|parts| - 1]), parts[|parts| - 1])
  }

  /** The routing of each entry. */
  function Singles(entries: seq<(string, Option<string>)>, eval: string -> Option<Literal>): (parts: seq<Routing>)
    ensures |parts| == |entries|
  {
    if entries == [] then [] else Singles(entries[..|entries| - 1], eval) + [Single(entries[|entries| - 1], eval)]
  }

  lemma {:induction false} SinglesIndex(entries: seq<(string, Option<string>)>, eval: string -> Option<Literal>, k: nat)
    requires k < |entries|
    ensures Singles(entries, eval)[k] == Single(entries[k], eval)
    decreases |entries|
  {
    if k < |entries| - 1 {
      var init := entries[..|entries| - 1];
      SinglesIndex(init, eval, k);
    }
  }

  lemma {:induction false} SinglesPrefix(entries: seq<(string, Option<string>)>, eval: string -> Option<Literal>, i: nat)
    requires i <= |entries|
    ensures Singles(entries[..i], eval) == Singles(entries, eval)[..i]
    decreases |entries|
  {
    if i < |entries| {
      var init := entries[..|entries| - 1];
      assert init[..i] == entries[..i];
      SinglesPrefix(init, eval, i);
    } else {
      assert entries[..i] == entries;
    }
  }

  /** What `_load_config` sends for a list of entries, and the exception
      that ends it: the entries' runs one after the other. */
  function Routes(entries: seq<(string, Option<string>)>, eval: string -> Option<Literal>): Routing {
    Chain(Singles(entries, eval))
  }

  /** A run that raised is not extended by what follows. */
  lemma {:induction false} ChainStop(parts: seq<Routing>, j: nat)
    requires j <= |parts| && Chain(parts[..j]).error.Some?
    ensures Chain(parts) == Chain(parts[..j])
    decreases |parts| - j
  {
    if j == |parts| {
      assert parts[..j] == parts;
    } else {
      var init := parts[..|parts| - 1];
      assert init[..j] == parts[..j];
      ChainStop(init, j);
    }
  }

  /** A run of entries stops at the first entry whose routing raises: the
      requests before it are sent, that entry's exception is the result,
      and no later entry is routed. */
  lemma RoutesStopAtFirstFailure(entries: seq<(string, Option<string>)>, eval: string -> Option<Literal>, i: nat)
    requires i < |entries| && Route(entries[i].0, entries[i].1, eval).Fail?
    requires Routes(entries[..i], eval).error.None?
    ensures Routes(entries, eval) == Routing(Routes(entries[..i], eval).reqs, Some(Route(entries[i].0, entries[i].1, eval).error))
  {
    var parts := Singles(entries, eval);
    SinglesPrefix(entries, eval, i);
    SinglesIndex(entries, eval, i);
    assert parts[..i + 1][..i] == parts[..i];
    ChainStop(parts, i + 1);
  }

  // ------------------------------------------------------ configuration save

  /** `str.split(sep)`. */
  function Split(s: string, sep: char): (parts: seq<string>)
    ensures |parts| >= 1
    ensures forall k | 0 <= k < |parts| :: sep !in parts[k]
    decreases |s|
  {
    if s == [] then [""]
    else
      var rest := Split(s[1..], sep);
      if s[0] == sep then [""] + rest else [[s[0]] + rest[0]] + rest[1..]
  }

  /** `sep.join(parts)`. */
  function Join(parts: seq<string>, sep: char): string
    requires |parts| >= 1
    decreases |parts|
  {
    if |parts| == 1 then parts[0] else parts[0] + [sep] + Join(parts[1..], sep)
  }

  lemma {:induction false} SplitJoin(s: string, sep: char)
    ensures Join(Split(s, sep), sep) == s
    decreases |s|
  {
    if s != [] {
      SplitJoin(s[1..], sep);
      var rest := Split(s[1..], sep);
      if s[0] == sep {
        assert ([""] + rest)[1..] == rest;
      } else {
        var parts := [[s[0]] + rest[0]] + rest[1..];
        if |rest| > 1 {
          assert parts[1..] == rest[1..];
          assert Join(rest, sep) == rest[0] + [sep] + Join(rest[1..], sep);
        }
      }
    }
  }

  /** The decimal digits of `str(n)`. */
  function Decimal(n: nat): (s: string)
    ensures |s| > 0 && forall k | 0 <= k < |s| :: '0' <= s[k] <= '9'
    decreases n
  {
    if n < 10 then [Digit(n)] else Decimal(n / 10) + [Digit(n % 10)]
  }

  function Digit(d: nat): (c: char)
    requires d < 10
    ensures '0' <= c <= '9' && c as int - '0' as int == d
  {
    (('0' as int) + d) as char
  }

  predicate IsDigit(c: char) {
    '0' <= c <= '9'
  }

  /** `int(s)` of a string of digits. */
  function DecimalValue(s: string): nat
    requires forall k | 0 <= k < |s| :: IsDigit(s[k])
  {
    if s == [] then 0
    else
      assert IsDigit(s[|s| - 1]);
      10 * DecimalValue(s[..|s| - 1]) + (s[|s| - 1] as int - '0' as int)
  }

  lemma {:induction false} DecimalRoundTrip(n: nat)
    ensures DecimalValue(Decimal(n)) == n
    decreases n
  {
    if n >= 10 {
      DecimalRoundTrip(n / 10);
      var s := Decimal(n);
      assert s[..|s| - 1] == Decimal(n / 10);
    }
  }

  /** The correction keys `save_config` keeps, each with its own counter. */
  const Kept: seq<string> := ["file_correction", "file", "fresnel_lens", "zernike", "offset"]

  /** The key of the n-th (from 0) occurrence of `key`. */
  function Suffixed(key: string, n: nat): string {
    if n == 0 then key else key + Decimal(n)
  }

  /** `s` without its trailing digits. */
  function Stem(s: string): string
    decreases |s|
  {
    if s != [] && IsDigit(s[|s| - 1]) then Stem(s[..|s| - 1]) else s
  }

  lemma {:induction false} StemOfSuffixed(key: string, digits: string)
    requires key != [] && !IsDigit(key[|key| - 1])
    requires forall k | 0 <= k < |digits| :: IsDigit(digits[k])
    ensures Stem(key + digits) == key
    decreases |digits|
  {
    if digits == [] {
      assert key + digits == key;
    } else {
      var s := key + digits;
      assert s[..|s| - 1] == key + digits[..|digits| - 1];
      StemOfSuffixed(key, digits[..|digits| - 1]);
    }
  }

  /** No kept key ends in a digit. */
  lemma KeptShape(k: string)
    requires k in Kept
    ensures k != [] && !IsDigit(k[|k| - 1])
  {
  }

  /** The digits `Suffixed` appends. */
  function SuffixOf(n: nat): (d: string)
    ensures forall k | 0 <= k < |d| :: IsDigit(d[k])
  {
    if n == 0 then "" else Decimal(n)
  }

  /** Distinct occurrences of kept keys are stored under distinct names. */
  lemma SuffixedInjective(k1: string, n1: nat, k2: string, n2: nat)
    requires k1 in Kept && k2 in Kept && Suffixed(k1, n1) == Suffixed(k2, n2)
    ensures k1 == k2 && n1 == n2
  {
    var s := Suffixed(k1, n1);
    var d1 := SuffixOf(n1);
    var d2 := SuffixOf(n2);
    assert s == k1 + d1 by {
      if n1 == 0 {
        assert k1 + "" == k1;
      }
    }
    assert s == k2 + d2 by {
      if n2 == 0 {
        assert k2 + "" == k2;
      }
    }
    KeptShape(k1);
    KeptShape(k2);
    StemOfSuffixed(k1, d1);
    StemOfSuffixed(k2, d2);
    assert k1 == k2;
    assert d1 == s[|k1|..] == d2;
    if n1 != 0 && n2 != 0 {
      DecimalRoundTrip(n1);
      DecimalRoundTrip(n2);
    }
  }

  /** How many of the pairs have the key. */
  function Count(pairs: seq<(string, string)>, key: string): nat {
    if pairs == [] then 0
    else Count(pairs[..|pairs| - 1], key) + (if pairs[|pairs| - 1].0 == key then 1 else 0)
  }

  /** The corrections read as `key;value` pairs; a trailing odd part is
      dropped. */
  function Pairs(parts: seq<string>): (pairs: seq<(string, string)>)
    ensures |pairs| == |parts| / 2
    ensures forall i | 0 <= i < |pairs| :: pairs[i] == (parts[2 * i], parts[2 * i + 1])
  {
    seq(|parts| / 2, i requires 0 <= i < |parts| / 2 => (parts[2 * i], parts[2 * i + 1]))
  }

  /** The dictionary `save_config` builds from the pairs. */
  function Stored(pairs: seq<(string, string)>): map<string, string> {
    if pairs == [] then map[]
    else
      var init := pairs[..|pairs| - 1];
      var (key, value) := pairs[|pairs| - 1];
      if key in Kept then Stored(init)[Suffixed(key, Count(init, key)) := value] else Stored(init)
  }

  lemma {:induction false} CountGrows(pairs: seq<(string, string)>, i: nat)
    requires i < |pairs|
    ensures Count(pairs[..i], pairs[i].0) < Count(pairs, pairs[i].0)
    decreases |pairs|
  {
    var init := pairs[..|pairs| - 1];
    if i < |pairs| - 1 {
      assert init[..i] == pairs[..i] && init[i] == pairs[i];
      CountGrows(init, i);
      CountMonotone(pairs, pairs[i].0);
    } else {
      assert pairs[..i] == init;
    }
  }

  lemma CountMonotone(pairs: seq<(string, string)>, key: string)
    requires pairs != []
    ensures Count(pairs[..|pairs| - 1], key) <= Count(pairs, key)
  {
  }

  /** The n-th occurrence of a kept key keeps its value under the key
      suffixed with n (no suffix for the first); later pairs overwrite
      nothing. */
  lemma {:induction false} StoredValues(pairs: seq<(string, string)>)
    ensures forall i | 0 <= i < |pairs| && pairs[i].0 in Kept ::
      var key := Suffixed(pairs[i].0, Count(pairs[..i], pairs[i].0));
      key in Stored(pairs) && Stored(pairs)[key] == pairs[i].1
    decreases |pairs|
  {
    if pairs != [] {
      var init := pairs[..|pairs| - 1];
      var (last, value) := pairs[|pairs| - 1];
      StoredValues(init);
      forall i | 0 <= i < |pairs| && pairs[i].0 in Kept
        ensures var key := Suffixed(pairs[i].0, Count(pairs[..i], pairs[i].0));
          key in Stored(pairs) && Stored(pairs)[key] == pairs[i].1
      {
        if i < |pairs| - 1 {
          assert init[i] == pairs[i] && init[..i] == pairs[..i];
          if last in Kept && Suffixed(last, Count(init, last)) == Suffixed(pairs[i].0, Count(pairs[..i], pairs[i].0)) {
            SuffixedInjective(last, Count(init, last), pairs[i].0, Count(pairs[..i], pairs[i].0));
            CountGrows(init, i);
            assert false;
          }
        } else {
          assert pairs[..i] == init;
        }
      }
    }
  }

  /** Only kept keys are stored, each under its own name with a decimal
      suffix, and no more entries than there were kept pairs. */
  lemma {:induction false} StoredKeys(pairs: seq<(string, string)>)
    ensures forall k | k in Stored(pairs) :: Stem(k) in Kept
    ensures |Stored(pairs)| <= |pairs|
    decreases |pairs|
  {
    if pairs != [] {
      var init := pairs[..|pairs| - 1];
      var (key, value) := pairs[|pairs| - 1];
      StoredKeys(init);
      if key in Kept {
        var n := Count(init, key);
        StemOfSuffixed(key, if n == 0 then "" else Decimal(n));
        assert Suffixed(key, n) == key + (if n == 0 then "" else Decimal(n));
      }
    }
  }

  /** One more pair: a kept key is stored under its suffixed name and its
      count goes up. */
  lemma StoredStep(pairs: seq<(string, string)>, i: nat)
    requires i < |pairs|
    ensures var (key, value) := pairs[i];
      && Stored(pairs[..i + 1]) ==
           (if key in Kept then Stored(pairs[..i])[Suffixed(key, Count(pairs[..i], key)) := value] else Stored(pairs[..i]))
      && forall k :: Count(pairs[..i + 1], k) == Count(pairs[..i], k) + (if key == k then 1 else 0)
  {
    assert pairs[..i + 1][..i] == pairs[..i];
  }

  /** The `for i in range(len(corrections) // 2)` loop, one counter per
      kept key. */
  method ParseCorrections(corrections: seq<string>) returns (dict: map<string, string>)
    ensures dict == Stored(Pairs(corrections))
  {
    ghost var pairs := Pairs(corrections);
    dict := map[];
    var correctionIdx, fileIdx, lensIdx, zernikeIdx, offsetIdx := 0, 0, 0, 0, 0;
    var i := 0;
    while i < |corrections| / 2
      invariant 0 <= i <= |corrections| / 2
      invariant dict == Stored(pairs[..i])
      invariant correctionIdx == Count(pairs[..i], "file_correction")
      invariant fileIdx == Count(pairs[..i], "file")
      invariant lensIdx == Count(pairs[..i], "fresnel_lens")
      invariant zernikeIdx == Count(pairs[..i], "zernike")
      invariant offsetIdx == Count(pairs[..i], "offset")
    {
      var thisKey := corrections[2 * i];
      var thisVal := corrections[2 * i + 1];
      StoredStep(pairs, i);
      if thisKey == "file_correction" {
        if correctionIdx > 0 {
          dict := dict[thisKey + Decimal(correctionIdx) := thisVal];
        } else {
          dict := dict[thisKey := thisVal];
        }
        correctionIdx := correctionIdx + 1;
      } else if thisKey == "file" {
        if fileIdx > 0 {
          dict := dict[thisKey + Decimal(fileIdx) := thisVal];
        } else {
          dict := dict[thisKey := thisVal];
        }
        fileIdx := fileIdx + 1;
      } else if thisKey == "fresnel_lens" {
        if lensIdx > 0 {
          dict := dict[thisKey + Decimal(lensIdx) := thisVal];
        } else {
          dict := dict[thisKey := thisVal];
        }
        lensIdx := lensIdx + 1;
      } else if thisKey == "zernike" {
        if zernikeIdx > 0 {
          dict := dict[thisKey + Decimal(zernikeIdx) := thisVal];
        } else {
          dict := dict[thisKey := thisVal];
        }
        zernikeIdx := zernikeIdx + 1;
      } else if thisKey == "offset" {
        if offsetIdx > 0 {
          dict := dict[thisKey + Decimal(offsetIdx) := thisVal];
        } else {
          dict := dict[thisKey := thisVal];
        }
        offsetIdx := offsetIdx + 1;
      }
      i := i + 1;
    }
    assert pairs[..i] == pairs;
  }

  function TextOf(entry: Option<Item>): Option<string> {
    if entry.Some? && entry.value.Str? then Some(entry.value.text) else None
  }

  /** `save_config`'s dictionary: `pattern` is the base reply (`None` when
      it timed out), then the kept corrections; a missing additional-phase
      reply makes `split` raise. */
  function SaveConfigSpec(q: seq<seq<byte>>): (r: Result<map<string, Option<string>>>)
    ensures r.Ok? <==> |q| >= 2
    ensures r.Ok? ==> "pattern" in r.value && r.value["pattern"] == Some(DecodeText(q[0]))
  {
    var base := Collect([1], q)[0];
    var add := Collect([1], Unread([1], q))[0];
    if add.None? then Err("AttributeError")
    else
      var dict := Stored(Pairs(Split(add.value.text, ';')));
      var stored := map k | k in dict :: Some(dict[k]);
      Ok(stored["pattern" := TextOf(base)])
  }

  /** Of the keys `save_config` writes, loading sends back every
      `file_correction*` and `fresnel_lens*` entry and the first `zernike`
      and `offset`; `file*` entries and later `zernike`/`offset` entries are
      skipped. */
  lemma SavedKeysOnReload(key: string, n: nat, value: Option<string>, eval: string -> Option<Literal>)
    requires key in Kept
    ensures Route(Suffixed(key, n), value, eval).Skip? <==>
      key == "file" || (n > 0 && (key == "zernike" || key == "offset"))
  {
    if n == 0 {
      FirstKeysLoaded(key);
    } else {
      LaterKeysLoaded(key, n);
    }
  }

  lemma FirstKeysLoaded(key: string)
    requires key in Kept
    ensures Loaded(Suffixed(key, 0)) <==> key != "file"
  {
    if key == "file" {
      assert !StartsWith(key, "fresnel_lens");
    }
  }

  lemma LaterKeysLoaded(key: string, n: nat)
    requires key in Kept && n > 0
    ensures Loaded(Suffixed(key, n)) <==> key == "file_correction" || key == "fresnel_lens"
  {
    var s := Suffixed(key, n);
    var d := Decimal(n);
    assert s == key + d && |d| > 0;
    assert s[..|key|] == key;
    if key == "zernike" || key == "offset" {
      assert s[0] == key[0];
      NotPrefix(s, "pattern", 0);
      NotPrefix(s, "fourier_calibration", 0);
      NotPrefix(s, "file_correction", 0);
      NotPrefix(s, "fresnel_lens", 0);
      assert s != "zernike" && s != "offset" by {
        assert |s| > |key|;
        if key == "zernike" {
          NotPrefix(s, "offset", 0);
        } else {
          NotPrefix(s, "zernike", 0);
        }
      }
    } else if key == "file" {
      assert s[0] == 'f' && s[1] == 'i' && s[4] == d[0] && IsDigit(d[0]);
      NotPrefix(s, "pattern", 0);
      NotPrefix(s, "fourier_calibration", 1);
      NotPrefix(s, "file_correction", 4);
      NotPrefix(s, "fresnel_lens", 1);
      NotPrefix(s, "zernike", 0);
      NotPrefix(s, "offset", 0);
    }
  }

  /** A string that differs from `p` at position `j` neither is `p` nor
      starts with it. */
  lemma NotPrefix(s: string, p: string, j: nat)
    requires j < |s| && j < |p| && s[j] != p[j]
    ensures s != p && !StartsWith(s, p)
  {
    if |p| <= |s| {
      assert s[..|p|][j] == s[j];
    }
  }
}

=== FILE: feedback_client.dfy ===
/** The feedback client: asks an experiment-control server for measured spot
    amplitudes. Its `poll_recv` differs from the other clients': once a
    poll times out the client counts as disconnected and every later call
    returns the call's default without sending anything, and a timed-out
    reply is replaced by the default's entry for the receive kind. */
module FeedbackClient {
  import opened Wire
  import opened Transport
  import opened Requests
  import Utils

  /** The reply list after the sends: entry i is the i-th waiting frame
      read with the i-th kind, or, once the queue is exhausted,
      `default_val[kind]` (an `IndexError` when the default has no such
      entry). */
  function Gather(kinds: seq<nat>, q: seq<seq<byte>>, defaults: seq<Item>): Result<seq<Item>>
    decreases |kinds|
  {
    if kinds == [] then Ok([])
    else
      var head :=
        if q != [] then Ok(Read(kinds[0], q[0]))
        else if kinds[0] < |defaults| then Ok(defaults[kinds[0]])
        else Err("IndexError");
      match head
      case Err(e) => Err(e)
      case Ok(x) =>
        match Gather(kinds[1..], if q == [] then [] else q[1..], defaults)
        case Err(e) => Err(e)
        case Ok(xs) => Ok([x] + xs)
  }

  /** A gathered list with `entries` in front; an exception stays one. */
  function Prefixed(entries: seq<Item>, r: Result<seq<Item>>): Result<seq<Item>> {
    if r.Err? then r else Ok(entries + r.value)
  }

  /** One entry, then the rest. */
  lemma GatherUnfold(kinds: seq<nat>, q: seq<seq<byte>>, defaults: seq<Item>)
    requires kinds != []
    ensures q != [] ==> Gather(kinds, q, defaults) == Prefixed([Read(kinds[0], q[0])], Gather(kinds[1..], q[1..], defaults))
    ensures q == [] && kinds[0] < |defaults| ==>
      Gather(kinds, q, defaults) == Prefixed([defaults[kinds[0]]], Gather(kinds[1..], [], defaults))
    ensures q == [] && kinds[0] >= |defaults| ==> Gather(kinds, q, defaults) == Err("IndexError")
  {
  }

  lemma PrefixedAssoc(a: seq<Item>, b: seq<Item>, r: Result<seq<Item>>)
    ensures Prefixed(a, Prefixed(b, r)) == Prefixed(a + b, r)
  {
    if r.Ok? {
      assert a + (b + r.value) == a + b + r.value;
    }
  }

  /** Gathering fails exactly when a timed-out kind has no default, and
      otherwise reads each waiting frame and defaults the rest. */
  lemma {:induction false} GatherSpec(kinds: seq<nat>, q: seq<seq<byte>>, defaults: seq<Item>)
    ensures Gather(kinds, q, defaults).Ok? <==> forall i | |q| <= i < |kinds| :: kinds[i] < |defaults|
    ensures Gather(kinds, q, defaults).Ok? ==>
      var xs := Gather(kinds, q, defaults).value;
      && |xs| == |kinds|
      && (forall i | 0 <= i < |kinds| && i < |q| :: xs[i] == Read(kinds[i], q[i]))
      && (forall i | |q| <= i < |kinds| :: xs[i] == defaults[kinds[i]])
    ensures Gather(kinds, q, defaults).Err? ==> Gather(kinds, q, defaults).error == "IndexError"
    decreases |kinds|
  {
    if kinds != [] {
      var rest := if q == [] then [] else q[1..];
      GatherSpec(kinds[1..], rest, defaults);
      if q != [] {
        assert forall i | 1 <= i < |kinds| && i < |q| :: q[i] == rest[i - 1];
        assert forall i | |q| <= i < |kinds| :: kinds[i] == kinds[1..][i - 1];
        assert (forall i | |rest| <= i < |kinds[1..]| :: kinds[1..][i] < |defaults|)
          <==> (forall i | |q| <= i < |kinds| :: kinds[i] < |defaults|);
      } else {
        assert forall i | 1 <= i < |kinds| :: kinds[i] == kinds[1..][i - 1];
        assert (forall i | 0 <= i < |kinds[1..]| :: kinds[1..][i] < |defaults|) && kinds[0] < |defaults|
          <==> (forall i | 0 <= i < |kinds| :: kinds[i] < |defaults|);
      }
    }
  }

  /** The frames a call sent, the frames left, whether the client still
      counts as connected, and what the call returned: `None` when its
      body raised, or an exception that escaped. */
  datatype Polled = Polled(sent: seq<Out>, rest: seq<seq<byte>>, connected: bool,
                           result: Result<Option<seq<Item>>>)

  /** `FeedbackClient.poll_recv`: a disconnected client returns the default
      itself; a body that raised gives `None`; otherwise one entry per kind,
      and a timeout disconnects the client. */
  function Poll(connected: bool, req: Request, kinds: seq<nat>, defaults: seq<Item>, q: seq<seq<byte>>): (p: Polled)
    ensures !connected ==> p == Polled([], q, false, Ok(Some(defaults)))
    ensures connected ==> p.sent == req.frames
    ensures connected && req.error.Some? ==> p.result == Ok(None) && p.connected && p.rest == q
    ensures connected && req.error.None? ==>
      (p.connected <==> |kinds| <= |q|) && p.rest == Unread(kinds, q)
      && (p.result.Err? <==> Gather(kinds, q, defaults).Err?)
  {
    if !connected then Polled([], q, false, Ok(Some(defaults)))
    else if req.error.Some? then Polled(req.frames, q, true, Ok(None))
    else
      var result := match Gather(kinds, q, defaults)
        case Err(e) => Err(e)
        case Ok(xs) => Ok(Some(xs));
      Polled(req.frames, Unread(kinds, q), |kinds| <= |q|, result)
  }

  /** The default of `send_id`. */
  const NotConnected: seq<Item> := [Str("Not connected")]

  /** The default of `get_spot_amps`: `np.array([-1.0])`, whose entry 0 is
      the float -1.0. */
  const MinusOneArray: seq<Item> := [Bytes(Utils.MinusOne)]

  /** `get_spot_amps`' body: the name, the scan file and scan names, then
      the average count on four little-endian bytes, which raises outside
      0..2^32-1 after the three texts went out. */
  function SpotAmpsRequest(scanFname: string, scanName: string, average: int): (r: Request)
    ensures r.error.None? <==> 0 <= average < Pow256(4)
    ensures r.error.None? ==> |r.frames| == 4 && FromBytesLE(r.frames[3].data) == average
    ensures r.error.Some? ==> r.error.value == "OverflowError" && |r.frames| == 3
    ensures forall i | 0 <= i < 3 && i < |r.frames| :: r.frames[i].kind == Text && r.frames[i].more
  {
    var head := [TextPart("get_spot_amps"), TextPart(scanFname), TextPart(scanName)];
    match ToBytesLE(average, 4)
    case Err(e) => Interrupted(head, e)
    case Ok(b) => Command("get_spot_amps", head[1..] + [BinaryPart(b)])
  }

  /** `recv1arr()` around the polled reply: `None` stays `None`, otherwise
      entry 0 read as float64s. */
  function SpotAmps(rep: Option<seq<Item>>): (r: Result<Option<seq<F64>>>)
    ensures rep.None? ==> r == Ok(None)
    ensures rep.Some? && |rep.value| > 0 && rep.value[0].Bytes? ==>
      (r.Ok? <==> |rep.value[0].bytes| % 8 == 0)
      && (r.Ok? ==> r.value == Some(Words(rep.value[0].bytes)))
  {
    match rep
    case None => Ok(None)
    case Some(entries) =>
      if |entries| == 0 then Err("IndexError")
      else if !entries[0].Bytes? then Err("TypeError")
      else
        match FromBuffer(entries[0].bytes)
        case Err(e) => Err(e)
        case Ok(w) => Ok(Some(w))
  }

  /** What `client.get_spot_amps()` evaluates to: the decorator's inner
      function, or the amplitudes. */
  datatype SpotAmpsCall = Wrapper | Amps(value: Result<Option<seq<F64>>>)

  class FeedbackClient {
    const sock: ReqSocket
    var connected: bool
    const scanFname: string
    const scanName: string
    /** `NumPerParamAvg`, -1 by default. */
    const average: int

    /** The fields `__init__` sets before the handshake. */
    constructor (replies: seq<seq<byte>>, scanFname: string, scanName: string, average: int)
      ensures fresh(sock) && sock.inbound == replies && sock.outbound == []
      ensures connected && this.scanFname == scanFname && this.scanName == scanName && this.average == average
    {
      sock := new ReqSocket(replies);
      connected := true;
      this.scanFname := scanFname;
      this.scanName := scanName;
      this.average := average;
    }

    /** The `poll_recv` decorator around a body. */
    method PollRecv(req: Request, kinds: seq<nat>, defaults: seq<Item>) returns (r: Result<Option<seq<Item>>>)
      modifies this, sock
      ensures var p := Poll(old(connected), req, kinds, defaults, old(sock.inbound));
        && r == p.result && connected == p.connected
        && sock.outbound == old(sock.outbound) + p.sent && sock.inbound == p.rest
    {
      if !connected {
        return Ok(Some(defaults));
      }
      sock.Transmit(req);
      if req.error.Some? {
        return Ok(None);
      }
      ghost var q := sock.inbound;
      var entries := [];
      var i := 0;
      assert kinds[i..] == kinds;
      assert Prefixed(entries, Gather(kinds, q, defaults)) == Gather(kinds, q, defaults) by {
        if Gather(kinds, q, defaults).Ok? {
          assert [] + Gather(kinds, q, defaults).value == Gather(kinds, q, defaults).value;
        }
      }
      while i < |kinds|
        invariant 0 <= i <= |kinds|
        invariant sock.outbound == old(sock.outbound) + req.frames
        invariant sock.inbound == Unread(kinds[..i], q)
        invariant connected == (i <= |q|)
        invariant Gather(kinds, q, defaults) == Prefixed(entries, Gather(kinds[i..], sock.inbound, defaults))
      {
        assert kinds[i..][1..] == kinds[i + 1..];
        GatherUnfold(kinds[i..], sock.inbound, defaults);
        if sock.inbound == [] {
          connected := false;
          if kinds[i] >= |defaults| {
            return Err("IndexError");
          }
          PrefixedAssoc(entries, [defaults[kinds[i]]], Gather(kinds[i + 1..], [], defaults));
          entries := entries + [defaults[kinds[i]]];
        } else {
          PrefixedAssoc(entries, [Read(kinds[i], sock.inbound[0])], Gather(kinds[i + 1..], sock.inbound[1..], defaults));
          entries := entries + [Read(kinds[i], sock.inbound[0])];
          sock.inbound := sock.inbound[1..];
        }
        i := i + 1;
      }
      assert kinds[i..] == [];
      assert entries + [] == entries;
      return Ok(Some(entries));
    }

    /** `send_id`: the `id` handshake. */
    method SendId() returns (r: Result<Option<seq<Item>>>)
      modifies this, sock
      ensures var p := Poll(old(connected), Command("id", []), [1], NotConnected, old(sock.inbound));
        && r == p.result && connected == p.connected
        && sock.outbound == old(sock.outbound) + p.sent && sock.inbound == p.rest
    {
      r := PollRecv(Command("id", []), [1], NotConnected);
    }

    /** `get_spot_amps` as written: `@recv1arr` without parentheses makes
        the name the decorator itself, so the call returns the inner wrapper
        and sends nothing. */
    method GetSpotAmpsAsWritten() returns (r: SpotAmpsCall)
      ensures r == Wrapper
    {
      r := Wrapper;
    }

    /** `get_spot_amps` as `@recv1arr()` evidently means it. */
    method GetSpotAmps() returns (r: SpotAmpsCall)
      modifies this, sock
      ensures var p := Poll(old(connected), SpotAmpsRequest(scanFname, scanName, average), [0], MinusOneArray, old(sock.inbound));
        && r == Amps(match p.result case Err(e) => Err(e) case Ok(rep) => SpotAmps(rep))
        && connected == p.connected
        && sock.outbound == old(sock.outbound) + p.sent && sock.inbound == p.rest
    {
      var polled := PollRecv(SpotAmpsRequest(scanFname, scanName, average), [0], MinusOneArray);
      match polled
      case Err(e) => return Amps(Err(e));
      case Ok(rep) => return Amps(SpotAmps(rep));
    }
  }

  /** `__init__`: the handshake runs while still connected, and a timed-out
      handshake raises `IndexError` out of the constructor, since its
      default has no entry for kind 1. */
  method Open(replies: seq<seq<byte>>, scanFname: string, scanName: string, average: int)
    returns (r: Result<FeedbackClient>)
    ensures r.Err? <==> replies == []
    ensures r.Err? ==> r.error == "IndexError"
    ensures r.Ok? ==>
      && fresh(r.value) && r.value.connected
      && r.value.sock.outbound == Command("id", []).frames && r.value.sock.inbound == replies[1..]
  {
    var c := new FeedbackClient(replies, scanFname, scanName, average);
    var rep := c.SendId();
    GatherSpec([1], replies, NotConnected);
    if rep.Err? {
      return Err(rep.error);
    }
    return Ok(c);
  }

  /** The amplitudes a connected or disconnected client's `get_spot_amps`
      (as intended) yields. */
  function SpotAmpsOf(connected: bool, scanFname: string, scanName: string, average: int, q: seq<seq<byte>>): (r: Result<Option<seq<F64>>>)
  {
    var p := Poll(connected, SpotAmpsRequest(scanFname, scanName, average), [0], MinusOneArray, q);
    match p.result
    case Err(e) => Err(e)
    case Ok(rep) => SpotAmps(rep)
  }

  /** A disconnected client sends nothing and yields the sentinel [-1.0]; so
      does a connected one whose reply times out, which disconnects it; the
      default average of -1 makes the request raise, so the call yields
      `None`; a reply of whole float64s is returned as sent. */
  lemma SpotAmpsCases(connected: bool, scanFname: string, scanName: string, average: int, q: seq<seq<byte>>)
    ensures !connected ==>
      SpotAmpsOf(connected, scanFname, scanName, average, q) == Ok(Some([Utils.MinusOne]))
      && Poll(connected, SpotAmpsRequest(scanFname, scanName, average), [0], MinusOneArray, q).sent == []
    ensures connected && 0 <= average < Pow256(4) && q == [] ==>
      SpotAmpsOf(connected, scanFname, scanName, average, q) == Ok(Some([Utils.MinusOne]))
      && !Poll(connected, SpotAmpsRequest(scanFname, scanName, average), [0], MinusOneArray, q).connected
    ensures connected && average == -1 ==>
      SpotAmpsOf(connected, scanFname, scanName, average, q) == Ok(None)
      && |Poll(connected, SpotAmpsRequest(scanFname, scanName, average), [0], MinusOneArray, q).sent| == 3
    ensures connected && 0 <= average < Pow256(4) && q != [] && |q[0]| % 8 == 0 ==>
      SpotAmpsOf(connected, scanFname, scanName, average, q) == Ok(Some(Words(q[0])))
  {
    assert Words(Utils.MinusOne) == [Utils.MinusOne] by {
      BufferRoundTrip([Utils.MinusOne]);
      assert ToBuffer([Utils.MinusOne]) == Utils.MinusOne + ToBuffer([]) == Utils.MinusOne;
    }
  }

  /** `send_id` replies "Not connected" once disconnected, the server's text
      when it answers, and raises `IndexError` on a timeout. */
  lemma SendIdCases(connected: bool, q: seq<seq<byte>>)
    ensures !connected ==> Poll(connected, Command("id", []), [1], NotConnected, q).result == Ok(Some(NotConnected))
    ensures connected && q != [] ==>
      Poll(connected, Command("id", []), [1], NotConnected, q).result == Ok(Some([Str(DecodeText(q[0]))]))
    ensures connected && q == [] ==>
      Poll(connected, Command("id", []), [1], NotConnected, q).result == Err("IndexError")
  {
    GatherSpec([1], q, NotConnected);
    if q != [] {
      assert Gather([1], q, NotConnected).value == [Read(1, q[0])];
    }
  }

  /** `feedback_client_callback` with an unreachable server: the hologram's
      external spot amplitudes become all ones rather than the sentinel. */
  lemma DisconnectedFeedbackIsUniform(scanFname: string, scanName: string, average: int, q: seq<seq<byte>>, nspots: nat)
    ensures var r := SpotAmpsOf(false, scanFname, scanName, average, q);
      r.Ok? && r.value.Some?
      && Utils.ExternalSpotAmp(r.value, nspots) == Some(seq(nspots, i => Utils.One))
  {
    SpotAmpsCases(false, scanFname, scanName, average, q);
  }

}

=== FILE: grids.dfy ===
/** Two-dimensional numeric arrays (amplitude and phase patterns) as
    row-major sequences of rows. */
module Grids {

  type Grid = seq<seq<real>>

  /** `arr.shape == (rows, cols)`. */
  predicate Shaped(g: Grid, rows: nat, cols: nat) {
    |g| == rows && forall i | 0 <= i < |g| :: |g[i]| == cols
  }

  /** `np.zeros((rows, cols))`. */
  function Zeros(rows: nat, cols: nat): (g: Grid)
    ensures Shaped(g, rows, cols)
    ensures forall i, j | 0 <= i < rows && 0 <= j < cols :: g[i][j] == 0.0
  {
    seq(rows, i => seq(cols, j => 0.0))
  }

  /** The grid whose cell (i, j) is f(i, j). */
  function Tabulate(rows: nat, cols: nat, f: (nat, nat) -> real): (g: Grid)
    ensures Shaped(g, rows, cols)
    ensures forall i, j | 0 <= i < rows && 0 <= j < cols :: g[i][j] == f(i, j)
  {
    seq(rows, i requires 0 <= i => seq(cols, j requires 0 <= j => f(i, j)))
  }

  /** An elementwise function applied to two arrays of one shape. */
  function Map2(f: (real, real) -> real, a: Grid, b: Grid, rows: nat, cols: nat): (c: Grid)
    requires Shaped(a, rows, cols) && Shaped(b, rows, cols)
    ensures Shaped(c, rows, cols)
    ensures forall i, j | 0 <= i < rows && 0 <= j < cols :: c[i][j] == f(a[i][j], b[i][j])
  {
    seq(rows, i requires 0 <= i < rows => seq(cols, j requires 0 <= j < cols => f(a[i][j], b[i][j])))
  }

  /** Elementwise `a + b` of two arrays of one shape. */
  function Add(a: Grid, b: Grid, rows: nat, cols: nat): (c: Grid)
    requires Shaped(a, rows, cols) && Shaped(b, rows, cols)
    ensures Shaped(c, rows, cols)
    ensures forall i, j | 0 <= i < rows && 0 <= j < cols :: c[i][j] == a[i][j] + b[i][j]
  {
    seq(rows, i requires 0 <= i < rows => seq(cols, j requires 0 <= j < cols => a[i][j] + b[i][j]))
  }

  /** An array with at least one row, all rows of one length (its shape
      is `(|g|, |g[0]|)`). */
  predicate Rectangular(g: Grid) {
    |g| > 0 && forall i | 0 <= i < |g| :: |g[i]| == |g[0]|
  }

  /** numpy broadcasting along one axis: the lengths agree or one is 1. */
  predicate Compatible(m: nat, n: nat) {
    m == n || m == 1 || n == 1
  }

  /** The broadcast length along one axis. */
  function Joined(m: nat, n: nat): nat {
    if m == 1 then n else m
  }

  /** The index read along an axis of length n at broadcast index i: an
      axis of length 1 is repeated. */
  function Stretch(n: nat, i: nat): nat {
    if n == 1 then 0 else i
  }

  /** numpy's `a + b` for an array `a` of any shape that broadcasts against
      an array `b` of shape `(rows, cols)`. */
  function BroadcastAdd(a: Grid, b: Grid, rows: nat, cols: nat): (c: Grid)
    requires Rectangular(a) && Shaped(b, rows, cols)
    requires Compatible(|a|, rows) && Compatible(|a[0]|, cols)
    ensures Shaped(c, Joined(|a|, rows), Joined(|a[0]|, cols))
    ensures forall i, j | 0 <= i < |c| && 0 <= j < Joined(|a[0]|, cols) ::
      c[i][j] == a[Stretch(|a|, i)][Stretch(|a[0]|, j)] + b[Stretch(rows, i)][Stretch(cols, j)]
  {
    var w := |a[0]|;
    seq(Joined(|a|, rows), i requires 0 <= i < Joined(|a|, rows) =>
      seq(Joined(w, cols), j requires 0 <= j < Joined(w, cols) =>
        a[Stretch(|a|, i)][Stretch(w, j)] + b[Stretch(rows, i)][Stretch(cols, j)]))
  }

  /** Two grids of one shape that agree cell by cell are equal. */
  lemma {:induction false} Ext(a: Grid, b: Grid, rows: nat, cols: nat)
    requires Shaped(a, rows, cols) && Shaped(b, rows, cols)
    requires forall i, j | 0 <= i < rows && 0 <= j < cols :: a[i][j] == b[i][j]
    ensures a == b
  {
    forall i | 0 <= i < rows
      ensures a[i] == b[i]
    {
      assert forall j | 0 <= j < cols :: a[i][j] == b[i][j];
    }
  }

  /** Adding zeros changes nothing. */
  lemma AddZeros(g: Grid, rows: nat, cols: nat)
    requires Shaped(g, rows, cols)
    ensures Add(Zeros(rows, cols), g, rows, cols) == g
    ensures Add(g, Zeros(rows, cols), rows, cols) == g
  {
    Ext(Add(Zeros(rows, cols), g, rows, cols), g, rows, cols);
    Ext(Add(g, Zeros(rows, cols), rows, cols), g, rows, cols);
  }

  /** Successive additions accumulate in any grouping. */
  lemma AddAssoc(a: Grid, b: Grid, c: Grid, rows: nat, cols: nat)
    requires Shaped(a, rows, cols) && Shaped(b, rows, cols) && Shaped(c, rows, cols)
    ensures Add(Add(a, b, rows, cols), c, rows, cols) == Add(a, Add(b, c, rows, cols), rows, cols)
  {
    Ext(Add(Add(a, b, rows, cols), c, rows, cols), Add(a, Add(b, c, rows, cols), rows, cols), rows, cols);
  }

  /** On two arrays of one shape, broadcasting is plain elementwise addition. */
  lemma BroadcastSameShape(a: Grid, b: Grid, rows: nat, cols: nat)
    requires Shaped(a, rows, cols) && Shaped(b, rows, cols)
    ensures Rectangular(a) ==> BroadcastAdd(a, b, rows, cols) == Add(a, b, rows, cols)
  {
    if Rectangular(a) {
      Ext(BroadcastAdd(a, b, rows, cols), Add(a, b, rows, cols), rows, cols);
    }
  }
}

=== FILE: phase_manager.dfy ===
/** The phase written to the SLM: a base pattern (loaded from a saved
    calculation) plus an additional phase built up from Fresnel lenses and
    Zernike polynomials, with a log of what was added. The lens and Zernike
    phases themselves are computed by slmsuite; the model receives them as
    grids of the SLM's shape. */
module PhaseManager {
  import opened Wire
  import opened Grids

  /** One entry `((n, m), weight)` of a Zernike polynomial list. */
  datatype ZernikeTerm = ZernikeTerm(n: int, m: int, weight: F64)

  /** An `add_log` entry: `["fresnel_lens", f]` or `["zernike", list]`. */
  datatype LogEntry = FresnelLens(focalLength: seq<F64>) | Zernike(terms: seq<ZernikeTerm>)

  class PhaseManager {
    /** `slm.shape`. */
    const rows: nat
    const cols: nat
    var base: Grid
    var baseSource: string
    var additional: Grid
    var addLog: seq<LogEntry>

    /** Every change to `additional` keeps the SLM's shape; `base` is whatever
        `set_base` was given. */
    ghost predicate Valid()
      reads this
    {
      Shaped(additional, rows, cols)
    }

    constructor (rows: nat, cols: nat)
      ensures Valid()
      ensures this.rows == rows && this.cols == cols
      ensures base == Zeros(rows, cols) && additional == Zeros(rows, cols)
      ensures baseSource == "" && addLog == []
    {
      this.rows := rows;
      this.cols := cols;
      base := Zeros(rows, cols);
      baseSource := "";
      additional := Zeros(rows, cols);
      addLog := [];
    }

    method SetBase(base: Grid, source: string)
      requires Valid()
      modifies this
      ensures Valid()
      ensures this.base == base && baseSource == source
      ensures additional == old(additional) && addLog == old(addLog)
    {
      this.base := base;
      baseSource := source;
    }

    /** `get()`: the base plus the additional phase. */
    function Get(): (r: Result<Grid>)
      requires Valid()
      reads this
      ensures r == Sum(base, additional, rows, cols)
    {
      Sum(base, additional, rows, cols)
    }

    method ResetBase()
      requires Valid()
      modifies this
      ensures Valid()
      ensures base == Zeros(rows, cols) && baseSource == ""
      ensures additional == old(additional) && addLog == old(addLog)
    {
      base := Zeros(rows, cols);
      baseSource := "";
    }

    method ResetAdditional()
      requires Valid()
      modifies this
      ensures Valid()
      ensures additional == Zeros(rows, cols) && addLog == []
      ensures base == old(base) && baseSource == old(baseSource)
    {
      additional := Zeros(rows, cols);
      addLog := [];
    }

    /** `add_fresnel_lens(f)`, with `lens` the phase slmsuite computes for f. */
    method AddFresnelLens(focalLength: seq<F64>, lens: Grid)
      requires Valid() && Shaped(lens, rows, cols)
      modifies this
      ensures Valid()
      ensures additional == Add(old(additional), lens, rows, cols)
      ensures addLog == old(addLog) + [FresnelLens(focalLength)]
      ensures base == old(base) && baseSource == old(baseSource)
    {
      additional := Add(additional, lens, rows, cols);
      addLog := addLog + [FresnelLens(focalLength)];
    }

    /** `add_zernike_poly(terms)`, with `zernike` the phase slmsuite computes
        for the terms. */
    method AddZernikePoly(terms: seq<ZernikeTerm>, zernike: Grid)
      requires Valid() && Shaped(zernike, rows, cols)
      modifies this
      ensures Valid()
      ensures additional == Add(old(additional), zernike, rows, cols)
      ensures addLog == old(addLog) + [Zernike(terms)]
      ensures base == old(base) && baseSource == old(baseSource)
    {
      additional := Add(additional, zernike, rows, cols);
      addLog := addLog + [Zernike(terms)];
    }
  }

  /** `base + additional` in numpy, with the additional phase of the SLM's
      shape: a base of the same shape adds cell by cell; a base that
      broadcasts (one row, one column, or a single cell along an axis of
      another length) is repeated along that axis; any other base makes
      numpy raise. */
  function Sum(base: Grid, additional: Grid, rows: nat, cols: nat): (r: Result<Grid>)
    requires Shaped(additional, rows, cols)
    ensures r.Ok? <==> Shaped(base, rows, cols) || Broadcasts(base, rows, cols)
    ensures Shaped(base, rows, cols) ==>
      && r.Ok? && Shaped(r.value, rows, cols)
      && forall i, j | 0 <= i < rows && 0 <= j < cols :: r.value[i][j] == base[i][j] + additional[i][j]
    ensures Broadcasts(base, rows, cols) ==>
      && r.Ok? && Shaped(r.value, Joined(|base|, rows), Joined(|base[0]|, cols))
      && forall i, j | 0 <= i < |r.value| && 0 <= j < Joined(|base[0]|, cols) ::
           r.value[i][j] == base[Stretch(|base|, i)][Stretch(|base[0]|, j)] + additional[Stretch(rows, i)][Stretch(cols, j)]
  {
    if Shaped(base, rows, cols) then
      BroadcastSameShape(base, additional, rows, cols);
      Ok(Add(base, additional, rows, cols))
    else if Broadcasts(base, rows, cols) then Ok(BroadcastAdd(base, additional, rows, cols))
    else Err("ValueError")
  }

  /** A base numpy broadcasts against an array of shape `(rows, cols)`. */
  predicate Broadcasts(base: Grid, rows: nat, cols: nat) {
    Rectangular(base) && Compatible(|base|, rows) && Compatible(|base[0]|, cols)
  }

  /** The additional phase after a sequence of additions starting from zero. */
  function Accumulated(phases: seq<Grid>, rows: nat, cols: nat): (g: Grid)
    requires forall k | 0 <= k < |phases| :: Shaped(phases[k], rows, cols)
    ensures Shaped(g, rows, cols)
  {
    if phases == [] then Zeros(rows, cols)
    else Add(Accumulated(phases[..|phases| - 1], rows, cols), phases[|phases| - 1], rows, cols)
  }

  /** Each cell of the accumulated phase is the sum of that cell over the
      added phases. */
  function CellSum(phases: seq<Grid>, i: nat, j: nat, rows: nat, cols: nat): real
    requires forall k | 0 <= k < |phases| :: Shaped(phases[k], rows, cols)
    requires i < rows && j < cols
  {
    if phases == [] then 0.0
    else
      var last := phases[|phases| - 1];
      assert Shaped(last, rows, cols);
      CellSum(phases[..|phases| - 1], i, j, rows, cols) + last[i][j]
  }

  lemma {:induction false} AccumulatedCells(phases: seq<Grid>, rows: nat, cols: nat)
    requires forall k | 0 <= k < |phases| :: Shaped(phases[k], rows, cols)
    ensures forall i, j | 0 <= i < rows && 0 <= j < cols ::
      Accumulated(phases, rows, cols)[i][j] == CellSum(phases, i, j, rows, cols)
  {
    if phases != [] {
      AccumulatedCells(phases[..|phases| - 1], rows, cols);
    }
  }

  /** Two runs of additions accumulate to the sum of what each run
      accumulates on its own. */
  lemma {:induction false} AccumulatedConcat(xs: seq<Grid>, ys: seq<Grid>, rows: nat, cols: nat)
    requires forall k | 0 <= k < |xs| :: Shaped(xs[k], rows, cols)
    requires forall k | 0 <= k < |ys| :: Shaped(ys[k], rows, cols)
    ensures forall k | 0 <= k < |xs + ys| :: Shaped((xs + ys)[k], rows, cols)
    ensures Accumulated(xs + ys, rows, cols) == Add(Accumulated(xs, rows, cols), Accumulated(ys, rows, cols), rows, cols)
  {
    assert forall k | 0 <= k < |xs + ys| :: Shaped((xs + ys)[k], rows, cols) by {
      forall k | 0 <= k < |xs + ys|
        ensures Shaped((xs + ys)[k], rows, cols)
      {
        if k < |xs| { assert (xs + ys)[k] == xs[k]; } else { assert (xs + ys)[k] == ys[k - |xs|]; }
      }
    }
    if ys == [] {
      assert xs + ys == xs;
      AddZeros(Accumulated(xs, rows, cols), rows, cols);
    } else {
      var init := ys[..|ys| - 1];
      var last := ys[|ys| - 1];
      assert (xs + ys)[..|xs + ys| - 1] == xs + init;
      assert (xs + ys)[|xs + ys| - 1] == last;
      AccumulatedConcat(xs, init, rows, cols);
      AddAssoc(Accumulated(xs, rows, cols), Accumulated(init, rows, cols), last, rows, cols);
    }
  }

  /** After a reset, a run of lens and Zernike additions leaves `additional`
      equal to the sum of the added phases and the log listing them in
      order, and the base is untouched. */
  method AdditionsAccumulate(pm: PhaseManager, focal: seq<F64>, lens: Grid, terms: seq<ZernikeTerm>, zernike: Grid)
    requires pm.Valid() && Shaped(lens, pm.rows, pm.cols) && Shaped(zernike, pm.rows, pm.cols)
    modifies pm
    ensures pm.Valid()
    ensures pm.additional == Accumulated([lens, zernike], pm.rows, pm.cols)
    ensures pm.addLog == [FresnelLens(focal), Zernike(terms)]
    ensures pm.base == old(pm.base)
  {
    pm.ResetAdditional();
    pm.AddFresnelLens(focal, lens);
    pm.AddZernikePoly(terms, zernike);
    AddZeros(lens, pm.rows, pm.cols);
    assert [lens, zernike][..1] == [lens];
    assert [lens][..0] == [];
    assert Accumulated([lens], pm.rows, pm.cols) == lens;
  }
}

=== FILE: protocol.dfy ===
/** Both ends of a connection at once. A REQ socket adds and strips the
    routing envelope, so a server handler reads the payloads of the frames a
    client sent after the command name, and a client reads the payloads of
    the items a server replied with. */
module Protocol {
  import opened Wire
  import opened Transport
  import opened Requests
  import opened Grids
  import opened PhaseManager
  import CameraServer
  import CameraClient
  import Server
  import Client

  /** `np.array([1024]).tobytes()` reads back as 1024. */
  lemma SideBytesValue()
    ensures FromBytesLE(CameraServer.SideBytes) == 1024
  {
    assert Pow256(1) == 256;
    assert Pow256(2) == 65536;
    assert Pow256(3) == 256 * 65536;
    assert Pow256(4) > 1024;
    assert Pow256(5) > 1024;
    assert Pow256(6) > 1024;
    assert Pow256(7) > 1024;
    assert Pow256(8) > 1024;
    LeRoundTrip(1024, 8);
  }

  /** The camera server's size and serial replies decode on the camera
      client to a 1024 x 1024 sensor of depth 8 named "test_camera". */
  lemma CameraGetters(image: seq<byte>, rest: seq<seq<byte>>)
    ensures forall name | name in ["get_width", "get_height"] ::
      var h := CameraServer.Handler(name, None, image);
      h.Answer? && CameraClient.Recv1Int(Collect([0], [Payload(h.items[0])] + rest)) == Ok(1024)
    ensures var h := CameraServer.Handler("get_depth", None, image);
      h.Answer? && CameraClient.Recv1Int(Collect([0], [Payload(h.items[0])] + rest)) == Ok(8)
    ensures var h := CameraServer.Handler("get_serial", None, image);
      h.Answer? && Collect([1], [Payload(h.items[0])] + rest)[0] == Some(Str("test_camera"))
  {
    SideBytesValue();
    Client.LeSingleByte(8);
    TextRoundTrip("test_camera");
  }

  /** The flat 8-byte encoding of the iteration count reads back as the count. */
  lemma OneByte(v: int)
    requires 0 <= v < 256
    ensures FromBytesLE([v]) == v
  {
    assert [v][1..] == [];
  }

  /** A `send_calculate` of a 2 x N target array (x row then y row) is
      recorded by the server's `calculate` as exactly those coordinates,
      amplitudes and iterations, an iteration count of 0 standing for the
      configured default; the reply is "ok" and nothing more is read. */
  lemma CalculateRoundTrip(xs: seq<F64>, ys: seq<F64>, amps: seq<F64>, iterations: int,
                           rest: seq<seq<byte>>, st: Server.ServerState, env: Server.Env)
    requires |xs| == |ys| && 0 <= iterations < 256
    requires Server.StateOk(st, env) && env.settings.computationalSpace.Some?
    requires iterations > 0 || env.settings.nIterations.Some?
    ensures var req := Client.CalculateRequest(xs + ys, amps, iterations);
      && req.error.None? && req.frames[0].data == EncodeText("calculate") && "calculate" in Server.Commands
      && var r := Server.CalculateSpec(Payloads(req.frames)[1..] + rest, st, env);
      && r.handled == Server.Done && r.rest == rest
      && r.st.calculations == st.calculations +
           [Server.Calculation(env.settings.computationalSpace.value, xs, ys, amps,
                               if iterations == 0 then env.settings.nIterations.value else iterations)]
  {
    var req := Client.CalculateRequest(xs + ys, amps, iterations);
    Client.LeSingleByte(iterations);
    var q := Payloads(req.frames)[1..] + rest;
    assert q[0] == ToBuffer(xs + ys) && q[1] == ToBuffer(amps) && q[2] == [iterations];
    assert q[1..][0] == q[1] && q[1..][1..][0] == q[2] && q[1..][1..][1..] == rest;
    BufferRoundTrip(xs + ys);
    BufferRoundTrip(amps);
    OneByte(iterations);
    var words := xs + ys;
    assert words[..|words| / 2] == xs && words[|words| / 2..] == ys;
  }

  /** The client reads the saved data path back from its text frame, and
      dropping `_data.npz` leaves the stem. */
  lemma DataPathReply(stem: string)
    requires IsLatin1(stem)
    ensures var reply := Collect([1, 1], [EncodeText(stem + "_config.yml"), EncodeText(stem + "_data.npz")]);
      reply[1] == Some(Str(stem + "_data.npz")) && DropLast(reply[1].value.text, 9) == stem
  {
    var data := stem + "_data.npz";
    assert IsLatin1(data) by {
      assert forall i | |stem| <= i < |data| :: data[i] == "_data.npz"[i - |stem|];
    }
    TextRoundTrip(data);
    CollectSpec([1, 1], [EncodeText(stem + "_config.yml"), EncodeText(data)]);
    DropLastOfAppend(stem, "_data.npz");
  }

  /** With an empty pattern path, `use_pattern` of a stem opens the data
      file saved under it and takes its `slm_phase` as the base. */
  lemma UsePatternOpens(stem: string, later: seq<seq<byte>>, st: Server.ServerState, env: Server.Env)
    requires Server.StateOk(st, env) && env.settings.patternPath == "" && IsLatin1(stem)
    ensures var load := Client.PathRequest("use_pattern", Some(stem));
      var data := stem + "_data.npz";
      && Server.PhaseFile(env, DecodeText(Payloads(load.frames)[1])) == data
      && (data in env.disk && "slm_phase" in env.disk[data] ==>
            Server.LoadBase(Payloads(load.frames)[1..] + later, st, env).st.base == env.disk[data]["slm_phase"])
  {
    TextRoundTrip(stem);
    var load := Client.PathRequest("use_pattern", Some(stem));
    assert Payloads(load.frames)[1] == EncodeText(stem);
    assert (Payloads(load.frames)[1..] + later)[0] == EncodeText(stem);
    assert "" + stem == stem;
  }

  /** `calculate_save_and_project` loads back what the server saved: the
      server replies with the data path, the client sends it back without
      `_data.npz`, and with an empty pattern path the server's
      `use_pattern` opens that same data file and takes its `slm_phase` as
      the base. */
  lemma SaveThenUsePattern(path: string, name: string, rest: seq<seq<byte>>, later: seq<seq<byte>>,
                           st: Server.ServerState, env: Server.Env, now: string)
    requires st.hologram && Server.StateOk(st, env) && env.settings.patternPath == ""
    requires IsLatin1(path) && IsLatin1(name) && IsLatin1(path + env.sep + now + name)
    ensures var data := path + env.sep + now + name + "_data.npz";
      var saved := Server.SaveCalculationSpec([EncodeText(path), EncodeText(name)] + rest, st, env, now);
      && saved.handled.Answer? && saved.handled.items[1] == Str(data)
      && var reply := Collect([1, 1], [Payload(saved.handled.items[0]), Payload(saved.handled.items[1])]);
      && var load := Client.PathRequest("use_pattern", Some(DropLast(reply[1].value.text, 9)));
      && Server.PhaseFile(env, DecodeText(Payloads(load.frames)[1])) == data
      && (data in env.disk && "slm_phase" in env.disk[data] ==>
            Server.LoadBase(Payloads(load.frames)[1..] + later, st, env).st.base == env.disk[data]["slm_phase"])
  {
    var stem := path + env.sep + now + name;
    Server.SaveCalculationReply(path, name, rest, st, env, now);
    DataPathReply(stem);
    UsePatternOpens(stem, later, st, env);
  }

  /** The request `_load_config` sends for a `zernike` entry carries the
      flattened rows of the parsed list. */
  lemma ZernikeRequest(value: Option<string>, eval: string -> Option<Client.Literal>)
    requires Client.Route("zernike", value, eval).Send?
    ensures Client.Parsed(value, eval).Ok? && Client.Parsed(value, eval).value.List?
    ensures Client.ZernikeRows(Client.Parsed(value, eval).value.items).Ok?
    ensures Client.Route("zernike", value, eval).req ==
      Command("add_zernike_poly", [BinaryPart(ToBuffer(Client.ZernikeRows(Client.Parsed(value, eval).value.items).value))])
  {
  }

  /** Entry `[[n, m], w]` gives a row whose `n` and `m` `int()` accepts. */
  predicate RowConverts(item: Client.Literal, toInt: F64 -> Result<int>) {
    var row := Client.ZernikeRow(item);
    && row.Ok? && |row.value| == 3 && row.value[0].Num? && row.value[1].Num?
    && toInt(row.value[0].x).Ok? && toInt(row.value[1].x).Ok?
  }

  /** A `zernike` entry that `_load_config` sends is answered "ok" exactly
      when every `n` and `m` converts to an int; the server then adds the
      Zernike phase of one term per entry of the list to the additional
      phase and logs those terms, term i being `((int(n), int(m)), w)` of
      the entry's `[[n, m], w]`. Otherwise the server raises and its state
      is unchanged. */
  lemma ZernikeEntryReachesServer(value: Option<string>, eval: string -> Option<Client.Literal>,
                                  rest: seq<seq<byte>>, st: Server.ServerState, env: Server.Env)
    requires Server.EnvOk(env) && Server.StateOk(st, env)
    requires Client.Route("zernike", value, eval).Send?
    ensures Client.Parsed(value, eval).Ok? && Client.Parsed(value, eval).value.List?
    ensures var req := Client.Route("zernike", value, eval).req;
      var items := Client.Parsed(value, eval).value.items;
      var r := Server.AddZernikeSpec(Payloads(req.frames)[1..] + rest, st, env);
      && req.frames[0].data == EncodeText("add_zernike_poly") && "add_zernike_poly" in Server.Commands
      && r.rest == rest
      && (r.handled == Server.Done <==> forall i | 0 <= i < |items| :: RowConverts(items[i], env.toInt))
      && (r.handled != Server.Done ==> r.handled.Raise? && r.st == st)
      && (r.handled == Server.Done ==>
            && |r.st.addLog| == |st.addLog| + 1 && r.st.addLog[..|st.addLog|] == st.addLog
            && r.st.addLog[|st.addLog|].Zernike?
            && var terms := r.st.addLog[|st.addLog|].terms;
            && r.st.additional == Add(st.additional, env.zernike(terms), env.rows, env.cols)
            && |terms| == |items|
            && forall i | 0 <= i < |items| ::
                 && Client.ZernikeRow(items[i]).Ok?
                 && var row := Client.ZernikeRow(items[i]).value;
                 && row[0].Num? && row[1].Num? && row[2].Num?
                 && terms[i] == ZernikeTerm(env.toInt(row[0].x).value, env.toInt(row[1].x).value, row[2].x))
  {
    ZernikeRequest(value, eval);
    var items := Client.Parsed(value, eval).value.items;
    var flat := Client.ZernikeRows(items).value;
    var req := Client.Route("zernike", value, eval).req;
    var b := ToBuffer(flat);
    assert Payloads(req.frames)[1..] + rest == [b] + rest;
    BufferRoundTrip(flat);
    Server.ZernikeFrame(b, rest, st, env);
    ZernikeTermsOfRows(items, env.toInt);
  }

  /** Values 3i, 3i + 1 and 3i + 2 of the flattened rows are the numbers
      of entry i's row. */
  predicate FlatOf(flat: seq<F64>, items: seq<Client.Literal>) {
    && |flat| == 3 * |items|
    && forall i | 0 <= i < |items| ::
         && Client.ZernikeRow(items[i]).Ok?
         && var row := Client.ZernikeRow(items[i]).value;
         && |row| == 3 && row[0].Num? && row[1].Num? && row[2].Num?
         && flat[3 * i] == row[0].x && flat[3 * i + 1] == row[1].x && flat[3 * i + 2] == row[2].x
  }

  lemma RowsFlatten(items: seq<Client.Literal>)
    requires Client.ZernikeRows(items).Ok?
    ensures FlatOf(Client.ZernikeRows(items).value, items)
  {
    Client.ZernikeRowsSpec(items);
    var flat := Client.ZernikeRows(items).value;
    forall i | 0 <= i < |items|
      ensures var row := Client.ZernikeRow(items[i]).value;
        flat[3 * i] == row[0].x && flat[3 * i + 1] == row[1].x && flat[3 * i + 2] == row[2].x
    {
      assert flat[3 * i] == Client.ZernikeRow(items[i]).value[0].x;
      assert flat[3 * i + 1] == Client.ZernikeRow(items[i]).value[1].x;
      assert flat[3 * i + 2] == Client.ZernikeRow(items[i]).value[2].x;
    }
  }

  /** Every `n` and `m` of the flattened rows converts exactly when every
      entry's does. */
  lemma ConvertsIff(flat: seq<F64>, items: seq<Client.Literal>, toInt: F64 -> Result<int>)
    requires FlatOf(flat, items)
    ensures Server.IntsBefore(flat, toInt, |flat|) <==> forall i | 0 <= i < |items| :: RowConverts(items[i], toInt)
  {
    if Server.IntsBefore(flat, toInt, |flat|) {
      forall i | 0 <= i < |items|
        ensures RowConverts(items[i], toInt)
      {
        assert toInt(flat[3 * i]).Ok? && toInt(flat[3 * i + 1]).Ok?;
      }
    }
    if forall i | 0 <= i < |items| :: RowConverts(items[i], toInt) {
      forall j | 0 <= j < |flat| && j % 3 != 2
        ensures toInt(flat[j]).Ok?
      {
        var i := j / 3;
        assert RowConverts(items[i], toInt);
        assert j == 3 * i || j == 3 * i + 1;
      }
    }
  }

  /** The server's unflattening of the client's flattened rows succeeds
      exactly when every entry's `n` and `m` converts, and then gives back
      one term per entry, `((int(n), int(m)), w)` of the entry's `[[n, m], w]`. */
  lemma ZernikeTermsOfRows(items: seq<Client.Literal>, toInt: F64 -> Result<int>)
    requires Client.ZernikeRows(items).Ok?
    ensures var flat := Client.ZernikeRows(items).value;
      && |flat| % 3 == 0
      && (Server.IntsBefore(flat, toInt, |flat|) <==> forall i | 0 <= i < |items| :: RowConverts(items[i], toInt))
      && var terms := Server.Unflatten(flat, toInt);
      && (terms.Ok? <==> Server.IntsBefore(flat, toInt, |flat|))
      && (terms.Ok? ==> |terms.value| == |items|)
      && forall i | 0 <= i < |items| ::
           && Client.ZernikeRow(items[i]).Ok?
           && var row := Client.ZernikeRow(items[i]).value;
           && row[0].Num? && row[1].Num? && row[2].Num?
           && (terms.Ok? ==> terms.value[i] == ZernikeTerm(toInt(row[0].x).value, toInt(row[1].x).value, row[2].x))
  {
    var flat := Client.ZernikeRows(items).value;
    RowsFlatten(items);
    ConvertsIff(flat, items, toInt);
    Server.UnflattenSpec(flat, toInt);
  }

  /** A `fresnel_lens*` entry that `_load_config` sends makes the server's
      `add_fresnel_lens` add the lens phase of exactly the entry's numbers to
      the additional phase and log them. */
  lemma FresnelEntryReachesServer(key: string, value: Option<string>, eval: string -> Option<Client.Literal>,
                                  rest: seq<seq<byte>>, st: Server.ServerState, env: Server.Env)
    requires Server.EnvOk(env) && Server.StateOk(st, env)
    requires Client.StartsWith(key, "fresnel_lens") && Client.Route(key, value, eval).Send?
    ensures var req := Client.Route(key, value, eval).req;
      var r := Server.AddFresnelSpec(Payloads(req.frames)[1..] + rest, st, env);
      && req.frames[0].data == EncodeText("add_fresnel_lens") && "add_fresnel_lens" in Server.Commands
      && r.handled == Server.Done && r.rest == rest
      && Client.Parsed(value, eval).Ok? && Client.ArrayOf(Client.Parsed(value, eval).value).Ok?
      && var xs := Client.ArrayOf(Client.Parsed(value, eval).value).value;
      && r.st.additional == Add(st.additional, env.lens(xs), env.rows, env.cols)
      && r.st.addLog == st.addLog + [FresnelLens(xs)]
  {
    assert !Client.StartsWith(key, "file_correction") by {
      if |key| >= 15 {
        assert key[1] == 'r' && "file_correction"[1] == 'i';
      }
    }
    assert key != "pattern" && key != "fourier_calibration" by {
      assert key[1] == 'r';
    }
    assert Client.Parsed(value, eval).Ok?;
    assert Client.ArrayOf(Client.Parsed(value, eval).value).Ok?;
    var xs := Client.ArrayOf(Client.Parsed(value, eval).value).value;
    var req := Client.Route(key, value, eval).req;
    assert req == Command("add_fresnel_lens", [BinaryPart(ToBuffer(xs))]);
    var q := Payloads(req.frames)[1..] + rest;
    assert q[0] == ToBuffer(xs) && q[1..] == rest;
    BufferRoundTrip(xs);
  }

  /** The commands the SLM client sends that the SLM server does not serve:
      each gets the empty-string reply, so `save_config` against this server
      stores an empty pattern and no corrections. */
  lemma UnservedCommands(addr: seq<byte>, q: seq<seq<byte>>, st: Server.ServerState, env: Server.Env, now: string)
    requires Server.EnvOk(env) && Server.StateOk(st, env)
    ensures forall name | name in ["id", "project", "get_base", "get_additional_phase", "add_offset",
                                   "use_correction", "load_fourier_calibration"] ::
      Server.Dispatch(addr, Some(name), q, st, env, now) ==
        Server.Served(Envelope(addr, [1], [Str("")]), [], st, Returned(false))
    ensures Client.SaveConfigSpec([Payload(Str("")), Payload(Str(""))]) == Ok(map["pattern" := Some("")])
  {
    forall name | name in ["id", "project", "get_base", "get_additional_phase", "add_offset",
                           "use_correction", "load_fourier_calibration"]
      ensures Server.Dispatch(addr, Some(name), q, st, env, now) ==
        Server.Served(Envelope(addr, [1], [Str("")]), [], st, Returned(false))
    {
      Server.UnknownCommand(addr, name, q, st, env, now);
    }
    var empty := Payload(Str(""));
    assert empty == [];
    assert Client.Split("", ';') == [""];
    assert Client.Pairs([""]) == [];
    assert Client.Stored([]) == map[];
    assert Collect([1], [empty, empty])[0] == Some(Str(""));
    assert Collect([1], Unread([1], [empty, empty]))[0] == Some(Str(""));
  }
}

=== FILE: requests.dfy ===
/** The client side of the protocol: a REQ socket, the multi-part messages
    the clients send, and the `poll_recv` reply collection every client call
    goes through. A poll that times out is a poll on an empty queue. */
module Requests {
  import opened Wire
  import opened Transport

  /** One part of a request: `send_string(text)` or `send(bytes)`. */
  datatype Part = TextPart(text: string) | BinaryPart(data: seq<byte>)

  /** A request sent part by part, `zmq.SNDMORE` on all but the last part. */
  function Message(parts: seq<Part>): (m: seq<Out>)
    ensures |m| == |parts|
    ensures forall i | 0 <= i < |parts| ::
      && m[i].more == (i != |parts| - 1)
      && (parts[i].TextPart? ==> m[i].kind == Text && m[i].data == EncodeText(parts[i].text))
      && (parts[i].BinaryPart? ==> m[i].kind == Binary && m[i].data == parts[i].data)
  {
    seq(|parts|, i requires 0 <= i < |parts| =>
      match parts[i]
      case TextPart(t) => Out(Text, EncodeText(t), i != |parts| - 1)
      case BinaryPart(b) => Out(Binary, b, i != |parts| - 1))
  }

  /** What a client call's body does before the replies are collected: the
      frames it got out, and the exception that stopped it, if any. */
  datatype Request = Request(frames: seq<Out>, error: Option<string>)

  /** A body that raised after sending `parts`: each went out with
      `zmq.SNDMORE`, since more was to follow. */
  function Interrupted(parts: seq<Part>, error: string): (r: Request)
    ensures |r.frames| == |parts| && r.error == Some(error)
    ensures forall i | 0 <= i < |parts| :: r.frames[i].more && r.frames[i] == Message(parts + [TextPart("")])[i]
  {
    Request(Message(parts + [TextPart("")])[..|parts|], Some(error))
  }

  /** A body that sends the command name followed by its arguments. */
  function Command(name: string, args: seq<Part>): Request {
    Request(Message([TextPart(name)] + args), None)
  }

  /** A received frame read with `recv` (kind 0) or `recv_string` (kind 1). */
  function Read(kind: int, data: seq<byte>): Item {
    if kind == 0 then Bytes(data) else Str(DecodeText(data))
  }

  /** The reply list `poll_recv` builds from the frames waiting: one entry
      per requested kind, `None` once the queue is exhausted. */
  function Collect(kinds: seq<int>, q: seq<seq<byte>>): (rep: seq<Option<Item>>)
    ensures |rep| == |kinds|
    decreases |kinds|
  {
    if kinds == [] then []
    else if q == [] then [None] + Collect(kinds[1..], [])
    else [Some(Read(kinds[0], q[0]))] + Collect(kinds[1..], q[1..])
  }

  /** Entry i is the i-th waiting frame read with the i-th kind, and is
      `None` exactly when no i-th frame was waiting. */
  lemma {:induction false} CollectSpec(kinds: seq<int>, q: seq<seq<byte>>)
    ensures forall i | 0 <= i < |kinds| :: Collect(kinds, q)[i].None? <==> i >= |q|
    ensures forall i | 0 <= i < |kinds| && i < |q| :: Collect(kinds, q)[i] == Some(Read(kinds[i], q[i]))
    decreases |kinds|
  {
    if kinds != [] {
      if q == [] {
        CollectSpec(kinds[1..], []);
      } else {
        CollectSpec(kinds[1..], q[1..]);
        assert forall i | 1 <= i < |kinds| && i < |q| :: q[1..][i - 1] == q[i];
      }
    }
  }

  /** The frames left waiting after `Collect`. */
  function Unread(kinds: seq<int>, q: seq<seq<byte>>): seq<seq<byte>> {
    if |kinds| < |q| then q[|kinds|..] else []
  }

  /** A client's REQ socket: the frames it has sent and the reply frames
      waiting to be read. */
  class ReqSocket {
    var outbound: seq<Out>
    var inbound: seq<seq<byte>>

    constructor (replies: seq<seq<byte>>)
      ensures outbound == [] && inbound == replies
    {
      outbound := [];
      inbound := replies;
    }

    /** Run a call's body: its frames go out, whatever it raised. */
    method Transmit(req: Request)
      modifies this
      ensures outbound == old(outbound) + req.frames && inbound == old(inbound)
    {
      outbound := outbound + req.frames;
    }

    /** The `for i in recv_type` loop: poll, and on a waiting frame read it
        with the kind's receive. */
    method CollectReplies(kinds: seq<int>) returns (rep: seq<Option<Item>>)
      modifies this
      ensures rep == Collect(kinds, old(inbound))
      ensures inbound == Unread(kinds, old(inbound)) && outbound == old(outbound)
    {
      rep := [];
      var i := 0;
      while i < |kinds|
        invariant 0 <= i <= |kinds|
        invariant outbound == old(outbound)
        invariant inbound == Unread(kinds[..i], old(inbound))
        invariant rep + Collect(kinds[i..], inbound) == Collect(kinds, old(inbound))
      {
        assert kinds[i..][1..] == kinds[i + 1..];
        assert kinds[..i + 1][..i] == kinds[..i];
        if inbound == [] {
          rep := rep + [None];
        } else {
          rep := rep + [Some(Read(kinds[i], inbound[0]))];
          inbound := inbound[1..];
        }
        i := i + 1;
      }
      assert kinds[..i] == kinds;
    }
  }

  /** Reading the replies one request needs from the queue and then the
      rest is the same as collecting them in one go. */
  lemma {:induction false} CollectSplit(kinds: seq<int>, more: seq<int>, q: seq<seq<byte>>)
    ensures Collect(kinds + more, q) == Collect(kinds, q) + Collect(more, Unread(kinds, q))
    decreases |kinds|
  {
    if kinds != [] {
      assert (kinds + more)[1..] == kinds[1..] + more;
      if q == [] {
        CollectSplit(kinds[1..], more, []);
      } else {
        CollectSplit(kinds[1..], more, q[1..]);
        if |kinds| < |q| {
          assert q[1..][|kinds| - 1..] == q[|kinds|..];
        }
      }
    } else {
      assert kinds + more == more;
    }
  }
}

=== FILE: server.dfy ===
/** The SLM server: a worker owning a ROUTER socket that serves six
    commands — load a saved pattern, run a hologram calculation, save it, add
    a Fresnel lens or Zernike polynomials to the additional phase, and reset
    that phase. The slmsuite interface is outside the model: its calculation
    calls are recorded, the files on disk, the lens and Zernike phases and
    float-to-int conversion are parameters. */
module Server {
  import opened Wire
  import opened Transport
  import opened Grids
  import opened PhaseManager
  import opened Utils

  datatype WorkerRequest = NoRequest | Stop

  // ---------------------------------------------------------- configuration

  datatype AlgSection = AlgSection(computationalSpace: Option<(int, int)>, nIterations: Option<int>)

  /** The keys of the server's configuration file that `__init__` reads. */
  datatype ServerConfig = ServerConfig(url: Option<string>, patternPath: Option<string>, alg: Option<AlgSection>)

  /** What `__init__` sets: the two `alg` attributes stay unset (`None`)
      without an `alg` section. */
  datatype Settings = Settings(url: string, patternPath: string,
                               computationalSpace: Option<(int, int)>, nIterations: Option<int>)

  function Configure(cfg: ServerConfig): (r: Result<Settings>)
    ensures r.Ok? <==> cfg.url.Some?
    ensures r.Ok? ==> r.value.url == cfg.url.value
    ensures r.Ok? ==> (r.value.computationalSpace.Some? <==> cfg.alg.Some?) && (r.value.nIterations.Some? <==> cfg.alg.Some?)
  {
    if cfg.url.None? then Err("Exception")
    else
      Ok(Settings(
        cfg.url.value,
        OrElse(cfg.patternPath, ""),
        if cfg.alg.Some? then Some(OrElse(cfg.alg.value.computationalSpace, (2048, 2048))) else None,
        if cfg.alg.Some? then Some(OrElse(cfg.alg.value.nIterations, 20)) else None))
  }

  /** `pattern_path` defaults to "", and under `alg` the computational space
      to 2048 x 2048 and the iteration count to 20; given values are kept. */
  lemma ConfigDefaults(cfg: ServerConfig)
    requires cfg.url.Some?
    ensures var s := Configure(cfg).value;
      && s.patternPath == (if cfg.patternPath.Some? then cfg.patternPath.value else "")
      && (cfg.alg.Some? ==>
            && s.computationalSpace.value == (if cfg.alg.value.computationalSpace.Some? then cfg.alg.value.computationalSpace.value else (2048, 2048))
            && s.nIterations.value == (if cfg.alg.value.nIterations.Some? then cfg.alg.value.nIterations.value else 20))
  {
  }

  /** `__init__` as written: after reading the configuration and starting
      the worker it builds the phase manager from `self.slm`, an attribute
      nothing assigns, so construction always raises. */
  function InitAsWritten(cfg: ServerConfig): (r: Result<Settings>)
    ensures r.Err?
    ensures cfg.url.Some? ==> r.error == "AttributeError"
  {
    match Configure(cfg)
    case Err(e) => Err(e)
    case Ok(_) => Err("AttributeError")
  }

  /** No configuration gets a server built as written, while every
      configuration with a `url` is accepted once the phase manager gets the
      SLM the worker sets up. */
  lemma InitFinding(cfg: ServerConfig)
    ensures InitAsWritten(cfg).Err?
    ensures cfg.url.Some? ==> Configure(cfg).Ok? && InitAsWritten(cfg) == Err("AttributeError")
  {
  }

  /** The `slm` and `camera` sections the worker reads before serving. */
  datatype SlmSection = SlmSection(kind: Option<string>, hamamatsuKeys: bool)
  datatype CameraSection = CameraSection(kind: Option<string>, url: bool)

  /** The exception the worker's set-up raises, if any: a missing section,
      a missing `type` (or a missing key of its kind) or an unknown type. */
  function SetupError(slm: Option<SlmSection>, camera: Option<CameraSection>): (e: Option<string>)
    ensures e.None? <==>
      && slm.Some? && slm.value.kind.Some?
      && (slm.value.kind.value == "virtual" || (slm.value.kind.value == "hamamatsu" && slm.value.hamamatsuKeys))
      && camera.Some? && camera.value.kind.Some?
      && (camera.value.kind.value == "virtual" || (camera.value.kind.value == "network" && camera.value.url))
  {
    if slm.None? then Some("Exception")
    else if slm.value.kind.None? then Some("KeyError")
    else if slm.value.kind.value == "hamamatsu" && !slm.value.hamamatsuKeys then Some("KeyError")
    else if slm.value.kind.value != "virtual" && slm.value.kind.value != "hamamatsu" then Some("Exception")
    else if camera.None? then Some("Exception")
    else if camera.value.kind.None? then Some("KeyError")
    else if camera.value.kind.value == "network" && !camera.value.url then Some("KeyError")
    else if camera.value.kind.value != "virtual" && camera.value.kind.value != "network" then Some("Exception")
    else None
  }

  // ------------------------------------------------------------ environment

  /** What lies outside the server: its settings, the SLM's shape, the
      arrays stored in each `.npz` file, the working directory and path
      separator, the phases slmsuite computes, and `int()` of a float64,
      which raises ValueError on NaN and OverflowError on an infinity. */
  datatype Env = Env(
    settings: Settings, rows: nat, cols: nat,
    disk: map<string, map<string, Grid>>, cwd: string, sep: string,
    lens: seq<F64> -> Grid, zernike: seq<ZernikeTerm> -> Grid, toInt: F64 -> Result<int>)

  ghost predicate EnvOk(env: Env) {
    && (forall f :: Shaped(env.lens(f), env.rows, env.cols))
    && (forall t :: Shaped(env.zernike(t), env.rows, env.cols))
  }

  /** One `iface.calculate(computational_space, targets, amps, n_iters)` call. */
  datatype Calculation = Calculation(space: (int, int), xs: seq<F64>, ys: seq<F64>, amps: seq<F64>, iterations: int)

  /** The server's state: the phase manager's fields, whether the interface
      holds a hologram, the calculations run and the phases written to the SLM. */
  datatype ServerState = ServerState(
    base: Grid, baseSource: string, additional: Grid, addLog: seq<LogEntry>,
    hologram: bool, calculations: seq<Calculation>, written: seq<Grid>)

  predicate StateOk(st: ServerState, env: Env) {
    Shaped(st.additional, env.rows, env.cols)
  }

  const Commands: seq<string> := [
    "use_pattern", "calculate", "save_calculation", "add_fresnel_lens",
    "add_zernike_poly", "reset_additional_phase"]

  /** A handler's reply or exception, the frames it left unread, and the
      state after it. */
  datatype Reaction = Reaction(handled: Handled, rest: seq<seq<byte>>, st: ServerState)

  const Done: Handled := Answer([1], [Str("ok")])

  // --------------------------------------------------------------- handlers

  /** `load_phase(fname)` (through `load_slm_calculation(pattern_path +
      fname, 0, 1)`): the file it opens. */
  function PhaseFile(env: Env, fname: string): (file: string)
    ensures file == env.settings.patternPath + fname + "_data.npz"
  {
    LoadSlmCalculation(env.settings.patternPath + fname, false, true).data.value
  }

  /** The part of `use_pattern` the two variants share: read the name,
      load the phase and set it as base. */
  function LoadBase(q: seq<seq<byte>>, st: ServerState, env: Env): (r: Reaction)
    requires StateOk(st, env)
    ensures StateOk(r.st, env)
  {
    var f := Recv(q);
    if f.frame.None? then Reaction(Raise("TypeError"), f.rest, st)
    else
      var fname := DecodeText(f.frame.value);
      var file := PhaseFile(env, fname);
      if file !in env.disk then Reaction(Raise("FileNotFoundError"), f.rest, st)
      else if "slm_phase" !in env.disk[file] then Reaction(Raise("KeyError"), f.rest, st)
      else Reaction(Done, f.rest, st.(base := env.disk[file]["slm_phase"], baseSource := fname))
  }

  /** `use_pattern` as written: `write_to_SLM` takes a base and a name and is
      given only the phase, so once the base is set and the sum computed the
      call raises. */
  function UsePatternAsWritten(q: seq<seq<byte>>, st: ServerState, env: Env): (r: Reaction)
    requires StateOk(st, env)
    ensures StateOk(r.st, env)
  {
    var l := LoadBase(q, st, env);
    if l.handled.Raise? then l
    else if Sum(l.st.base, l.st.additional, env.rows, env.cols).Err? then Reaction(Raise("ValueError"), l.rest, l.st)
    else Reaction(Raise("TypeError"), l.rest, l.st)
  }

  /** `use_pattern` with the write going through: set the base, write base
      plus additional phase to the SLM, reply "ok". */
  function UsePattern(q: seq<seq<byte>>, st: ServerState, env: Env): (r: Reaction)
    requires StateOk(st, env)
    ensures StateOk(r.st, env)
  {
    var l := LoadBase(q, st, env);
    if l.handled.Raise? then l
    else
      var phase := Sum(l.st.base, l.st.additional, env.rows, env.cols);
      if phase.Err? then Reaction(Raise("ValueError"), l.rest, l.st)
      else Reaction(Done, l.rest, l.st.(written := l.st.written + [phase.value]))
  }

  /** `calculate`: two float64 buffers (targets, amplitudes) and the
      iteration count, little-endian. */
  function CalculateSpec(q: seq<seq<byte>>, st: ServerState, env: Env): (r: Reaction)
    requires StateOk(st, env)
    ensures StateOk(r.st, env)
  {
    var t := Recv(q);
    if t.frame.None? then Reaction(Raise("TypeError"), t.rest, st)
    else if FromBuffer(t.frame.value).Err? then Reaction(Raise("ValueError"), t.rest, st)
    else
      var a := Recv(t.rest);
      if a.frame.None? then Reaction(Raise("TypeError"), a.rest, st)
      else if FromBuffer(a.frame.value).Err? then Reaction(Raise("ValueError"), a.rest, st)
      else
        var it := Recv(a.rest);
        if it.frame.None? then Reaction(Raise("TypeError"), it.rest, st)
        else
          var n := FromBytesLE(it.frame.value);
          if n == 0 && env.settings.nIterations.None? then Reaction(Raise("AttributeError"), it.rest, st)
          else
            var iterations := if n == 0 then env.settings.nIterations.value else n;
            var words := Words(t.frame.value);
            if |words| % 2 != 0 then
              Reaction(Answer([1], [Str("error: not integer number of targets")]), it.rest, st)
            else if env.settings.computationalSpace.None? then Reaction(Raise("AttributeError"), it.rest, st)
            else
              var half := |words| / 2;
              var c := Calculation(env.settings.computationalSpace.value, words[..half], words[half..],
                                   Words(a.frame.value), iterations);
              Reaction(Done, it.rest, st.(hologram := true, calculations := st.calculations + [c]))
  }

  /** The options `save_calculation` passes: every flag set, the received
      path and name, no prefix. */
  function ServerSaveOptions(path: PyStr, name: PyStr): SaveOptions {
    SaveOptions(Some(true), Some(true), Some(true), Some(true), Some(path), Some(name), None, Some(true))
  }

  function ItemOf(s: PyStr): Item {
    if s.Some? then Str(s.value) else Absent
  }

  /** `save_calculation`: save the current hologram under the received path
      and name, and reply with the two file paths (both `None` without a
      hologram). */
  function SaveCalculationSpec(q: seq<seq<byte>>, st: ServerState, env: Env, now: string): (r: Reaction)
    ensures r.st == st
    ensures r.rest == if |q| >= 2 then q[2..] else []
    ensures !st.hologram ==> r.handled == Answer([1, 1], [Absent, Absent])
    ensures st.hologram && |q| < 2 ==> r.handled == Raise("TypeError")
    ensures st.hologram && |q| >= 2 ==>
      var stem := DecodeText(q[0]) + env.sep + now + DecodeText(q[1]);
      r.handled == Answer([1, 1], [Str(stem + "_config.yml"), Str(stem + "_data.npz")])
  {
    var p := Recv(q);
    var n := Recv(p.rest);
    var path := if p.frame.Some? then Some(DecodeText(p.frame.value)) else None;
    var name := if n.frame.Some? then Some(DecodeText(n.frame.value)) else None;
    if !st.hologram then Reaction(Answer([1, 1], [Absent, Absent]), n.rest, st)
    else
      SavedStem(path, name, env.sep, now);
      match SaveSlmCalculation(ServerSaveOptions(path, name), env.cwd, now, env.sep)
      case Err(e) => Reaction(Raise(e), n.rest, st)
      case Ok(saved) => Reaction(Answer([1, 1], [ItemOf(saved.config), ItemOf(saved.data)]), n.rest, st)
  }

  /** The stem `path + sep + timestamp + name` of two received strings. */
  lemma SavedStem(path: PyStr, name: PyStr, sep: string, now: string)
    ensures path.Some? && name.Some? ==>
      var stem := path.value + sep + now + name.value;
      && Concat([path, Some(sep), Some(now), name]) == Ok(stem)
      && stem + "_data" + ".npz" == stem + "_data.npz"
  {
    if path.Some? && name.Some? {
      ConcatStrings(path.value, sep, now, name.value);
    }
  }

  /** Rows `(n, m, w)` of a flat array of 3k values as Zernike terms
      `((int(n), int(m)), w)`, built row by row: the first `int()` that
      raises ends the loop with its exception. */
  function Unflatten(words: seq<F64>, toInt: F64 -> Result<int>): Result<seq<ZernikeTerm>>
    requires |words| % 3 == 0
  {
    if words == [] then Ok([])
    else
      var k := |words| - 3;
      var init := Unflatten(words[..k], toInt);
      if init.Err? then init
      else if toInt(words[k]).Err? then Err(toInt(words[k]).error)
      else if toInt(words[k + 1]).Err? then Err(toInt(words[k + 1]).error)
      else Ok(init.value + [ZernikeTerm(toInt(words[k]).value, toInt(words[k + 1]).value, words[k + 2])])
  }

  /** Every `n` and `m` among the first `j` values converts to an int. */
  predicate IntsBefore(words: seq<F64>, toInt: F64 -> Result<int>, j: int) {
    forall i | 0 <= i < j && i < |words| && i % 3 != 2 :: toInt(words[i]).Ok?
  }

  /** The terms exist exactly when every `n` and `m` converts; term i is row
      i's; otherwise the exception is that of the first `n` or `m`, in row
      order, that does not convert. */
  lemma UnflattenSpec(words: seq<F64>, toInt: F64 -> Result<int>)
    requires |words| % 3 == 0
    ensures var u := Unflatten(words, toInt);
      && (u.Ok? <==> IntsBefore(words, toInt, |words|))
      && (u.Ok? ==> |u.value| == |words| / 3)
      && (u.Ok? ==> forall i | 0 <= i < |words| / 3 ::
            u.value[i] == ZernikeTerm(toInt(words[3 * i]).value, toInt(words[3 * i + 1]).value, words[3 * i + 2]))
      && (u.Err? ==> exists j | 0 <= j < |words| && j % 3 != 2 ::
            IntsBefore(words, toInt, j) && toInt(words[j]) == Err(u.error))
  {
    UnflattenFails(words, toInt);
    UnflattenTerms(words, toInt);
  }

  lemma IntsBeforePrefix(words: seq<F64>, p: nat, toInt: F64 -> Result<int>, j: nat)
    requires j <= p <= |words|
    ensures IntsBefore(words[..p], toInt, j) <==> IntsBefore(words, toInt, j)
  {
    assert forall i | 0 <= i < j :: words[..p][i] == words[i];
  }

  /** `Unflatten` raises exactly when some `n` or `m` does not convert, and
      then with the first such exception. */
  lemma {:induction false} UnflattenFails(words: seq<F64>, toInt: F64 -> Result<int>)
    requires |words| % 3 == 0
    ensures var u := Unflatten(words, toInt);
      && (u.Ok? <==> IntsBefore(words, toInt, |words|))
      && (u.Err? ==> exists j | 0 <= j < |words| && j % 3 != 2 ::
            IntsBefore(words, toInt, j) && toInt(words[j]) == Err(u.error))
  {
    if words != [] {
      var k := |words| - 3;
      var init := words[..k];
      UnflattenFails(init, toInt);
      var pre := Unflatten(init, toInt);
      var u := Unflatten(words, toInt);
      if pre.Err? {
        var j :| 0 <= j < k && j % 3 != 2 && IntsBefore(init, toInt, j) && toInt(init[j]) == Err(pre.error);
        IntsBeforePrefix(words, k, toInt, j);
        assert init[j] == words[j];
        assert IntsBefore(words, toInt, j) && toInt(words[j]) == Err(u.error);
      } else {
        IntsBeforePrefix(words, k, toInt, k);
        if toInt(words[k]).Err? {
          assert IntsBefore(words, toInt, k) && toInt(words[k]) == Err(u.error);
        } else if toInt(words[k + 1]).Err? {
          assert IntsBefore(words, toInt, k + 1) && toInt(words[k + 1]) == Err(u.error);
        } else {
          assert IntsBefore(words, toInt, |words|);
        }
      }
    }
  }

  /** When `Unflatten` succeeds, term i is row i's. */
  lemma {:induction false} UnflattenTerms(words: seq<F64>, toInt: F64 -> Result<int>)
    requires |words| % 3 == 0
    ensures var u := Unflatten(words, toInt);
      && (u.Ok? ==> |u.value| == |words| / 3)
      && (u.Ok? ==> forall i | 0 <= i < |words| / 3 ::
            && toInt(words[3 * i]).Ok? && toInt(words[3 * i + 1]).Ok?
            && u.value[i] == ZernikeTerm(toInt(words[3 * i]).value, toInt(words[3 * i + 1]).value, words[3 * i + 2]))
  {
    var u := Unflatten(words, toInt);
    if words != [] && u.Ok? {
      var n := |words| / 3;
      var k := |words| - 3;
      assert |words| == 3 * n && k == 3 * (n - 1);
      var init := words[..k];
      UnflattenTerms(init, toInt);
      assert |init| / 3 == n - 1;
      var pre := Unflatten(init, toInt);
      assert pre.Ok?;
      assert u.value == pre.value + [ZernikeTerm(toInt(words[k]).value, toInt(words[k + 1]).value, words[k + 2])];
      forall i | 0 <= i < n
        ensures toInt(words[3 * i]).Ok? && toInt(words[3 * i + 1]).Ok?
        ensures u.value[i] == ZernikeTerm(toInt(words[3 * i]).value, toInt(words[3 * i + 1]).value, words[3 * i + 2])
      {
        if i < n - 1 {
          assert 3 * i + 2 < k;
          assert init[3 * i] == words[3 * i] && init[3 * i + 1] == words[3 * i + 1] && init[3 * i + 2] == words[3 * i + 2];
        } else {
          assert 3 * i == k;
        }
      }
    }
  }

  /** Once a prefix of whole rows raises, the whole array raises the same. */
  lemma {:induction false} UnflattenStops(words: seq<F64>, p: nat, toInt: F64 -> Result<int>)
    requires |words| % 3 == 0 && p % 3 == 0 && p <= |words|
    requires Unflatten(words[..p], toInt).Err?
    ensures Unflatten(words, toInt) == Unflatten(words[..p], toInt)
  {
    if p < |words| {
      var k := |words| - 3;
      assert words[..k][..p] == words[..p];
      UnflattenStops(words[..k], p, toInt);
    } else {
      assert words[..p] == words;
    }
  }

  function AddZernikeSpec(q: seq<seq<byte>>, st: ServerState, env: Env): (r: Reaction)
    requires EnvOk(env) && StateOk(st, env)
    ensures StateOk(r.st, env)
  {
    var f := Recv(q);
    if f.frame.None? then Reaction(Raise("TypeError"), f.rest, st)
    else if FromBuffer(f.frame.value).Err? then Reaction(Raise("ValueError"), f.rest, st)
    else
      var words := Words(f.frame.value);
      if |words| % 3 != 0 then Reaction(Raise("ValueError"), f.rest, st)   // the reshape to (k, 3)
      else
        var terms := Unflatten(words, env.toInt);
        if terms.Err? then Reaction(Raise(terms.error), f.rest, st)
        else
          Reaction(Done, f.rest, st.(additional := Add(st.additional, env.zernike(terms.value), env.rows, env.cols),
                                   addLog := st.addLog + [Zernike(terms.value)]))
  }

  function AddFresnelSpec(q: seq<seq<byte>>, st: ServerState, env: Env): (r: Reaction)
    requires EnvOk(env) && StateOk(st, env)
    ensures StateOk(r.st, env)
  {
    var f := Recv(q);
    if f.frame.None? then Reaction(Raise("TypeError"), f.rest, st)
    else if FromBuffer(f.frame.value).Err? then Reaction(Raise("ValueError"), f.rest, st)
    else
      var focal := Words(f.frame.value);
      Reaction(Done, f.rest, st.(additional := Add(st.additional, env.lens(focal), env.rows, env.cols),
                               addLog := st.addLog + [FresnelLens(focal)]))
  }

  function ResetAdditionalSpec(q: seq<seq<byte>>, st: ServerState, env: Env): (r: Reaction)
    ensures StateOk(r.st, env)
  {
    Reaction(Done, q, st.(additional := Zeros(env.rows, env.cols), addLog := []))
  }

  /** The handler each catalog name runs. */
  function Handle(name: string, q: seq<seq<byte>>, st: ServerState, env: Env, now: string): (r: Reaction)
    requires name in Commands && EnvOk(env) && StateOk(st, env)
    ensures StateOk(r.st, env)
  {
    if name == "use_pattern" then UsePattern(q, st, env)
    else if name == "calculate" then CalculateSpec(q, st, env)
    else if name == "save_calculation" then SaveCalculationSpec(q, st, env, now)
    else if name == "add_fresnel_lens" then AddFresnelSpec(q, st, env)
    else if name == "add_zernike_poly" then AddZernikeSpec(q, st, env)
    else ResetAdditionalSpec(q, st, env)
  }

  /** What a `handle_msg` call sends, leaves unread and changes, and how it ends. */
  datatype Served = Served(sent: seq<Out>, rest: seq<seq<byte>>, st: ServerState, outcome: Outcome)

  function Dispatch(addr: seq<byte>, msg: Option<string>, q: seq<seq<byte>>, st: ServerState, env: Env, now: string): (s: Served)
    requires EnvOk(env) && StateOk(st, env)
    ensures StateOk(s.st, env)
  {
    if msg.Some? && msg.value in Commands then
      var r := Handle(msg.value, q, st, env, now);
      match r.handled
      case Raise(_) => Served([], r.rest, r.st, Raised)
      case Answer(types, items) =>
        var a := TrySend(Some(addr), types, items);
        Served(a.frames, [], r.st, if a.ok then Returned(true) else Raised)
    else
      Served(Envelope(addr, [1], [Str("")]), [], st, if msg.None? then Raised else Returned(false))
  }

  /** One pass of the worker's loop: poll, read address, delimiter and
      command, dispatch (after a "Send more" when the command is missing). */
  function Step(q: seq<seq<byte>>, st: ServerState, env: Env, now: string): (s: Served)
    requires EnvOk(env) && StateOk(st, env)
    ensures StateOk(s.st, env)
  {
    if q == [] then Served([], [], st, Returned(true))
    else if |q| < 3 then
      var d := Dispatch(q[0], None, [], st, env, now);
      Served(Envelope(q[0], [1], [Str("Send more")]) + d.sent, d.rest, d.st, d.outcome)
    else Dispatch(q[0], Some(DecodeText(q[2])), q[3..], st, env, now)
  }

  // ----------------------------------------------------------------- lemmas

  /** Names outside the catalog get one '' text frame and `False`, and
      change nothing. */
  lemma UnknownCommand(addr: seq<byte>, name: string, q: seq<seq<byte>>, st: ServerState, env: Env, now: string)
    requires EnvOk(env) && StateOk(st, env) && name !in Commands
    ensures Dispatch(addr, Some(name), q, st, env, now) ==
      Served(Envelope(addr, [1], [Str("")]), [], st, Returned(false))
  {
  }

  /** A message without a command frame is answered "Send more" and then
      '', after which `"Unknown request " + None` raises and the worker
      ends; the state is untouched. */
  lemma MalformedMessage(q: seq<seq<byte>>, st: ServerState, env: Env, now: string)
    requires EnvOk(env) && StateOk(st, env) && 1 <= |q| < 3
    ensures Step(q, st, env, now) ==
      Served(Envelope(q[0], [1], [Str("Send more")]) + Envelope(q[0], [1], [Str("")]), [], st, Raised)
  {
  }

  /** Every reply a handler returns fits its kinds, except the `None` paths
      of `save_calculation` without a hologram. */
  lemma HandlerReplies(name: string, q: seq<seq<byte>>, st: ServerState, env: Env, now: string)
    requires EnvOk(env) && StateOk(st, env) && name in Commands
    requires Handle(name, q, st, env, now).handled.Answer?
    ensures var h := Handle(name, q, st, env, now).handled;
      Sendable(h.types, h.items) <==> !(name == "save_calculation" && !st.hologram)
  {
    if name == "save_calculation" {
      SaveCalculationReplies(q, st, env, now);
    }
  }

  /** `save_calculation` replies with two path strings, or with two `None`s
      when there is no hologram. */
  lemma SaveCalculationReplies(q: seq<seq<byte>>, st: ServerState, env: Env, now: string)
    requires SaveCalculationSpec(q, st, env, now).handled.Answer?
    ensures var h := SaveCalculationSpec(q, st, env, now).handled;
      Sendable(h.types, h.items) <==> st.hologram
  {
    var p := Recv(q);
    var n := Recv(p.rest);
    var path := if p.frame.Some? then Some(DecodeText(p.frame.value)) else None;
    var nm := if n.frame.Some? then Some(DecodeText(n.frame.value)) else None;
    var d := Defaulted(ServerSaveOptions(path, nm), env.cwd, now);
    assert d.config == Some(true) && WantsData(d);
    var h := SaveCalculationSpec(q, st, env, now).handled;
    if !st.hologram {
      assert !Fits(h.types[0], h.items[0]);
    }
  }

  /** A catalog name whose handler returns sends exactly that handler's
      reply to the sender and answers `True`: every handler's reply fits its
      kinds, except `save_calculation` without a hologram, whose `None` paths
      make the send raise after the address and delimiter. */
  lemma KnownCommand(addr: seq<byte>, name: string, q: seq<seq<byte>>, st: ServerState, env: Env, now: string)
    requires EnvOk(env) && StateOk(st, env) && name in Commands
    requires Handle(name, q, st, env, now).handled.Answer?
    ensures var r := Handle(name, q, st, env, now);
      var s := Dispatch(addr, Some(name), q, st, env, now);
      && s.st == r.st && s.rest == []
      && (name == "save_calculation" && !st.hologram ==>
            s.outcome == Raised && s.sent == [Out(Binary, addr, true), Out(Binary, [], true)])
      && (!(name == "save_calculation" && !st.hologram) ==>
            s.outcome == Returned(true) && s.sent == Envelope(addr, r.handled.types, r.handled.items))
  {
    var r := Handle(name, q, st, env, now);
    HandlerReplies(name, q, st, env, now);
    if name == "save_calculation" && !st.hologram {
      assert r.handled.items == [Absent, Absent];
      assert Sent(r.handled.types, r.handled.items) == 0;
    }
  }

  /** An odd number of target values is answered with the error text and
      runs no calculation. */
  lemma OddTargets(t: seq<byte>, a: seq<byte>, it: seq<byte>, rest: seq<seq<byte>>, st: ServerState, env: Env)
    requires StateOk(st, env)
    requires |t| % 8 == 0 && |a| % 8 == 0 && (|t| / 8) % 2 == 1
    requires FromBytesLE(it) != 0 || env.settings.nIterations.Some?
    ensures CalculateSpec([t, a, it] + rest, st, env) ==
      Reaction(Answer([1], [Str("error: not integer number of targets")]), rest, st)
  {
    var q := [t, a, it] + rest;
    assert q[0] == t && q[1..][0] == a && q[1..][1..][0] == it && q[1..][1..][1..] == rest;
  }

  /** An even number 2N of target values runs one calculation whose x
      coordinates are the first N values and y coordinates the last N, with
      the decoded iteration count, the configured one standing in for 0. */
  lemma EvenTargets(t: seq<byte>, a: seq<byte>, it: seq<byte>, rest: seq<seq<byte>>, st: ServerState, env: Env)
    requires StateOk(st, env)
    requires |t| % 8 == 0 && |a| % 8 == 0 && (|t| / 8) % 2 == 0
    requires env.settings.nIterations.Some? && env.settings.computationalSpace.Some?
    ensures var r := CalculateSpec([t, a, it] + rest, st, env);
      && r.handled == Done && r.rest == rest
      && r.st == st.(hologram := true, calculations := st.calculations + [r.st.calculations[|st.calculations|]])
      && var c := r.st.calculations[|st.calculations|];
      && |c.xs| == |c.ys| == |t| / 16
      && c.xs + c.ys == Words(t) && c.amps == Words(a)
      && c.iterations == (if FromBytesLE(it) == 0 then env.settings.nIterations.value else FromBytesLE(it))
  {
    var q := [t, a, it] + rest;
    assert q[0] == t && q[1..][0] == a && q[1..][1..][0] == it && q[1..][1..][1..] == rest;
    var words := Words(t);
    assert words[..|words| / 2] + words[|words| / 2..] == words;
  }

  /** `use_pattern` reads the `.npz` file named by `pattern_path`, the
      received name and `_data.npz`, and sets its `slm_phase` as base with
      the name as source; as written it then raises, where the corrected
      handler writes base plus additional phase and replies "ok". */
  lemma UsePatternAsWrittenNeverReplies(q: seq<seq<byte>>, st: ServerState, env: Env)
    requires StateOk(st, env)
    ensures UsePatternAsWritten(q, st, env).handled.Raise?
    ensures var w := UsePatternAsWritten(q, st, env);
      var u := UsePattern(q, st, env);
      && w.rest == u.rest
      && (u.handled.Answer? ==> w.st == u.st.(written := st.written) && |u.st.written| == |st.written| + 1)
      && (u.handled.Raise? ==> w == u)
  {
  }

  lemma UsePatternFinding(name: string, rest: seq<seq<byte>>, st: ServerState, env: Env)
    requires StateOk(st, env) && IsLatin1(name)
    requires PhaseFile(env, name) in env.disk && "slm_phase" in env.disk[PhaseFile(env, name)]
    requires Shaped(env.disk[PhaseFile(env, name)]["slm_phase"], env.rows, env.cols)
    ensures PhaseFile(env, name) == env.settings.patternPath + name + "_data.npz"
    ensures var phase := env.disk[PhaseFile(env, name)]["slm_phase"];
      var loaded := st.(base := phase, baseSource := name);
      && UsePatternAsWritten([EncodeText(name)] + rest, st, env) == Reaction(Raise("TypeError"), rest, loaded)
      && UsePattern([EncodeText(name)] + rest, st, env) ==
           Reaction(Done, rest, loaded.(written := st.written + [Add(phase, st.additional, env.rows, env.cols)]))
  {
    TextRoundTrip(name);
    assert ([EncodeText(name)] + rest)[0] == EncodeText(name) && ([EncodeText(name)] + rest)[1..] == rest;
  }

  /** With a hologram and both frames present, `save_calculation` replies
      with `path + sep + timestamp + name` followed by `_config.yml` and
      `_data.npz`, and the data path without its last 9 characters is the
      base `load_slm_calculation` reopens both files from. */
  lemma SaveCalculationReply(path: string, name: string, rest: seq<seq<byte>>, st: ServerState, env: Env, now: string)
    requires st.hologram && IsLatin1(path) && IsLatin1(name)
    ensures var stem := path + env.sep + now + name;
      && SaveCalculationSpec([EncodeText(path), EncodeText(name)] + rest, st, env, now) ==
           Reaction(Answer([1, 1], [Str(stem + "_config.yml"), Str(stem + "_data.npz")]), rest, st)
      && LoadSlmCalculation(DropLast(stem + "_data.npz", 9), true, true) ==
           SavedPaths(Some(stem + "_config.yml"), Some(stem + "_data.npz"))
  {
    TextRoundTrip(path);
    TextRoundTrip(name);
    var q := [EncodeText(path), EncodeText(name)] + rest;
    assert q[0] == EncodeText(path) && q[1..][0] == EncodeText(name) && q[1..][1..] == rest;
    ConcatStrings(path, env.sep, now, name);
    var stem := path + env.sep + now + name;
    assert stem + "_data" + ".npz" == stem + "_data.npz";
    DropLastOfAppend(stem, "_data.npz");
  }

  /** A Zernike frame of 3k float64s whose every `n` and `m` converts adds
      the Zernike phase of its k terms `((int(n), int(m)), w)` to the
      additional phase and logs them in row order; a ragged frame raises
      ValueError, a failing `int()` its own exception, and neither changes
      the state. */
  lemma ZernikeFrame(b: seq<byte>, rest: seq<seq<byte>>, st: ServerState, env: Env)
    requires EnvOk(env) && StateOk(st, env) && |b| % 8 == 0
    ensures var words := Words(b);
      var r := AddZernikeSpec([b] + rest, st, env);
      && r.rest == rest
      && (r.handled == Done <==> |words| % 3 == 0 && IntsBefore(words, env.toInt, |words|))
      && (|words| % 3 == 0 && IntsBefore(words, env.toInt, |words|) ==>
            var terms := Unflatten(words, env.toInt).value;
            && r.st.additional == Add(st.additional, env.zernike(terms), env.rows, env.cols)
            && r.st.addLog == st.addLog + [Zernike(terms)]
            && |terms| == |words| / 3)
      && (|words| % 3 != 0 ==> r.handled == Raise("ValueError"))
      && (|words| % 3 == 0 && Unflatten(words, env.toInt).Err? ==>
            r.handled == Raise(Unflatten(words, env.toInt).error))
      && (r.handled != Done ==> r.st == st)
  {
    assert ([b] + rest)[0] == b && ([b] + rest)[1..] == rest;
    if |Words(b)| % 3 == 0 {
      UnflattenSpec(Words(b), env.toInt);
    }
  }

  /** A lens frame of whole float64s adds the lens phase of those focal
      lengths to the additional phase and logs them; a frame of another
      length raises ValueError and changes nothing. */
  lemma FresnelFrame(b: seq<byte>, rest: seq<seq<byte>>, st: ServerState, env: Env)
    requires EnvOk(env) && StateOk(st, env)
    ensures var r := AddFresnelSpec([b] + rest, st, env);
      && r.rest == rest
      && (r.handled == Done <==> |b| % 8 == 0)
      && (|b| % 8 == 0 ==>
            && r.st.additional == Add(st.additional, env.lens(Words(b)), env.rows, env.cols)
            && r.st.addLog == st.addLog + [FresnelLens(Words(b))]
            && |Words(b)| == |b| / 8)
      && (|b| % 8 != 0 ==> r.handled == Raise("ValueError") && r.st == st)
  {
    assert ([b] + rest)[0] == b && ([b] + rest)[1..] == rest;
  }

  // ------------------------------------------------------------------ server

  class Server {
    const env: Env
    const sock: RouterSocket
    const phaseMgr: PhaseManager
    /** `iface.hologram is not None`. */
    var hologram: bool
    /** The `iface.calculate` calls made. */
    var calculations: seq<Calculation>
    /** The phases written to the SLM. */
    var written: seq<Grid>
    var req: WorkerRequest
    /** The worker thread is alive: its set-up succeeded and no exception
        has escaped its loop since. */
    var running: bool

    ghost predicate Valid()
      reads this, phaseMgr
    {
      EnvOk(env) && phaseMgr.Valid() && phaseMgr.rows == env.rows && phaseMgr.cols == env.cols
    }

    function Model(): ServerState
      reads this, phaseMgr
    {
      ServerState(phaseMgr.base, phaseMgr.baseSource, phaseMgr.additional, phaseMgr.addLog,
                  hologram, calculations, written)
    }

    /** A server whose worker has read the `slm` and `camera` sections; its
        phase manager has the SLM's shape. */
    constructor (env: Env, slm: Option<SlmSection>, camera: Option<CameraSection>)
      requires EnvOk(env)
      ensures Valid() && this.env == env && fresh(sock) && fresh(phaseMgr)
      ensures sock.inbound == [] && sock.outbound == []
      ensures Model() == ServerState(Zeros(env.rows, env.cols), "", Zeros(env.rows, env.cols), [], false, [], [])
      ensures req == NoRequest && (running <==> SetupError(slm, camera).None?)
    {
      this.env := env;
      sock := new RouterSocket();
      phaseMgr := new PhaseManager(env.rows, env.cols);
      hologram := false;
      calculations := [];
      written := [];
      req := NoRequest;
      running := SetupError(slm, camera).None?;
    }

    method UsePatternStep() returns (h: Handled)
      requires Valid()
      modifies this, sock, phaseMgr
      ensures Valid() && req == old(req) && running == old(running)
      ensures var r := UsePattern(old(sock.inbound), old(Model()), env);
        h == r.handled && sock.inbound == r.rest && Model() == r.st && sock.outbound == old(sock.outbound)
    {
      var fname := sock.SafeRecvString();
      if fname.None? {
        return Raise("TypeError");
      }
      var file := PhaseFile(env, fname.value);
      if file !in env.disk {
        return Raise("FileNotFoundError");
      }
      if "slm_phase" !in env.disk[file] {
        return Raise("KeyError");
      }
      phaseMgr.SetBase(env.disk[file]["slm_phase"], fname.value);
      var phase := phaseMgr.Get();
      if phase.Err? {
        return Raise("ValueError");
      }
      written := written + [phase.value];
      return Done;
    }

    method CalculateStep() returns (h: Handled)
      requires Valid()
      modifies this, sock
      ensures Valid() && req == old(req) && running == old(running)
      ensures var r := CalculateSpec(old(sock.inbound), old(Model()), env);
        h == r.handled && sock.inbound == r.rest && Model() == r.st && sock.outbound == old(sock.outbound)
    {
      var target := sock.SafeRecv();
      if target.None? {
        return Raise("TypeError");
      }
      var targets := FromBuffer(target.value);
      if targets.Err? {
        return Raise("ValueError");
      }
      var amp := sock.SafeRecv();
      if amp.None? {
        return Raise("TypeError");
      }
      var amps := FromBuffer(amp.value);
      if amps.Err? {
        return Raise("ValueError");
      }
      var iteration := sock.SafeRecv();
      if iteration.None? {
        return Raise("TypeError");
      }
      var iterations := FromBytesLE(iteration.value);
      if iterations == 0 {
        if env.settings.nIterations.None? {
          return Raise("AttributeError");
        }
        iterations := env.settings.nIterations.value;
      }
      var words := targets.value;
      if |words| % 2 != 0 {
        return Answer([1], [Str("error: not integer number of targets")]);
      }
      if env.settings.computationalSpace.None? {
        return Raise("AttributeError");
      }
      var half := |words| / 2;
      calculations := calculations + [Calculation(env.settings.computationalSpace.value,
                                                  words[..half], words[half..], amps.value, iterations)];
      hologram := true;
      return Done;
    }

    method SaveCalculationStep(now: string) returns (h: Handled)
      requires Valid()
      modifies sock
      ensures var r := SaveCalculationSpec(old(sock.inbound), old(Model()), env, now);
        h == r.handled && sock.inbound == r.rest && Model() == r.st && sock.outbound == old(sock.outbound)
    {
      var path := sock.SafeRecvString();
      var name := sock.SafeRecvString();
      if !hologram {
        return Answer([1, 1], [Absent, Absent]);
      }
      var saved := SaveSlmCalculation(ServerSaveOptions(path, name), env.cwd, now, env.sep);
      if saved.Err? {
        return Raise(saved.error);
      }
      return Answer([1, 1], [ItemOf(saved.value.config), ItemOf(saved.value.data)]);
    }

    method AddFresnelStep() returns (h: Handled)
      requires Valid()
      modifies sock, phaseMgr
      ensures Valid()
      ensures var r := AddFresnelSpec(old(sock.inbound), old(Model()), env);
        h == r.handled && sock.inbound == r.rest && Model() == r.st && sock.outbound == old(sock.outbound)
    {
      var frame := sock.SafeRecv();
      if frame.None? {
        return Raise("TypeError");
      }
      var focal := FromBuffer(frame.value);
      if focal.Err? {
        return Raise("ValueError");
      }
      phaseMgr.AddFresnelLens(focal.value, env.lens(focal.value));
      return Done;
    }

    method AddZernikeStep() returns (h: Handled)
      requires Valid()
      modifies sock, phaseMgr
      ensures Valid()
      ensures var r := AddZernikeSpec(old(sock.inbound), old(Model()), env);
        h == r.handled && sock.inbound == r.rest && Model() == r.st && sock.outbound == old(sock.outbound)
    {
      var frame := sock.SafeRecv();
      if frame.None? {
        return Raise("TypeError");
      }
      var values := FromBuffer(frame.value);
      if values.Err? {
        return Raise("ValueError");
      }
      if |values.value| % 3 != 0 {
        return Raise("ValueError");
      }
      var terms := ZernikeTerms(values.value, env.toInt);
      if terms.Err? {
        return Raise(terms.error);
      }
      phaseMgr.AddZernikePoly(terms.value, env.zernike(terms.value));
      return Done;
    }

    method ResetAdditionalStep() returns (h: Handled)
      requires Valid()
      modifies phaseMgr
      ensures Valid()
      ensures var r := ResetAdditionalSpec(old(sock.inbound), old(Model()), env);
        h == r.handled && sock.inbound == r.rest && Model() == r.st && sock.outbound == old(sock.outbound)
    {
      phaseMgr.ResetAdditional();
      return Done;
    }

    /** `handle_msg`: run the named handler and send its reply, or send ''
        for a name outside the catalog. */
    method HandleMsg(addr: seq<byte>, msg: Option<string>, now: string) returns (outcome: Outcome)
      requires Valid()
      modifies this, sock, phaseMgr
      ensures Valid() && req == old(req) && running == old(running)
      ensures var s := Dispatch(addr, msg, old(sock.inbound), old(Model()), env, now);
        && outcome == s.outcome && Model() == s.st
        && sock.inbound == s.rest && sock.outbound == old(sock.outbound) + s.sent
    {
      if msg.Some? && msg.value in Commands {
        var h: Handled;
        var name := msg.value;
        if name == "use_pattern" {
          h := UsePatternStep();
        } else if name == "calculate" {
          h := CalculateStep();
        } else if name == "save_calculation" {
          h := SaveCalculationStep(now);
        } else if name == "add_fresnel_lens" {
          h := AddFresnelStep();
        } else if name == "add_zernike_poly" {
          h := AddZernikeStep();
        } else {
          h := ResetAdditionalStep();
        }
        if h.Raise? {
          return Raised;
        }
        var ok := sock.TrySafeSend(Some(addr), h.types, h.items);
        outcome := if ok then Returned(true) else Raised;
      } else {
        sock.SafeSend(addr, [1], [Str("")]);
        outcome := if msg.None? then Raised else Returned(false);
      }
    }

    /** One iteration of `__worker_func`'s loop. */
    method WorkerStep(now: string)
      requires Valid() && running
      modifies this, sock, phaseMgr
      ensures Valid() && req == old(req)
      ensures old(req) == Stop ==> !running && Model() == old(Model()) && unchanged(sock)
      ensures old(req) == NoRequest ==>
        var s := Step(old(sock.inbound), old(Model()), env, now);
        && running == (s.outcome != Raised) && Model() == s.st
        && sock.inbound == s.rest && sock.outbound == old(sock.outbound) + s.sent
    {
      if req == Stop {
        running := false;
        return;
      }
      if sock.inbound == [] {
        return;
      }
      var addr := sock.SafeRecv();
      var delimit := sock.SafeRecvString();
      var msg := sock.SafeRecvString();
      if msg.None? {
        sock.SafeSend(addr.value, [1], [Str("Send more")]);
      }
      var outcome := HandleMsg(addr.value, msg, now);
      if outcome == Raised {
        running := false;
      }
    }
  }

  /** The `poly_list` loop of `add_zernike_poly`: an `int()` that raises
      leaves the loop. */
  method ZernikeTerms(values: seq<F64>, toInt: F64 -> Result<int>) returns (terms: Result<seq<ZernikeTerm>>)
    requires |values| % 3 == 0
    ensures terms == Unflatten(values, toInt)
  {
    var list: seq<ZernikeTerm> := [];
    var i := 0;
    while i < |values| / 3
      invariant 0 <= i <= |values| / 3
      invariant Unflatten(values[..3 * i], toInt) == Ok(list)
    {
      var next := values[..3 * (i + 1)];
      assert next[..3 * i] == values[..3 * i];
      assert next[3 * i] == values[3 * i] && next[3 * i + 1] == values[3 * i + 1] && next[3 * i + 2] == values[3 * i + 2];
      var n := toInt(values[3 * i]);
      if n.Err? {
        UnflattenStops(values, 3 * (i + 1), toInt);
        return Err(n.error);
      }
      var m := toInt(values[3 * i + 1]);
      if m.Err? {
        UnflattenStops(values, 3 * (i + 1), toInt);
        return Err(m.error);
      }
      list := list + [ZernikeTerm(n.value, m.value, values[3 * i + 2])];
      i := i + 1;
    }
    assert values[..3 * i] == values;
    return Ok(list);
  }
}

=== FILE: transport.dfy ===
/** The framed transport shared by the three device servers: a ROUTER socket
    whose inbound frames are read one at a time without blocking, and the
    `safe_send` reply framing `[addr, b'', item0 ... itemN]` preceded by the
    `finish_recv` drain. The three servers carry identical copies of this
    code; the model has it once. */
module Transport {
  import opened Wire

  /** The bytes pyzmq puts on the wire for one reply item. */
  function Payload(item: Item): seq<byte> {
    match item
    case Bytes(b) => b
    case Str(s) => EncodeText(s)
    case Absent => []
  }

  /** Whether pyzmq accepts `item` under tag `tag`: `send_string` takes a
      `str` and `send` takes `bytes`; anything else (a `None` included) raises. */
  predicate Fits(tag: int, item: Item) {
    (tag == 1 && item.Str?) || (tag != 1 && item.Bytes?)
  }

  /** `safe_send` looks up `msg_type[idx]` for every item, so a reply goes out
      whole exactly when there is a fitting tag for every item. */
  predicate Sendable(types: seq<int>, items: seq<Item>) {
    |types| >= |items| &&
    forall i | 0 <= i < |items| :: Fits(types[i], items[i])
  }

  /** How many leading items go out before `msg_type[idx]` is missing (an
      `IndexError`) or the item does not fit its tag (a `TypeError`). */
  function Sent(types: seq<int>, items: seq<Item>): (n: nat)
    ensures n <= |items| && n <= |types|
    ensures forall i | 0 <= i < n :: Fits(types[i], items[i])
    ensures n < |items| ==> n == |types| || !Fits(types[n], items[n])
    decreases |items|
  {
    if items == [] || types == [] || !Fits(types[0], items[0]) then 0
    else 1 + Sent(types[1..], items[1..])
  }

  /** A reply goes out whole exactly when it is sendable. */
  lemma SentAll(types: seq<int>, items: seq<Item>)
    ensures Sent(types, items) == |items| <==> Sendable(types, items)
  {
  }

  /** The frames of the first n items of a reply: "more" on every item but
      the last of the whole list. */
  function ItemFramesUpTo(types: seq<int>, items: seq<Item>, n: nat): (r: seq<Out>)
    requires n <= |items| && n <= |types|
    ensures |r| == n
  {
    seq(n, i requires 0 <= i < n =>
      Out(KindOf(types[i]), Payload(items[i]), i != |items| - 1))
  }

  /** The item frames of a whole reply. */
  function ItemFrames(types: seq<int>, items: seq<Item>): seq<Out>
    requires |types| >= |items|
  {
    ItemFramesUpTo(types, items, |items|)
  }

  /** Everything one `safe_send(addr, msg_type, msg_list)` puts on the wire. */
  function Envelope(addr: seq<byte>, types: seq<int>, items: seq<Item>): seq<Out>
    requires |types| >= |items|
  {
    [Out(Binary, addr, true), Out(Binary, [], true)] + ItemFrames(types, items)
  }

  /** What a `safe_send` call puts on the wire, and whether it returns rather
      than raising: a `None` address raises in the first `send`, and a
      reply that is not sendable raises at its first unsendable item. */
  datatype Attempt = Attempt(frames: seq<Out>, ok: bool)

  /** `safe_send` returns exactly when the address is present and the reply
      is sendable, and then it has sent the whole envelope; when it raises,
      what went out is a strict prefix of the envelope it was asked for. */
  function TrySend(addr: Option<seq<byte>>, types: seq<int>, items: seq<Item>): (a: Attempt)
    ensures a.ok <==> addr.Some? && Sendable(types, items)
    ensures a.ok ==> a.frames == Envelope(addr.value, types, items)
    ensures !a.ok && addr.Some? ==> 2 <= |a.frames| < 2 + |items|
    ensures addr.None? ==> a.frames == []
  {
    SentAll(types, items);
    if addr.None? then Attempt([], false)
    else
      var n := Sent(types, items);
      Attempt([Out(Binary, addr.value, true), Out(Binary, [], true)] + ItemFramesUpTo(types, items, n),
              n == |items|)
  }

  /** A reply is 2 + n frames: the address, the empty delimiter and the items
      in order, each sent with its own kind, and "more" is set on every frame
      but the last (on all of them when there is no item). */
  lemma EnvelopeShape(addr: seq<byte>, types: seq<int>, items: seq<Item>)
    requires Sendable(types, items)
    ensures var r := Envelope(addr, types, items);
      && |r| == 2 + |items|
      && r[0] == Out(Binary, addr, true) && r[1] == Out(Binary, [], true)
      && (forall i | 0 <= i < |items| ::
            r[2 + i].kind == (if items[i].Str? then Text else Binary) && r[2 + i].data == Payload(items[i]))
      && (forall i | 0 <= i < |r| :: r[i].more <==> (i < |r| - 1 || items == []))
  {
  }

  // ------------------------------------------------------------ dispatching

  /** What a request handler does: return `(msg_type, rep)`, or raise. */
  datatype Handled = Answer(types: seq<int>, items: seq<Item>) | Raise(error: string)

  /** What `handle_msg` does: return True/False, or let an exception escape,
      which ends the worker thread. */
  datatype Outcome = Returned(known: bool) | Raised

  // ------------------------------------------------------------- receiving

  /** A `safe_recv` on a queue of unread frames: the frame read (`None` when
      the queue is empty) and the frames left. */
  datatype Received = Received(frame: Option<seq<byte>>, rest: seq<seq<byte>>)

  function Recv(q: seq<seq<byte>>): (r: Received)
    ensures q == [] ==> r == Received(None, [])
    ensures q != [] ==> r == Received(Some(q[0]), q[1..])
  {
    if q == [] then Received(None, []) else Received(Some(q[0]), q[1..])
  }

  /** What a REQ client's `recv` (tag 0) or `recv_string` (any other tag)
      returns for a frame. */
  function Receive(tag: int, data: seq<byte>): Item {
    if tag == 0 then Bytes(data) else Str(DecodeText(data))
  }

  /** A REQ peer strips the address and delimiter; reading each item frame
      with the receive that matches its kind gives back the item the handler
      built (its text being one-byte characters). */
  lemma {:induction false} ItemsArrive(types: seq<int>, items: seq<Item>, i: nat)
    requires Sendable(types, items) && i < |items|
    requires items[i].Str? ==> IsLatin1(items[i].text)
    ensures Receive(if items[i].Str? then 1 else 0, ItemFrames(types, items)[i].data) == items[i]
  {
    if items[i].Str? {
      TextRoundTrip(items[i].text);
    }
  }

  /** The frame payloads of a list of sent frames, as the peer receives them. */
  function Payloads(frames: seq<Out>): (r: seq<seq<byte>>)
    ensures |r| == |frames|
    ensures forall i | 0 <= i < |frames| :: r[i] == frames[i].data
  {
    seq(|frames|, i requires 0 <= i < |frames| => frames[i].data)
  }

  // ---------------------------------------------------------------- socket

  /** A ROUTER socket: frames that have arrived and not been read yet, and
      every frame sent so far. `poll` reports data exactly when `inbound` is
      not empty. */
  class RouterSocket {
    var inbound: seq<seq<byte>>
    var outbound: seq<Out>

    constructor ()
      ensures inbound == [] && outbound == []
    {
      inbound := [];
      outbound := [];
    }

    /** The network hands the socket the frames of a message. */
    method Deliver(frames: seq<seq<byte>>)
      modifies this
      ensures inbound == old(inbound) + frames && outbound == old(outbound)
    {
      inbound := inbound + frames;
    }

    /** `safe_recv`: a non-blocking `recv`; `None` when nothing is waiting. */
    method SafeRecv() returns (frame: Option<seq<byte>>)
      modifies this
      ensures old(inbound) == [] ==> frame == None && inbound == []
      ensures old(inbound) != [] ==> frame == Some(old(inbound)[0]) && inbound == old(inbound)[1..]
      ensures outbound == old(outbound)
    {
      if inbound == [] {
        frame := None;
      } else {
        frame := Some(inbound[0]);
        inbound := inbound[1..];
      }
    }

    /** `safe_recv_string`: a non-blocking `recv_string`. */
    method SafeRecvString() returns (text: Option<string>)
      modifies this
      ensures old(inbound) == [] ==> text == None && inbound == []
      ensures old(inbound) != [] ==>
        text == Some(DecodeText(old(inbound)[0])) && inbound == old(inbound)[1..]
      ensures outbound == old(outbound)
    {
      var frame := SafeRecv();
      if frame.Some? {
        text := Some(DecodeText(frame.value));
      } else {
        text := None;
      }
    }

    /** `finish_recv`: read and discard until a read returns `None`. */
    method FinishRecv()
      modifies this
      ensures inbound == [] && outbound == old(outbound)
    {
      var msg := SafeRecv();
      while msg.Some?
        invariant msg.None? ==> inbound == []
        invariant outbound == old(outbound)
        decreases |inbound| + (if msg.Some? then 1 else 0)
      {
        msg := SafeRecv();
      }
    }

    /** `sock.send(data, flag)`. */
    method Send(data: seq<byte>, more: bool)
      modifies this
      ensures outbound == old(outbound) + [Out(Binary, data, more)] && inbound == old(inbound)
    {
      outbound := outbound + [Out(Binary, data, more)];
    }

    /** `sock.send_string(s, flag)`. */
    method SendString(s: string, more: bool)
      modifies this
      ensures outbound == old(outbound) + [Out(Text, EncodeText(s), more)] && inbound == old(inbound)
    {
      outbound := outbound + [Out(Text, EncodeText(s), more)];
    }

    /** `safe_send(addr, msg_type, msg_list)`: drain what is left of the
        inbound message, then send the address, the empty delimiter and the
        items, stopping at the first one pyzmq refuses; `ok` is false when
        the call raised. */
    method TrySafeSend(addr: Option<seq<byte>>, types: seq<int>, items: seq<Item>) returns (ok: bool)
      modifies this
      ensures inbound == []
      ensures var a := TrySend(addr, types, items);
        ok == a.ok && outbound == old(outbound) + a.frames
    {
      FinishRecv();
      if addr.None? {
        return false;
      }
      Send(addr.value, true);
      Send([], true);
      ghost var start := outbound;
      var idx := 0;
      while idx < |items|
        invariant idx <= Sent(types, items)
        invariant inbound == []
        invariant outbound == start + ItemFramesUpTo(types, items, idx)
      {
        if idx >= |types| || !Fits(types[idx], items[idx]) {
          return false;
        }
        var more := idx != |items| - 1;
        if types[idx] == 1 {
          SendString(items[idx].text, more);
        } else {
          Send(items[idx].bytes, more);
        }
        assert ItemFramesUpTo(types, items, idx + 1) ==
          ItemFramesUpTo(types, items, idx) + [Out(KindOf(types[idx]), Payload(items[idx]), more)];
        idx := idx + 1;
      }
      return true;
    }

    /** `safe_send` of a reply that cannot raise. */
    method SafeSend(addr: seq<byte>, types: seq<int>, items: seq<Item>)
      requires Sendable(types, items)
      modifies this
      ensures inbound == []
      ensures outbound == old(outbound) + Envelope(addr, types, items)
    {
      var ok := TrySafeSend(Some(addr), types, items);
    }
  }
}

=== FILE: utils.dfy ===
/** File-name scheme of saved calculations and additional phases, option
    defaulting, the target list of a saved calculation, and the sentinel rule
    of the feedback callback. File contents, the current directory, the path
    separator and the timestamp are parameters. */
module Utils {
  import opened Wire
  import opened Grids

  /** A string that may be Python's `None`. */
  type PyStr = Option<string>

  /** `s1 + s2 + ...`: a `TypeError` as soon as one operand is `None`. */
  function Concat(parts: seq<PyStr>): (r: Result<string>)
    ensures r.Ok? <==> forall k | 0 <= k < |parts| :: parts[k].Some?
    ensures r.Err? ==> r.error == "TypeError"
  {
    if parts == [] then Ok("")
    else
      match Concat(parts[..|parts| - 1])
      case Err(e) => Err(e)
      case Ok(s) =>
        if parts[|parts| - 1].None? then Err("TypeError") else Ok(s + parts[|parts| - 1].value)
  }

  /** The concatenation of strings that are all present. */
  lemma ConcatStrings(a: string, b: string, c: string, d: string)
    ensures Concat([Some(a), Some(b), Some(c), Some(d)]) == Ok(a + b + c + d)
  {
    assert [Some(a), Some(b), Some(c), Some(d)][..3] == [Some(a), Some(b), Some(c)];
    assert [Some(a), Some(b), Some(c)][..2] == [Some(a), Some(b)];
    assert [Some(a), Some(b)][..1] == [Some(a)];
    assert [Some(a)][..0] == [];
    assert "" + a == a;
    assert Concat([Some(a)]) == Ok(a);
    assert Concat([Some(a), Some(b)]) == Ok(a + b);
    assert Concat([Some(a), Some(b), Some(c)]) == Ok(a + b + c);
  }

  // ------------------------------------------------------ saved calculations

  /** The keys of a `save_options` dict; `None` is a missing key. */
  datatype SaveOptions = SaveOptions(
    config: Option<bool>, slmPattern: Option<bool>, ffPattern: Option<bool>, target: Option<bool>,
    path: Option<PyStr>, name: Option<PyStr>, prefix: Option<PyStr>, crop: Option<bool>)

  predicate Complete(o: SaveOptions) {
    o.config.Some? && o.slmPattern.Some? && o.ffPattern.Some? && o.target.Some?
    && o.path.Some? && o.name.Some? && o.prefix.Some? && o.crop.Some?
  }

  function OrElse<T>(o: Option<T>, d: T): T {
    if o.Some? then o.value else d
  }

  /** The defaults `save_slm_calculation` fills in: flags false, the current
      directory, an empty name, the timestamp as prefix, cropping on. */
  function Defaulted(o: SaveOptions, cwd: string, now: string): (d: SaveOptions)
    ensures Complete(d)
    ensures o.config.Some? ==> d.config == o.config
    ensures o.slmPattern.Some? ==> d.slmPattern == o.slmPattern
    ensures o.ffPattern.Some? ==> d.ffPattern == o.ffPattern
    ensures o.target.Some? ==> d.target == o.target
    ensures o.path.Some? ==> d.path == o.path
    ensures o.name.Some? ==> d.name == o.name
    ensures o.prefix.Some? ==> d.prefix == o.prefix
    ensures o.crop.Some? ==> d.crop == o.crop
  {
    SaveOptions(
      Some(OrElse(o.config, false)), Some(OrElse(o.slmPattern, false)),
      Some(OrElse(o.ffPattern, false)), Some(OrElse(o.target, false)),
      Some(OrElse(o.path, Some(cwd))), Some(OrElse(o.name, Some(""))),
      Some(OrElse(o.prefix, Some(now))), Some(OrElse(o.crop, true)))
  }

  /** Missing keys get their documented defaults, and defaulting twice is
      defaulting once. */
  lemma DefaultValues(o: SaveOptions, cwd: string, now: string)
    ensures var d := Defaulted(o, cwd, now);
      && (o.config.None? ==> d.config == Some(false))
      && (o.slmPattern.None? ==> d.slmPattern == Some(false))
      && (o.ffPattern.None? ==> d.ffPattern == Some(false))
      && (o.target.None? ==> d.target == Some(false))
      && (o.path.None? ==> d.path == Some(Some(cwd)))
      && (o.name.None? ==> d.name == Some(Some("")))
      && (o.prefix.None? ==> d.prefix == Some(Some(now)))
      && (o.crop.None? ==> d.crop == Some(true))
    ensures Defaulted(Defaulted(o, cwd, now), cwd, now) == Defaulted(o, cwd, now)
  {
  }

  /** The file paths a save wrote (`full_path`, `full_path2`); `None` when not written. */
  datatype SavedPaths = SavedPaths(config: PyStr, data: PyStr)

  function WantsData(d: SaveOptions): bool {
    d.slmPattern == Some(true) || d.ffPattern == Some(true) || d.target == Some(true)
  }

  /** `path + os.sep + prefix + name`, the stem of both saved files. */
  function Stem(d: SaveOptions, sep: string): Result<string>
    requires Complete(d)
  {
    Concat([d.path.value, Some(sep), d.prefix.value, d.name.value])
  }

  /** `save_slm_calculation`: the config file `stem_config.yml` when
      `config` is set, the data file `stem_data.npz` when any of the three
      data flags is set, or the `TypeError` of building a stem from a `None`. */
  function SaveSlmCalculation(o: SaveOptions, cwd: string, now: string, sep: string): (r: Result<SavedPaths>)
    ensures var d := Defaulted(o, cwd, now);
      r.Err? <==> (d.config == Some(true) || WantsData(d)) && Stem(d, sep).Err?
    ensures var d := Defaulted(o, cwd, now);
      r.Ok? ==> && (r.value.config.Some? <==> d.config == Some(true))
                && (r.value.data.Some? <==> WantsData(d))
    ensures r.Err? ==> r.error == "TypeError"
    ensures r.Ok? && r.value.config.Some? ==>
      r.value.config.value == Stem(Defaulted(o, cwd, now), sep).value + "_config.yml"
    ensures r.Ok? && r.value.data.Some? ==>
      r.value.data.value == Stem(Defaulted(o, cwd, now), sep).value + "_data.npz"
  {
    var d := Defaulted(o, cwd, now);
    var stem := Stem(d, sep);
    if d.config == Some(true) || WantsData(d) then
      if stem.Err? then Err("TypeError")
      else Ok(SavedPaths(
        if d.config == Some(true) then Some(stem.value + "_config.yml") else None,
        if WantsData(d) then Some(stem.value + "_data" + ".npz") else None))
    else Ok(SavedPaths(None, None))
  }

  /** The arrays the `.npz` file holds, by name. */
  function SavedKeys(d: SaveOptions): (keys: set<string>)
    ensures "slm_phase" in keys <==> d.slmPattern == Some(true)
    ensures "ff_amp" in keys <==> d.ffPattern == Some(true)
    ensures "target" in keys <==> d.target == Some(true)
    ensures keys == {} <==> !WantsData(d)
  {
    (if d.slmPattern == Some(true) then {"slm_amp", "raw_slm_amp", "slm_phase", "raw_slm_phase"} else {})
    + (if d.ffPattern == Some(true) then {"ff_amp"} else {})
    + (if d.target == Some(true) then {"target", "weights"} else {})
  }

  /** The files `load_slm_calculation(base_path, bConfig, bPhase)` opens. */
  function LoadSlmCalculation(base: string, bConfig: bool, bPhase: bool): (r: SavedPaths)
    ensures r.config.Some? <==> bConfig
    ensures r.data.Some? <==> bPhase
  {
    SavedPaths(if bConfig then Some(base + "_config.yml") else None,
               if bPhase then Some(base + "_data.npz") else None)
  }

  /** Saving and loading agree on names: dropping the 9 characters of
      `"_data.npz"` from a saved data path gives a base from which loading
      opens exactly the files that were saved. */
  lemma {:induction false} SaveThenLoad(o: SaveOptions, cwd: string, now: string, sep: string)
    requires SaveSlmCalculation(o, cwd, now, sep).Ok?
    requires SaveSlmCalculation(o, cwd, now, sep).value.data.Some?
    ensures var saved := SaveSlmCalculation(o, cwd, now, sep).value;
      var base := DropLast(saved.data.value, 9);
      && LoadSlmCalculation(base, saved.config.Some?, true) == saved
  {
    var d := Defaulted(o, cwd, now);
    var stem := Stem(d, sep).value;
    assert stem + "_data" + ".npz" == stem + "_data.npz";
    DropLastOfAppend(stem, "_data.npz");
  }

  // ------------------------------------------------------ additional phases

  datatype AddPhaseOptions = AddPhaseOptions(
    config: Option<bool>, phase: Option<bool>, path: Option<PyStr>, name: Option<PyStr>, prefix: Option<PyStr>)

  /** `path + os.sep + prefix + name` of `save_add_phase`, with the same
      defaults as for a calculation. */
  function AddPhaseStem(o: AddPhaseOptions, cwd: string, now: string, sep: string): Result<string> {
    Concat([OrElse(o.path, Some(cwd)), Some(sep), OrElse(o.prefix, Some(now)), OrElse(o.name, Some(""))])
  }

  /** `save_add_phase`: the same stem, with `_add_phase_config.yml` and
      `_add_phase_data.npz`. */
  function SaveAddPhase(o: AddPhaseOptions, cwd: string, now: string, sep: string): (r: Result<SavedPaths>)
    ensures r.Ok? ==> && (r.value.config.Some? <==> o.config == Some(true))
                      && (r.value.data.Some? <==> o.phase == Some(true))
    ensures r.Err? <==> (o.config == Some(true) || o.phase == Some(true)) && AddPhaseStem(o, cwd, now, sep).Err?
    ensures r.Err? ==> r.error == "TypeError"
    ensures r.Ok? && r.value.config.Some? ==>
      r.value.config.value == AddPhaseStem(o, cwd, now, sep).value + "_add_phase_config.yml"
    ensures r.Ok? && r.value.data.Some? ==>
      r.value.data.value == AddPhaseStem(o, cwd, now, sep).value + "_add_phase_data.npz"
  {
    var stem := AddPhaseStem(o, cwd, now, sep);
    var config := o.config == Some(true);
    var phase := o.phase == Some(true);
    if (config || phase) && stem.Err? then Err("TypeError")
    else Ok(SavedPaths(
      if config then Some(stem.value + "_add_phase_config.yml") else None,
      if phase then Some(stem.value + "_add_phase_data" + ".npz") else None))
  }

  /** The files `load_add_phase(base_path, bConfig, bPhase)` opens. */
  function LoadAddPhase(base: string, bConfig: bool, bPhase: bool): (r: SavedPaths)
    ensures r.config.Some? <==> bConfig
    ensures r.data.Some? <==> bPhase
  {
    SavedPaths(if bConfig then Some(base + "_add_phase_config.yml") else None,
               if bPhase then Some(base + "_add_phase_data.npz") else None)
  }

  /** The additional-phase suffixes are symmetric too: the saved files are
      the ones loading opens from the stem. */
  lemma {:induction false} SaveThenLoadAddPhase(o: AddPhaseOptions, cwd: string, now: string, sep: string)
    requires SaveAddPhase(o, cwd, now, sep).Ok?
    requires SaveAddPhase(o, cwd, now, sep).value.data.Some?
    ensures var saved := SaveAddPhase(o, cwd, now, sep).value;
      var base := DropLast(saved.data.value, |"_add_phase_data.npz"|);
      && LoadAddPhase(base, saved.config.Some?, true) == saved
  {
    var stem := AddPhaseStem(o, cwd, now, sep).value;
    assert stem + "_add_phase_data" + ".npz" == stem + "_add_phase_data.npz";
    DropLastOfAppend(stem, "_add_phase_data.npz");
  }

  // ---------------------------------------------------------------- targets

  /** Row-major order of cells. */
  predicate Before(a: (nat, nat), b: (nat, nat)) {
    a.0 < b.0 || (a.0 == b.0 && a.1 < b.1)
  }

  /** The nonzero cells of row r among its first n cells, left to right. */
  function RowHits(row: seq<real>, r: nat, n: nat): seq<(nat, nat)>
    requires n <= |row|
  {
    if n == 0 then []
    else RowHits(row, r, n - 1) + (if row[n - 1] != 0.0 then [(r, n - 1)] else [])
  }

  /** `np.nonzero(g)`: the nonzero cells of the first n rows, in row-major order. */
  function NonZero(g: Grid, n: nat): seq<(nat, nat)>
    requires n <= |g|
  {
    if n == 0 then [] else NonZero(g, n - 1) + RowHits(g[n - 1], n - 1, |g[n - 1]|)
  }

  lemma {:induction false} RowHitsSpec(row: seq<real>, r: nat, n: nat)
    requires n <= |row|
    ensures forall c: nat :: (r, c) in RowHits(row, r, n) <==> c < n && row[c] != 0.0
    ensures forall k | 0 <= k < |RowHits(row, r, n)| :: RowHits(row, r, n)[k].0 == r
    ensures forall k, l | 0 <= k < l < |RowHits(row, r, n)| ::
      RowHits(row, r, n)[k].1 < RowHits(row, r, n)[l].1
    ensures forall k | 0 <= k < |RowHits(row, r, n)| :: RowHits(row, r, n)[k].1 < n
  {
    if n > 0 {
      RowHitsSpec(row, r, n - 1);
    }
  }

  /** The cells listed are exactly the nonzero ones, each once, in
      row-major order. */
  lemma {:induction false} NonZeroSpec(g: Grid, n: nat)
    requires n <= |g|
    ensures forall r: nat, c: nat :: (r, c) in NonZero(g, n) <==> r < n && c < |g[r]| && g[r][c] != 0.0
    ensures forall k | 0 <= k < |NonZero(g, n)| :: NonZero(g, n)[k].0 < n
    ensures forall k, l | 0 <= k < l < |NonZero(g, n)| :: Before(NonZero(g, n)[k], NonZero(g, n)[l])
  {
    if n > 0 {
      NonZeroSpec(g, n - 1);
      RowHitsSpec(g[n - 1], n - 1, |g[n - 1]|);
      var prev := NonZero(g, n - 1);
      var hits := RowHits(g[n - 1], n - 1, |g[n - 1]|);
      assert NonZero(g, n) == prev + hits;
      forall r: nat, c: nat
        ensures (r, c) in NonZero(g, n) <==> r < n && c < |g[r]| && g[r][c] != 0.0
      {
        assert (r, c) in prev + hits <==> (r, c) in prev || (r, c) in hits;
      }
    }
  }

  /** `get_target(data_dict)`: a 2 x N array whose column k is the k-th
      nonzero cell of `data_dict["target"]` in row-major order, its column
      index in row 0 and its row index in row 1; `None` for the `KeyError`
      of a dict without a target. */
  method GetTarget(data: map<string, Grid>) returns (target: Option<array2<real>>)
    ensures "target" in data <==> target.Some?
    ensures target.Some? ==>
      var t := target.value;
      var idxs := NonZero(data["target"], |data["target"]|);
      && fresh(t) && t.Length0 == 2 && t.Length1 == |idxs|
      && forall k | 0 <= k < |idxs| :: t[0, k] == idxs[k].1 as real && t[1, k] == idxs[k].0 as real
  {
    if "target" !in data {
      return None;
    }
    var g := data["target"];
    var idxs := NonZero(g, |g|);
    var t := new real[2, |idxs|]((i, k) => 0.0);
    var k := 0;
    while k < |idxs|
      invariant 0 <= k <= |idxs|
      invariant forall m | 0 <= m < k :: t[0, m] == idxs[m].1 as real && t[1, m] == idxs[m].0 as real
    {
      t[0, k] := idxs[k].1 as real;
      t[1, k] := idxs[k].0 as real;
      k := k + 1;
    }
    return Some(t);
  }

  // --------------------------------------------------------------- feedback

  /** The float64 values -1.0 and 1.0, as `tobytes()` lays them out. */
  const MinusOne: F64 := [0, 0, 0, 0, 0, 0, 0xF0, 0xBF]
  const One: F64 := [0, 0, 0, 0, 0, 0, 0xF0, 0x3F]

  /** `feedback_client_callback`: the reply `[-1.0]` means "no measurement"
      and is replaced by one weight 1.0 per spot; any other reply, `None`
      included (`np.array_equal(None, [-1.0])` is false), is stored as the
      spot amplitudes. */
  function ExternalSpotAmp(spotAmps: Option<seq<F64>>, nspots: nat): (r: Option<seq<F64>>)
    ensures spotAmps == Some([MinusOne]) ==>
      r.Some? && |r.value| == nspots && forall i | 0 <= i < nspots :: r.value[i] == One
    ensures spotAmps != Some([MinusOne]) ==> r == spotAmps
  {
    if spotAmps == Some([MinusOne]) then Some(seq(nspots, i => One)) else spotAmps
  }

  /** The sentinel never reaches the hologram. */
  lemma SentinelNeverStored(spotAmps: Option<seq<F64>>, nspots: nat)
    ensures ExternalSpotAmp(spotAmps, nspots) != Some([MinusOne])
  {
    if spotAmps == Some([MinusOne]) && nspots == 1 {
      assert ExternalSpotAmp(spotAmps, nspots).value[0] == One;
    }
  }
}

=== FILE: wire.dfy ===
/** Bytes, frames and the three payload encodings that the servers and the
    clients exchange: text (`send_string` / `recv_string`), little-endian
    integers (`int.to_bytes(k, 'little')` / `int.from_bytes(b, 'little')`) and
    float64 buffers (`ndarray.tobytes()` / `np.frombuffer`). */
module Wire {

  type byte = x: int | 0 <= x < 256

  datatype Option<+T> = None | Some(value: T)

  /** A value, or the Python exception (by class name) that producing it raises. */
  datatype Result<+T> = Ok(value: T) | Err(error: string)

  /** How a frame was put on the wire: `send` (binary) or `send_string` (text). */
  datatype Kind = Binary | Text

  /** An item of a reply list as a handler builds it: `bytes`, `str`, or a
      `None` that reached the list. */
  datatype Item = Bytes(bytes: seq<byte>) | Str(text: string) | Absent

  /** One frame sent by a socket: its kind, its bytes and its `zmq.SNDMORE` flag. */
  datatype Out = Out(kind: Kind, data: seq<byte>, more: bool)

  /** The servers' `msg_type` tags: 1 selects `send_string`, anything else `send`. */
  function KindOf(tag: int): (k: Kind)
    ensures k == Text <==> tag == 1
  {
    if tag == 1 then Text else Binary
  }

  // ---------------------------------------------------------------- text

  /** Characters whose code fits in one byte. */
  predicate IsLatin1(s: string) {
    forall i | 0 <= i < |s| :: s[i] as int < 256
  }

  /** The bytes of a `str` sent with `send_string`, one byte per character. */
  function EncodeText(s: string): (b: seq<byte>)
    ensures |b| == |s|
    ensures IsLatin1(s) ==> forall i | 0 <= i < |s| :: b[i] == s[i] as int
  {
    seq(|s|, i requires 0 <= i < |s| => (s[i] as int) % 256)
  }

  /** The `str` that `recv_string` returns for a frame. */
  function DecodeText(b: seq<byte>): (s: string)
    ensures |s| == |b| && IsLatin1(s)
    ensures forall i | 0 <= i < |b| :: s[i] as int == b[i]
  {
    seq(|b|, i requires 0 <= i < |b| => b[i] as char)
  }

  lemma TextRoundTrip(s: string)
    requires IsLatin1(s)
    ensures DecodeText(EncodeText(s)) == s
  {
    var d := DecodeText(EncodeText(s));
    assert forall i | 0 <= i < |s| :: d[i] as int == s[i] as int;
  }

  // ------------------------------------------------- little-endian integers

  function Pow256(k: nat): (p: nat)
    ensures p >= 1
  {
    if k == 0 then 1 else 256 * Pow256(k - 1)
  }

  /** The k least significant base-256 digits of v, least significant first. */
  function LeDigits(v: nat, k: nat): (b: seq<byte>)
    ensures |b| == k
  {
    if k == 0 then [] else [v % 256] + LeDigits(v / 256, k - 1)
  }

  /** `int.to_bytes(k, 'little')`: an `OverflowError` unless 0 <= v < 256^k. */
  function ToBytesLE(v: int, k: nat): (r: Result<seq<byte>>)
    ensures r.Ok? <==> 0 <= v < Pow256(k)
    ensures r.Ok? ==> |r.value| == k && FromBytesLE(r.value) == v
    ensures r.Err? ==> r.error == "OverflowError"
  {
    if 0 <= v < Pow256(k) then
      LeRoundTrip(v, k);
      Ok(LeDigits(v, k))
    else
      Err("OverflowError")
  }

  /** `int.from_bytes(b, 'little')` (unsigned). */
  function FromBytesLE(b: seq<byte>): nat
  {
    if b == [] then 0 else b[0] + 256 * FromBytesLE(b[1..])
  }

  lemma {:induction false} LeRoundTrip(v: nat, k: nat)
    requires v < Pow256(k)
    ensures FromBytesLE(LeDigits(v, k)) == v
  {
    if k > 0 {
      var q := v / 256;
      assert v == 256 * q + v % 256;
      assert q < Pow256(k - 1);
      LeRoundTrip(q, k - 1);
      var b := LeDigits(v, k);
      assert b[1..] == LeDigits(q, k - 1);
    }
  }

  /** Decoding then re-encoding at the same width gives the bytes back, so
      every k-byte frame is the encoding of exactly one integer. */
  lemma {:induction false} LeDecodeEncode(b: seq<byte>)
    ensures FromBytesLE(b) < Pow256(|b|)
    ensures LeDigits(FromBytesLE(b), |b|) == b
  {
    if b != [] {
      var n := FromBytesLE(b[1..]);
      LeDecodeEncode(b[1..]);
      var v := b[0] + 256 * n;
      assert v == FromBytesLE(b);
      assert v % 256 == b[0] && v / 256 == n;
      assert v < Pow256(|b|) by {
        assert n + 1 <= Pow256(|b| - 1);
        assert 256 * (n + 1) <= 256 * Pow256(|b| - 1);
      }
      assert LeDigits(v, |b|) == [b[0]] + LeDigits(n, |b| - 1);
      assert [b[0]] + b[1..] == b;
    }
  }

  // ------------------------------------------------------- float64 buffers

  /** One float64 as the 8 bytes `tobytes()` gives; its numeric value is not modelled. */
  type F64 = w: seq<byte> | |w| == 8 witness [0, 0, 0, 0, 0, 0, 0, 0]

  /** Consecutive 8-byte words of a buffer whose length is a multiple of 8. */
  function Words(b: seq<byte>): (ws: seq<F64>)
    requires |b| % 8 == 0
    ensures |ws| == |b| / 8
    decreases |b|
  {
    if b == [] then [] else [b[..8]] + Words(b[8..])
  }

  /** `np.frombuffer(b)` with the default float64 dtype: a `ValueError`
      unless the length is a multiple of the element size. */
  function FromBuffer(b: seq<byte>): (r: Result<seq<F64>>)
    ensures r.Ok? <==> |b| % 8 == 0
    ensures r.Ok? ==> |r.value| == |b| / 8
  {
    if |b| % 8 == 0 then Ok(Words(b)) else Err("ValueError")
  }

  /** `ndarray.tobytes()` of a flat float64 array. */
  function ToBuffer(xs: seq<F64>): (b: seq<byte>)
    ensures |b| == 8 * |xs|
  {
    if xs == [] then [] else xs[0] + ToBuffer(xs[1..])
  }

  lemma {:induction false} BufferRoundTrip(xs: seq<F64>)
    ensures FromBuffer(ToBuffer(xs)) == Ok(xs)
  {
    if xs != [] {
      BufferRoundTrip(xs[1..]);
      var b := ToBuffer(xs);
      assert b[..8] == xs[0];
      assert b[8..] == ToBuffer(xs[1..]);
      assert xs == [xs[0]] + xs[1..];
    }
  }

  // ---------------------------------------------------------- Python slices

  /** `s[:-k]` for k > 0: everything but the last k elements, empty when s is shorter. */
  function DropLast<T>(s: seq<T>, k: nat): (r: seq<T>)
    requires k > 0
    ensures |s| >= k ==> |r| == |s| - k && r == s[..|s| - k]
    ensures |s| < k ==> r == []
  {
    if |s| >= k then s[..|s| - k] else []
  }

  lemma DropLastOfAppend<T>(s: seq<T>, t: seq<T>)
    requires |t| > 0
    ensures DropLast(s + t, |t|) == s
  {
    assert (s + t)[..|s|] == s;
  }
}
